=== FILE: README.md ===
# Vayada creator marketplace front end — Dafny model

The Vayada front end lets hotels and content creators find each other. Hotels publish
listings with collaboration offerings: a free stay, a paid collaboration or a discount,
each available in some months and on some platforms. Creators describe their social
accounts and apply to listings, and hotels invite creators. Both sides then follow their
collaborations on one page.

This project models the deterministic logic behind those screens as pure Dafny functions
over immutable data:

- the cookie-consent store and its storage encoding;
- the authentication and local-storage encodings;
- the form reducers and validators of the hotel wizard, the creator and hotel profile
  editors, the deliverables selector and the image-upload guards;
- the marketplace matching rules of the application and invitation modals;
- the collaborations page's filter, sort and status update;
- the status, month and colour mappers;
- the small wizard components: platform cards, demographics inputs, listing offerings,
  step indicators, navigation buttons and the hotel form shell.

Storage is a `map<string, string>`. Remote calls, `FileReader` results, clocks and random
ids become inputs of the functions that use them.

The modules follow the source files. Shared helpers live in three modules:

- `Wrappers` holds `Option`.
- `Seqs` holds the list helpers: `filter`, `map`, `find`, toggles and counting.
- `Text` models JavaScript string behaviour: trimming, ASCII case mapping, `includes`,
  `parseInt`, number-to-text and character-code ordering.

`Validation` provides the "first failing rule" validator, and `Sorting` an insertion sort by a
comparator.

## Model

| member | source | states |
|---|---|---|
| StatusMapping.ToFrontendStatus | lib/utils/statusMapping.ts:15-18 | `declined` becomes `rejected`, every other text passes through, and a backend status maps into the frontend vocabulary |
| StatusMapping.ToBackendStatus | lib/utils/statusMapping.ts:24-27 | `rejected` becomes `declined`, every other text passes through, and a frontend status maps into the backend vocabulary |
| StatusMapping.FrontendRoundTrip | lib/utils/statusMapping.ts:15-27 | on the frontend vocabulary, converting to the backend and back is the identity |
| StatusMapping.BackendRoundTrip | lib/utils/statusMapping.ts:15-27 | on the backend vocabulary, converting to the frontend and back is the identity |
| StatusMapping.RoundTripNeedsVocabulary | lib/utils/statusMapping.ts:15-27 | outside the vocabulary the round trip fails: the text `declined` comes back from the frontend side as `rejected` |
| StatusMapping.BackendTableAgrees | lib/utils/statusMapping.ts:32-39 | `BACKEND_TO_FRONTEND_STATUS` has exactly the backend statuses as keys and agrees with `toFrontendStatus` |
| StatusMapping.FrontendTableAgrees | lib/utils/statusMapping.ts:44-51 | `FRONTEND_TO_BACKEND_STATUS` has exactly the frontend statuses as keys and agrees with `toBackendStatus` |
| Months.GetMonthAbbr | lib/utils/months.ts:36-38 | a table name gives exactly its table entry, one of the twelve abbreviations; any other name gives its first three characters (fewer for a shorter name) |
| Months.FullNamesAbbreviate | lib/utils/months.ts:6-38 | each English month name abbreviates to the matching entry of `MONTHS_ABBR` |
| Months.AbbreviationsFixed | lib/utils/months.ts:36-38 | an abbreviation maps to itself |
| Months.GermanNameAt | lib/utils/months.ts:8-19 | the German name of each month, as the table spells it, abbreviates to the English abbreviation at the same position |
| Months.GermanNames | lib/utils/months.ts:8-19 | each of the twelve German names, as the table spells them, maps to the English abbreviation of the same month (`Mai` to `May`, `Oktober` to `Oct`, `Dezember` to `Dec`) |
| Months.MaerzFallsBack | lib/utils/months.ts:10 | the March key is stored double-encoded, so the real `März` misses the table and falls back to `Mär` |
| Months.ShortKeys | lib/utils/months.ts:6-29 | the only table keys of three or fewer characters are `Mai` and `May` |
| Months.GetMonthAbbrIdempotent | lib/utils/months.ts:36-38 | abbreviating an abbreviation changes nothing unless the first result is `Mai` |
| Months.GetMonthAbbrNotIdempotent | lib/utils/months.ts:36-38 | `Maix` abbreviates to `Mai`, which abbreviates again to `May` |
| Months.FormatMonthsAbbr | lib/utils/months.ts:45-47 | the abbreviations joined by `, `: empty for no months, one abbreviation for one |
| Colors.GetStatusStyle | lib/constants/colors.ts:72-74 | the style of the lower-cased status when it has one, and otherwise the pending style; always one of the table's styles |
| Colors.GetStatusClasses | lib/constants/colors.ts:63-67 | an unknown status gives the pending background and text classes |
| Colors.ClassesMatchStyle | lib/constants/colors.ts:63-74 | the class string is the background and text of the style lookup, joined by a space |
| Colors.StyleIgnoresCase | lib/constants/colors.ts:63-74 | two statuses that agree ignoring case get the same style and classes |
| Colors.RejectedLooksPending | lib/constants/colors.ts:12-74 | the frontend status `rejected` has no style and shows as pending, while `declined` (in any case) shows the error style |
| Options.MonthTablesAligned | lib/constants/options.ts:7-16 | both month tables have twelve entries, and each abbreviation is the first three letters of its month |
| Options.MonthNamesDistinct | lib/constants/options.ts:7-16 | no month name or abbreviation repeats |
| Options.PlatformListsNested | lib/constants/options.ts:19-29 | each platform list is free of repeats and contained in the next longer one |
| Options.DeliverablesCoverPlatforms | lib/constants/options.ts:27-42 | every platform, `Custom` included, has a non-empty deliverable list |
| Options.ThreeCollaborationTypes | lib/constants/options.ts:32 | the collaboration types are exactly `Free Stay`, `Paid` and `Discount` |
| LocalStorage.BoolText | hooks/useLocalStorage.ts:61 | `String(b)` is the text `true` exactly when `b` holds |
| LocalStorage.ReadValue | hooks/useLocalStorage.ts:14-37 | the read has the initial value's kind; a missing key, or JSON text that does not parse, gives the initial value |
| LocalStorage.Mount | hooks/useLocalStorage.ts:39-44 | after mount the hook holds what the storage read returns, with its key and initial value unchanged |
| LocalStorage.SetValue | hooks/useLocalStorage.ts:47-75 | the new value (an updater applied to the held value) is encoded under the key and held; no other key changes |
| LocalStorage.RemoveValue | hooks/useLocalStorage.ts:78-89 | the key is deleted, the hook falls back to its initial value, and no other key changes |
| LocalStorage.StringRoundTrip | hooks/useLocalStorage.ts:14-75 | a string hook reads back the string it wrote |
| LocalStorage.BoolRoundTrip | hooks/useLocalStorage.ts:14-75 | a boolean hook reads back the boolean it wrote |
| LocalStorage.SetThenMount | hooks/useLocalStorage.ts:14-75 | a value of the initial value's kind survives a write and a remount, provided the JSON text written parses |
| LocalStorage.RemoveThenMount | hooks/useLocalStorage.ts:14-89 | after removal a remount reads the initial value |
| LocalStorage.BoolReadsOnlyTrue | hooks/useLocalStorage.ts:29-31 | a boolean hook reads any stored text other than `true` as false |
| Auth.ReadAuth | hooks/useAuth.ts:48-56 | each of the three flags is set exactly when its stored text is `true`; each of the five text fields is null exactly when its key is missing and otherwise holds the stored text unchanged |
| Auth.Load | hooks/useAuth.ts:43-73 | loading always finishes (`isLoading` false) and holds the state read from storage |
| Auth.ApplyOp | hooks/useAuth.ts:118-161 | one `setItem` or `removeItem` changes only its own key |
| Auth.ApplyAllOther | hooks/useAuth.ts:118-161 | keys outside the written ones keep their text |
| Auth.ApplyAllAt | hooks/useAuth.ts:118-161 | with distinct keys, each written key ends as its own write left it |
| Auth.FlagOp | hooks/useAuth.ts:118-120 | a present flag is written as `true` or `false`; an absent one leaves its key alone |
| Auth.TextOp | hooks/useAuth.ts:121-127 | a present non-empty text is written; a present null or empty text removes the key; an absent one leaves it |
| Auth.StorePatch | hooks/useAuth.ts:112-161 | each of the eight keys receives its field's write, and every other key is unchanged |
| Auth.SetAuthState | hooks/useAuth.ts:112-167 | memory takes the patch overlaid on the previous state, `isLoading` is kept, and storage takes the writes |
| Auth.ReloadAfterSet | hooks/useAuth.ts:48-167 | reading storage after a write gives the earlier read overlaid with the patch, with empty texts read back as null |
| Auth.EmptyNameLostOnReload | hooks/useAuth.ts:135-163 | an empty user name is held in memory, but its key is removed, so a reload reads null |
| Auth.ClearAuth | hooks/useAuth.ts:170-199 | all eight field keys and the cached user key are removed, every other key is kept, the state is logged out, and a reload reads logged out |
| Auth.AtMostOneRole | hooks/useAuth.ts:206-208 | at most one of `isHotel`, `isCreator` and `isAdmin` holds |
| CookieConsent.Expect | context/CookieConsentContext.tsx:65 | a literal is accepted exactly when the text starts with it, and the rest is what follows it |
| CookieConsent.ParseBool | context/CookieConsentContext.tsx:65 | a parsed JSON boolean is the text `true` or `false` of that value, followed by the rest |
| CookieConsent.DecodeMembers | context/CookieConsentContext.tsx:65 | decoded members re-encode to exactly the decoded text |
| CookieConsent.ParseBoolText | context/CookieConsentContext.tsx:63-111 | a boolean written as text parses back to itself and leaves the rest |
| CookieConsent.DecodeEncodeMembers | context/CookieConsentContext.tsx:63-111 | decoding inverts encoding, member by member |
| CookieConsent.Decode | context/CookieConsentContext.tsx:65 | a decoded record is one whose `JSON.stringify` is exactly the stored text |
| CookieConsent.DecodeEncode | context/CookieConsentContext.tsx:63-111 | every record written is read back as itself |
| CookieConsent.GetVisitorId | context/CookieConsentContext.tsx:33-47 | a stored non-empty id is returned with storage unchanged; otherwise a `v_` id is stored and returned; the id is never empty and no other key changes |
| CookieConsent.VisitorIdStable | context/CookieConsentContext.tsx:38-47 | a second call returns the first call's id and writes nothing |
| CookieConsent.SyncRemote | context/CookieConsentContext.tsx:75-93 | with an empty visitor id or no backend record nothing changes; a record replaces the consent in memory and storage and hides the banner |
| CookieConsent.Load | context/CookieConsentContext.tsx:59-103 | loading always finishes with the settings panel closed; a stored value that does not parse leaves the initial state and storage untouched; consent is held exactly when the user has consented; a shown banner means no consent |
| CookieConsent.LoadStored | context/CookieConsentContext.tsx:63-68 | without a backend record, a stored record loads as is and the banner stays hidden |
| CookieConsent.LoadNothingShowsBanner | context/CookieConsentContext.tsx:69-72 | with nothing stored and no backend record, the banner is shown and there is no consent |
| CookieConsent.RemoteOverrides | context/CookieConsentContext.tsx:75-90 | a backend record wins over a readable stored record, in memory and in storage |
| CookieConsent.RemoteNecessaryNotForced | context/CookieConsentContext.tsx:80-85 | the backend's `necessary` is copied as sent, so a record saying false loads as false |
| CookieConsent.Save | context/CookieConsentContext.tsx:106-128 | the saved consent has `necessary` forced on, is both held and stored, marks the user as consented, hides banner and settings, and changes no key other than the consent and visitor id |
| CookieConsent.SaveThenReload | context/CookieConsentContext.tsx:59-128 | after any save, a reload without a backend record restores the saved consent with the banner hidden |
| CookieConsent.AcceptAll | context/CookieConsentContext.tsx:130-137 | every category on, in memory and in storage |
| CookieConsent.AcceptNecessaryOnly | context/CookieConsentContext.tsx:139-146 | only the necessary category on, in memory and in storage |
| CookieConsent.UpdateConsent | context/CookieConsentContext.tsx:148-160 | each optional category takes the patch's value or else the current one (necessary-only when there is none); `necessary` is on; the result is stored and the banner and settings are hidden |
| CookieConsent.UpdateFromNothing | context/CookieConsentContext.tsx:149-154 | an empty patch with no current consent saves necessary-only |
| CookieConsent.OpenSettings | context/CookieConsentContext.tsx:162-164 | the settings panel opens and nothing else changes |
| CookieConsent.CloseSettings | context/CookieConsentContext.tsx:166-168 | the settings panel closes and nothing else changes |
| CookieConsent.OpenCloseRoundTrip | context/CookieConsentContext.tsx:162-168 | opening and closing the settings of a closed panel restores the state |
| DeliverableSelection.QuantityOf | hooks/usePlatformDeliverables.ts:44 | a type has a quantity exactly when it is among the platform's deliverables, and that item is in the list |
| DeliverableSelection.RemoveKind | hooks/usePlatformDeliverables.ts:27 | the type is gone, every other type and its quantity stays, nothing new appears |
| DeliverableSelection.AppendKind | hooks/usePlatformDeliverables.ts:32 | appending a new type gives it its quantity and changes no other quantity |
| DeliverableSelection.ToggleKind | hooks/usePlatformDeliverables.ts:23-34 | the type is present afterwards exactly when it was absent, a newly added one has quantity 1, other types keep theirs |
| DeliverableSelection.Requantify | hooks/usePlatformDeliverables.ts:56-58 | the list of types is unchanged; the matching type takes the new quantity, the others keep theirs |
| DeliverableSelection.SetQuantity | hooks/usePlatformDeliverables.ts:53-65 | afterwards the type has exactly the given quantity, whether it was present or appended; no other quantity changes |
| DeliverableSelection.GetPlatformDeliverables | hooks/usePlatformDeliverables.ts:107-109 | an unselected platform has no deliverables; a selected one gets the list stored in its entry |
| DeliverableSelection.RemovePlatform | hooks/usePlatformDeliverables.ts:12 | the platform leaves the selection, every other platform keeps its entry and deliverables, and no duplicates arise |
| DeliverableSelection.AppendEntry | hooks/usePlatformDeliverables.ts:14 | a new platform entry is found with its deliverables and hides no other platform's |
| DeliverableSelection.PlatformToggle | hooks/usePlatformDeliverables.ts:8-17 | the platform is selected afterwards exactly when it was not, with no deliverables; other platforms are untouched; at most one entry per platform is kept |
| DeliverableSelection.RemoveAppended | hooks/usePlatformDeliverables.ts:12-14 | removing a platform just appended restores the selection |
| DeliverableSelection.PlatformToggleTwice | hooks/usePlatformDeliverables.ts:8-17 | toggling a platform twice gives back the selection, for a platform that was unselected |
| DeliverableSelection.UpdatePlatform | hooks/usePlatformDeliverables.ts:21-22 | mapping over the entries keeps the platforms in order and leaves a missing platform's selection as it was |
| DeliverableSelection.UpdateFacts | hooks/usePlatformDeliverables.ts:41-43 | only the named platform's deliverables change, to the edit applied to them |
| DeliverableSelection.DeliverableToggle | hooks/usePlatformDeliverables.ts:19-37 | on a selected platform the type is present afterwards exactly when it was absent, new types start at 1, other types and platforms are unchanged |
| DeliverableSelection.QuantityChange | hooks/usePlatformDeliverables.ts:39-68 | a negative quantity changes nothing; 0 removes the type; a positive quantity sets it, appending if missing; only the named platform changes |
| DeliverableSelection.AddCustom | hooks/usePlatformDeliverables.ts:70-89 | a blank field changes nothing; otherwise the trimmed text is in the `Custom` entry (quantity 1 when new, nothing changed when already there), the field is cleared, and other platforms are untouched |
| DeliverableSelection.DropEmptyCustom | hooks/usePlatformDeliverables.ts:99 | only the `Custom` entry may disappear; every other platform stays selected |
| DeliverableSelection.DropKeepsDeliverables | hooks/usePlatformDeliverables.ts:99 | dropping an empty `Custom` entry changes no platform's deliverables |
| DeliverableSelection.RemoveCustom | hooks/usePlatformDeliverables.ts:91-101 | the type leaves `Custom`, whose other types keep their quantities; `Custom` stays selected exactly when something is left in it; other platforms are untouched |
| DeliverableSelection.Reset | hooks/usePlatformDeliverables.ts:111-114 | the selection and the custom field are emptied |
| ImageUpload.HandleChange | hooks/useImageUpload.ts:29-56 | nothing chosen changes nothing; a first file of a disallowed type or over the size limit is refused with the matching message and leaves the state; an accepted one becomes the file and its data URL the preview |
| ImageUpload.SingleAccepted | hooks/useImageUpload.ts:36-45 | a file is accepted exactly when its type passes and its size is within the limit |
| ImageUpload.StarFreeAllowed | hooks/useImageUpload.ts:36 | for allowed types without `/*` the type test is a plain prefix test |
| ImageUpload.JpegAllowed | hooks/useImageUpload.ts:22 | with the defaults a JPEG passes the type test |
| ImageUpload.GifRefused | hooks/useImageUpload.ts:22 | with the defaults a GIF fails the type test |
| ImageUpload.DefaultsExamples | hooks/useImageUpload.ts:21-45 | a 5 MiB JPEG is accepted and a GIF refused with the type message |
| ImageUpload.ClearFile | hooks/useImageUpload.ts:58-61 | no file and an empty preview |
| ImageUpload.FirstInvalid | hooks/useImageUpload.ts:120-131 | no error exactly when every file is an image within the size limit; an error is the type or the size message |
| ImageUpload.HandleChangeMultiple | hooks/useImageUpload.ts:102-156 | refused (state unchanged) when the count would exceed the limit or some file is invalid; otherwise the old files and previews stay in front and every chosen file is appended once with its own preview at the matching position |
| ImageUpload.RemoveImage | hooks/useImageUpload.ts:158-161 | exactly the entry at the position leaves each list, the rest in order, so the lists stay paired; an out-of-range index changes nothing |
| ImageUpload.ClearFiles | hooks/useImageUpload.ts:163-166 | both lists emptied |
| Listings.Get | hooks/useHotelProfileForm.ts:117-118 | the value read from a field has that field's type |
| Listings.Set | hooks/useHotelProfileForm.ts:122 | the written field reads the new value and every other field is unchanged |
| Listings.SetOwnValue | hooks/useHotelProfileForm.ts:122 | writing back a field's own value changes nothing |
| Listings.SetTwice | hooks/useHotelProfileForm.ts:122 | of two writes to one field only the second counts |
| Listings.Empty | hooks/useHotelProfileForm.ts:67-81 | a new listing carries the given location and every other field is empty text, an empty list or unset |
| ProfilePicture.Choose | hooks/useCreatorProfileEdit.ts:302-323 | nothing chosen changes nothing; a non-image or a file over 5 MiB is refused with its message and leaves the draft; an accepted file becomes the draft with its data URL as preview and the dialog open |
| ProfilePicture.Confirm | hooks/useCreatorProfileEdit.ts:325-330 | a non-empty preview becomes the picture, otherwise the picture stays; the dialog closes |
| ProfilePicture.Discard | hooks/useCreatorProfileEdit.ts:278-279 | file and preview are dropped, the dialog flag is kept |
| ProfilePicture.ChosenThenConfirmed | hooks/useHotelProfileEdit.ts:259-287 | an accepted image confirmed in the dialog is the new picture, whatever was there before |
| ProfilePicture.RefusedKeepsPicture | hooks/useHotelProfileEdit.ts:264-271 | a refused file does not change what confirming yields |
| HotelProfileForm.Initial | hooks/useHotelProfileForm.ts:18-33 | a fresh wizard has the given name, empty texts, no listings, nothing collapsed and no picture file |
| HotelProfileForm.ProfileImageChange | hooks/useHotelProfileForm.ts:43-64 | nothing chosen changes nothing; a non-image or a file over 5 MiB is refused with its message and leaves the wizard; an accepted file is kept and its data URL becomes the picture |
| HotelProfileForm.AddListing | hooks/useHotelProfileForm.ts:67-83 | one empty listing is appended, carrying the hotel's location; existing listings, form and collapsed set are kept |
| HotelProfileForm.RemapCollapsed | hooks/useHotelProfileForm.ts:90-100 | collapsed positions before the removed one stay, later ones move down by one, the removed one is dropped |
| HotelProfileForm.RemoveListing | hooks/useHotelProfileForm.ts:85-101 | the listing at the index leaves the list and the collapsed set is renumbered to follow the remaining listings |
| HotelProfileForm.RemoveListingKeepsCollapsed | hooks/useHotelProfileForm.ts:85-101 | every surviving listing keeps its collapsed state at its new position |
| HotelProfileForm.RemoveListingDropsOwnState | hooks/useHotelProfileForm.ts:93-97 | the removed listing's collapsed state does not pass to its successor |
| HotelProfileForm.ToggleCollapse | hooks/useHotelProfileForm.ts:103-113 | the card is collapsed afterwards exactly when it was not; no other card, listing or form field changes |
| HotelProfileForm.ToggleCollapseTwice | hooks/useHotelProfileForm.ts:103-113 | toggling a card twice restores the wizard |
| HotelProfileForm.UpdateListing | hooks/useHotelProfileForm.ts:115-125 | the named field of the indexed listing reads the new value; its other fields and every other listing are unchanged |
| HotelProfileForm.ListingImageChange | hooks/useHotelProfileForm.ts:128-198 | refused (wizard unchanged) when the listing would exceed 10 images or a file is invalid; otherwise the chosen files and their previews are appended to that listing only, keeping images and files aligned and at most 10 |
| HotelProfileForm.RemoveListingImage | hooks/useHotelProfileForm.ts:200-210 | the image and its file leave the listing together, keeping them aligned; nothing else changes |
| HotelProfileForm.Render | hooks/useHotelProfileForm.ts:253-306 | a listing message is prefixed with `Listing ` and its number |
| HotelProfileForm.ListingRulesAgree | hooks/useHotelProfileForm.ts:252-309 | the listing checks all pass exactly when the listing meets the independent validity predicate |
| HotelProfileForm.FormRulesAgree | hooks/useHotelProfileForm.ts:219-247 | the basic-info checks pass exactly when the basic info is valid and there is a listing |
| HotelProfileForm.AllRulesAgree | hooks/useHotelProfileForm.ts:218-313 | all checks pass exactly when form and every listing are valid |
| HotelProfileForm.EachListingAgrees | hooks/useHotelProfileForm.ts:250-310 | the per-listing loop passes exactly when every listing is valid |
| HotelProfileForm.ValidateForm | hooks/useHotelProfileForm.ts:218-313 | success exactly when no message is reported, which is exactly when the form is valid; the message is that of the first failing check |
| HotelProfileForm.FreeStayEqualNightsPass | hooks/useHotelProfileForm.ts:293-296 | equal minimum and maximum nights pass the check whose message demands "greater than" |
| HotelProfileForm.BasicScore | hooks/useHotelProfileForm.ts:319-323 | at most 50, and 50 exactly when all five basic fields are filled in |
| HotelProfileForm.ListingScore | hooks/useHotelProfileForm.ts:326-335 | at most 50, and 50 exactly when there is a listing whose first entry has every scored detail |
| HotelProfileForm.CalculateProgress | hooks/useHotelProfileForm.ts:316-338 | between 0 and 100, and 100 exactly when every scored condition holds |
| HotelProfileForm.CanProceedStep1 | hooks/useHotelProfileForm.ts:341-347 | the first step may be left exactly when the trimmed name has two characters and the location is not blank |
| HotelProfileForm.ValidCanProceed | hooks/useHotelProfileForm.ts:219-227 | a form whose basic info validates may leave the first step |
| HotelProfileForm.ProgressCountsUntrimmedName | hooks/useHotelProfileForm.ts:319 | a name ` a` scores progress but does not let the first step proceed |
| CreatorProfileEdit.GenderOf | hooks/useCreatorProfileEdit.ts:66-72 | the camel-case split is used when present, otherwise the snake-case one; an object is taken as is, text that parses gives the parsed split, and text that does not parse, empty text or no split gives 0/0 |
| CreatorProfileEdit.TransformPlatform | hooks/useCreatorProfileEdit.ts:65-91 | keeps id and name, defaults a missing handle, followers and engagement rate, always has a gender split, and keeps only age groups with a usable range |
| CreatorProfileEdit.TransformAgeGroups | hooks/useCreatorProfileEdit.ts:74-79 | every kept age range is already trimmed, and every fetched group whose trimmed range is usable is kept |
| CreatorProfileEdit.Transform | hooks/useCreatorProfileEdit.ts:60-113 | a missing status is `pending`, a given one is kept; id, name, location, email and phone are kept, or `''` when empty or missing; the description and link fall back to their snake-case spellings, and a link that is empty under both is absent; the picture (camel or snake case) is trimmed and absent when blank; the rating takes the given numbers, zero without a rating; every platform is transformed in order |
| CreatorProfileEdit.LoadedForm | hooks/useCreatorProfileEdit.ts:125-135 | the edit form copies the profile's texts, replaces absent picture and link by `''`, and keeps one platform per profile platform |
| CreatorProfileEdit.CancelledForm | hooks/useCreatorProfileEdit.ts:265-275 | the form rebuilt on cancel copies the same texts and platforms, keeping only non-empty age ranges |
| CreatorProfileEdit.CancelRestoresLoadedForm | hooks/useCreatorProfileEdit.ts:131-134 | for a fetched profile the form rebuilt on cancel equals the form built on load, although the two filters differ |
| CreatorProfileEdit.LoadProfile | hooks/useCreatorProfileEdit.ts:116-148 | a failed fetch changes nothing; a successful one stores the transformed profile, its email and phone, and the edit form built from it |
| CreatorProfileEdit.CancelEdit | hooks/useCreatorProfileEdit.ts:263-280 | with a profile the form is rebuilt from it, without one it is kept; editing stops and the picture draft is dropped |
| CreatorProfileEdit.CancelAfterLoad | hooks/useCreatorProfileEdit.ts:263-280 | edits made after a load are undone by cancel |
| CreatorProfileEdit.Render | hooks/useCreatorProfileEdit.ts:164-167 | a platform message is prefixed with `Platform ` and its number |
| CreatorProfileEdit.PlatformRulesAgree | hooks/useCreatorProfileEdit.ts:163-167 | the platform checks all pass exactly when the platform meets the independent validity predicate |
| CreatorProfileEdit.FormRulesAgree | hooks/useCreatorProfileEdit.ts:152-160 | the form checks pass exactly when name, location and description are filled in, the description has 10 to 500 characters, the link (if any) starts with `http://` or `https://`, and there is a platform |
| CreatorProfileEdit.AllRulesAgree | hooks/useCreatorProfileEdit.ts:151-170 | all checks pass exactly when the form is valid |
| CreatorProfileEdit.ValidateForm | hooks/useCreatorProfileEdit.ts:151-170 | the message returned is the first failing check's, and none exactly when the form is valid |
| CreatorProfileEdit.SentAgeGroups | hooks/useCreatorProfileEdit.ts:198-203 | only usable age ranges are sent, never more groups than there were |
| CreatorProfileEdit.SentAgeGroupsComplete | hooks/useCreatorProfileEdit.ts:198-203 | every usable age group is sent with its range trimmed |
| CreatorProfileEdit.SentAgeGroupsSound | hooks/useCreatorProfileEdit.ts:198-203 | every group sent is a usable group of the platform with its range trimmed, so no group is invented |
| CreatorProfileEdit.PayloadPlatformOf | hooks/useCreatorProfileEdit.ts:197-218 | name and followers are copied and the handle trimmed; the engagement rate is sent as held; countries are sent exactly when there are some; age groups are sent exactly when a usable one exists, and then they are the platform's sent groups; the gender split exactly when one side is positive |
| CreatorProfileEdit.PayloadOf | hooks/useCreatorProfileEdit.ts:197-231 | texts are trimmed, one payload platform per platform, the audience size is the sum of followers; link and phone are sent trimmed exactly when non-blank, and the uploaded picture URL is sent as given exactly when it is non-empty |
| CreatorProfileEdit.ValidAudience | hooks/useCreatorProfileEdit.ts:166-220 | a valid form's audience size is positive, at least one per platform |
| CreatorProfileEdit.SaveProfile | hooks/useCreatorProfileEdit.ts:173-260 | an invalid form stops with its first message; a chosen picture whose upload failed stops; otherwise the payload is built with the uploaded URL if a picture was chosen |
| CreatorProfileEdit.SaveContact | hooks/useCreatorProfileEdit.ts:283-299 | succeeds exactly when there is a profile and the request succeeded, then the profile's phone is the trimmed input; otherwise nothing changes |
| CreatorProfileEdit.ConfirmPicture | hooks/useCreatorProfileEdit.ts:325-330 | a non-empty preview becomes the form's picture; the dialog closes |
| CreatorProfileEdit.TogglePlatformExpanded | hooks/useCreatorProfileEdit.ts:333-340 | the platform is expanded afterwards exactly when it was not; nothing else changes |
| CreatorProfileEdit.TogglePlatformExpandedTwice | hooks/useCreatorProfileEdit.ts:333-340 | toggling twice restores the editor |
| CreatorProfileEdit.WithPlatform | hooks/useCreatorProfileEdit.ts:374-376 | the indexed platform is replaced and every other platform and field is kept |
| CreatorProfileEdit.ToggleAgeGroup | hooks/useCreatorProfileEdit.ts:358-364 | the range is present afterwards exactly when it was absent, groups of other ranges are kept with their counts, and a new range is appended with 0 % |
| CreatorProfileEdit.ToggleAgeGroupTwice | hooks/useCreatorProfileEdit.ts:358-364 | adding and then removing an absent range gives back the groups |
| CreatorProfileEdit.ToggleAgeGroupTag | hooks/useCreatorProfileEdit.ts:354-369 | only the indexed platform's age groups change, and they become the age-group toggle of the old groups: the range flips, the other groups keep their percentages, a new range is appended at 0 % |
| CreatorProfileEdit.AddCountry | hooks/useCreatorProfileEdit.ts:385-388 | the country is listed afterwards; a listed country changes nothing, a new one is appended at 0 %; distinct countries stay distinct |
| CreatorProfileEdit.AddCountryToPlatform | hooks/useCreatorProfileEdit.ts:381-393 | only the indexed platform's countries change, and that platform's search input is cleared |
| CreatorProfileEdit.RemoveCountryFromPlatform | hooks/useCreatorProfileEdit.ts:396-404 | the country leaves the indexed platform, other countries keep their counts, and other platforms are kept |
| CreatorProfileEdit.AddThenRemoveCountry | hooks/useCreatorProfileEdit.ts:381-404 | adding an unlisted country and removing it restores the form |
| CreatorProfileEdit.SetShare | hooks/useCreatorProfileEdit.ts:411-413 | the matching country takes the percentage, the others and the order are kept |
| CreatorProfileEdit.UpdateCountryPercentage | hooks/useCreatorProfileEdit.ts:407-417 | only the indexed platform's country shares change |
| CreatorProfileEdit.UpdateGenderSplit | hooks/useCreatorProfileEdit.ts:420-428 | the chosen side takes the value and the other keeps its old value, 0 when there was no split; nothing else changes |
| CreatorProfileEdit.AvailableCountries | hooks/useCreatorProfileEdit.ts:347-351 | a country is offered exactly when it is in the list, the platform lacks it, and it contains the search input ignoring case |
| CreatorProfileEdit.EmptyInputOffersAll | hooks/useCreatorProfileEdit.ts:348-350 | with an empty search every country the platform lacks is offered |
| HotelProfileEdit.TransformListing | hooks/useHotelProfileEdit.ts:91-125 | keeps id, status and texts; one collaboration type per offering in order; the months and platforms are exactly those of some offering, each once; absent requirements give empty or unset targets |
| HotelProfileEdit.TypeNumbersFromFirstOffering | hooks/useHotelProfileEdit.ts:97-116 | each type's numbers come from the first offering of that type |
| HotelProfileEdit.MissingTypeUnset | hooks/useHotelProfileEdit.ts:98-115 | without a `Paid` offering the paid amount is unset |
| HotelProfileEdit.Transform | hooks/useHotelProfileEdit.ts:90-139 | keeps id, name, location, email and status; picture, website, about and phone are kept when non-empty and absent when empty or missing; every listing is transformed in order |
| HotelProfileEdit.FormOf | hooks/useHotelProfileEdit.ts:151-157 | the edit form copies name and location and puts `''` for an absent picture, website or about |
| HotelProfileEdit.LoadProfile | hooks/useHotelProfileEdit.ts:142-168 | a failed fetch changes nothing; a successful one stores the transformed profile, its email and phone, and the form built from it |
| HotelProfileEdit.CancelEdit | hooks/useHotelProfileEdit.ts:224-237 | with a profile the form is rebuilt from it, without one it is kept; editing stops and the picture draft is dropped |
| HotelProfileEdit.CancelAfterLoad | hooks/useHotelProfileEdit.ts:224-237 | edits made after a load are undone by cancel |
| HotelProfileEdit.ValidateForm | hooks/useHotelProfileEdit.ts:171-178 | no problem exactly when the form is valid; otherwise the first of: blank name, blank location, a website without an `http://` or `https://` scheme |
| HotelProfileEdit.SaveProfile | hooks/useHotelProfileEdit.ts:181-206 | an invalid form stops with its problem; otherwise name and location are sent trimmed, website and about trimmed and only when non-blank, with the chosen picture file |
| HotelProfileEdit.SaveContact | hooks/useHotelProfileEdit.ts:240-256 | succeeds exactly when there is a profile and the request succeeded, then the profile's phone is the trimmed input; otherwise nothing changes |
| HotelProfileEdit.ConfirmPicture | hooks/useHotelProfileEdit.ts:282-287 | a non-empty preview becomes the form's picture; the dialog closes |
| HotelProfileEdit.ToggleListingCard | hooks/useHotelProfileEdit.ts:290-297 | the card is collapsed afterwards exactly when it was not; nothing else changes |
| HotelProfileEdit.ToggleListingCardTwice | hooks/useHotelProfileEdit.ts:290-297 | toggling twice restores the editor |
| HotelProfileEdit.StartEditListing | hooks/useHotelProfileEdit.ts:300-323 | the listing is being edited, its fields fill the listing form, adding is off, nothing else changes |
| HotelProfileEdit.StartAddListing | hooks/useHotelProfileEdit.ts:326-330 | adding is on with the empty listing form and no listing being edited |
| HotelProfileEdit.CancelListingEdit | hooks/useHotelProfileEdit.ts:333-337 | neither adding nor editing, with the empty listing form |
| HotelProfileEdit.CancelForgetsListing | hooks/useHotelProfileEdit.ts:300-337 | cancelling after starting an edit or an add leaves the same state as cancelling directly |
| HotelProfileEdit.SaveListing | hooks/useHotelProfileEdit.ts:340-371 | a blank name, a blank location or no image stops with that problem and changes nothing; otherwise the profile is reloaded and the listing form reset |
| HotelProfileEdit.OpenDeleteConfirm | hooks/useHotelProfileEdit.ts:374-376 | the dialog is open for that listing id and name; nothing else changes |
| HotelProfileEdit.CloseDeleteConfirm | hooks/useHotelProfileEdit.ts:378-380 | the dialog is closed with no listing; nothing else changes |
| HotelProfileEdit.ConfirmDeleteListing | hooks/useHotelProfileEdit.ts:382-395 | without a listing id nothing happens; success exactly when there is an id and the delete succeeded, then the profile is reloaded and the dialog closed; a failure changes nothing |
| HotelProfileEdit.OpenThenClose | hooks/useHotelProfileEdit.ts:374-380 | opening and then closing the dialog is the same as closing it |
| HotelProfileEdit.UpdateListingField | hooks/useHotelProfileEdit.ts:398-400 | the field reads the new value, every other field and the editor are unchanged |
| HotelProfileEdit.AcceptedUrls | hooks/useHotelProfileEdit.ts:413-425 | one data URL per acceptable chosen file: as many URLs as acceptable files, the same URLs with the same multiplicities, in reader completion order |
| HotelProfileEdit.ListingImageChange | hooks/useHotelProfileEdit.ts:403-426 | a batch that would exceed 10 images is refused whole; otherwise the old images stay in front and one data URL per acceptable file follows, in completion order, never past 10; no other field changes |
| HotelProfileEdit.RemoveListingImage | hooks/useHotelProfileEdit.ts:428-433 | the position leaves the images and nothing else changes |
| HotelProfileEdit.AvailableCountries | hooks/useHotelProfileEdit.ts:436-439 | a country is offered exactly when it is in the list, not yet targeted, and contains the search input ignoring case |
| HotelProfileEdit.AddCountryToListing | hooks/useHotelProfileEdit.ts:441-447 | the country is appended as is and the search input cleared; nothing else changes |
| HotelProfileEdit.RemoveCountryFromListing | hooks/useHotelProfileEdit.ts:449-454 | every copy of the country leaves the targets, other countries keep their count, nothing else changes |
| HotelProfileEdit.AddOfferedThenRemove | hooks/useHotelProfileEdit.ts:436-454 | adding an offered country and removing it restores the listing form |
| HotelProfileEdit.AddTwiceDuplicates | hooks/useHotelProfileEdit.ts:441-447 | adding the same country twice lists it twice more |
| ApplicationModal.Steps | components/marketplace/CollaborationApplicationModal.tsx:42-47 | the month walk stops after the last month not after the end date, and never goes past 24 steps |
| ApplicationModal.Walk | components/marketplace/CollaborationApplicationModal.tsx:44-45 | the k-th month visited is the abbreviation of the start month advanced by k, wrapping at December |
| ApplicationModal.RangeMonthsBounded | components/marketplace/CollaborationApplicationModal.tsx:33-49 | the months of a range are abbreviations, each listed once, at most twelve |
| ApplicationModal.FullYearWalk | components/marketplace/CollaborationApplicationModal.tsx:43-48 | a walk of twelve or more steps covers every month |
| ApplicationModal.RangeCoversYear | components/marketplace/CollaborationApplicationModal.tsx:33-49 | a range spanning a year or more yields all twelve months |
| ApplicationModal.MonthsInRange | components/marketplace/CollaborationApplicationModal.tsx:33-49 | the loop yields the months of the range, deduplicated in first-seen order; an invalid date yields none |
| ApplicationModal.MonthAvailability | components/marketplace/CollaborationApplicationModal.tsx:83-94 | with no availability every month is available, otherwise exactly the months some available entry abbreviates to |
| ApplicationModal.FilterPlatformsFacts | components/marketplace/CollaborationApplicationModal.tsx:96-105 | the content package is always shown; a shown platform is one the hotel wants and, when the creator lists platforms, one the creator has; a platform listed by both is shown; with no hotel platforms only the package is shown |
| ApplicationModal.MatchIgnoresCase | components/marketplace/CollaborationApplicationModal.tsx:97-101 | for every list and key: a match exactly when some entry equals the key ignoring case, or the key is `YouTube` and the list holds `YT`; so `youtube` matches `YouTube`, `YT` matches only the exact `YouTube`, and `TikTok` does not match `YouTube` |
| ApplicationModal.EditText | components/marketplace/CollaborationApplicationModal.tsx:208-213 | text of at most 500 characters replaces the pitch, longer text is refused, so the pitch never exceeds 500 |
| ApplicationModal.MonthToggle | components/marketplace/CollaborationApplicationModal.tsx:85-90 | the month is preferred afterwards exactly when it was not, other months keep their state, the error clears |
| ApplicationModal.MonthToggleTwice | components/marketplace/CollaborationApplicationModal.tsx:85-90 | toggling an unpreferred month twice restores the preferred months |
| ApplicationModal.SetDates | components/marketplace/CollaborationApplicationModal.tsx:222-231 | the travel dates take the new values and the error clears; nothing else changes |
| ApplicationModal.InvalidMonths | components/marketplace/CollaborationApplicationModal.tsx:129 | exactly the requested months the hotel is not available in |
| ApplicationModal.Submit | components/marketplace/CollaborationApplicationModal.tsx:107-159 | ignored exactly when the pitch is blank, no platform has deliverables, or consent is off; blocked with the listing message exactly when availability is checked and a requested month is unavailable; otherwise submits the pitch, months and non-empty platform entries, with blank dates left out, and resets the form |
| ApplicationModal.DatesTakePrecedence | components/marketplace/CollaborationApplicationModal.tsx:122-126 | with both travel dates set, the preferred months do not affect the availability check |
| ApplicationModal.AllYearNeverBlocks | components/marketplace/CollaborationApplicationModal.tsx:119 | a hotel naming no months or all twelve never blocks an application |
| ApplicationModal.Cancel | components/marketplace/CollaborationApplicationModal.tsx:161-169 | every field returns to its initial value and the deliverables are reset, except the error message, which is kept as it was |
| InvitationModal.PruneMonths | components/marketplace/HotelInvitationModal.tsx:78-100 | no listing clears the months; an unknown listing or nothing currently available keeps them; otherwise exactly the available ones are kept, each as often as it was listed; nothing else changes |
| InvitationModal.PruneMonthsIdempotent | components/marketplace/HotelInvitationModal.tsx:78-100 | running the effect a second time changes nothing |
| InvitationModal.PrunedMonthsAvailable | components/marketplace/HotelInvitationModal.tsx:97-122 | whenever the effect prunes, every month it keeps is shown as available |
| InvitationModal.FilterPlatformsFacts | components/marketplace/HotelInvitationModal.tsx:124-133 | the content package is always shown; with no creator platforms everything is shown; otherwise a platform is shown exactly when the creator has it ignoring case |
| InvitationModal.LowerCaseYtDiffers | components/marketplace/HotelInvitationModal.tsx:129 | this modal accepts a lower-case `yt` for YouTube, which the application modal does not |
| InvitationModal.MonthToggle | components/marketplace/HotelInvitationModal.tsx:105-109 | the month is preferred afterwards exactly when it was not; nothing else changes |
| InvitationModal.MonthToggleTwice | components/marketplace/HotelInvitationModal.tsx:105-109 | toggling an unpreferred month twice restores the form |
| InvitationModal.Submit | components/marketplace/HotelInvitationModal.tsx:135-174 | ignored, form unchanged, exactly when listing, type or a platform with deliverables is missing; otherwise sends the listing, type, terms, months and non-empty platform entries, sending non-blank dates as typed and leaving blank ones out, leaving out a blank message and trimming any other, and resets the form |
| InvitationModal.Cancel | components/marketplace/HotelInvitationModal.tsx:176-189 | every field returns to its initial value and the deliverables are reset |
| InvitationModal.SubmitResetsLikeCancel | components/marketplace/HotelInvitationModal.tsx:159-189 | a successful submit leaves the same form as a cancel |
| CollaborationsPage.OrderConsistent | app/collaborations/page.tsx:96-109 | both sort options order every pair of collaborations transitively |
| CollaborationsPage.FilteredAndSorted | app/collaborations/page.tsx:69-112 | the page lists the filtered collaborations, each as often as in the filter's result, and no more than there are |
| CollaborationsPage.FilteredAndSortedFacts | app/collaborations/page.tsx:69-112 | a collaboration is listed exactly when it is loaded and passes the status and search filters; the list is newest first or in name order |
| CollaborationsPage.BlankQueryIgnored | app/collaborations/page.tsx:77 | a blank search leaves only the status filter |
| CollaborationsPage.QueryNotTrimmed | app/collaborations/page.tsx:77-82 | a search with a leading space finds nothing where the bare word matches |
| CollaborationsPage.StatusUpdate | app/collaborations/page.tsx:48-60 | collaborations with the id take the new status, all others and the order are unchanged |
| CollaborationsPage.StatusUpdateTwice | app/collaborations/page.tsx:48-60 | a second status update overrides the first |
| CollaborationsPage.FilterId | app/collaborations/page.tsx:319-324 | the stored user id when there is one, else `1` |
| CollaborationsPage.ForUser | app/collaborations/page.tsx:317-326 | a hotel sees exactly the collaborations with its hotel id, anyone else those with their creator id |
| Sorting.Sort | app/collaborations/page.tsx:96 | the sorted list is a rearrangement of its input |
| Sorting.SortSorts | app/collaborations/page.tsx:96-109 | with a consistent comparator the result is in order |
| Sorting.SortSorted | app/collaborations/page.tsx:96 | a list already in order is left unchanged |
| Sorting.InsertSorted | app/collaborations/page.tsx:96 | inserting into an ordered list keeps it ordered |
| PlatformCard.Indices | components/profile-complete/creator/PlatformCard.tsx:117-119 | one position per account of the platform |
| PlatformCard.IndexAt | components/profile-complete/creator/PlatformCard.tsx:115-120 | the card's k-th row maps to a position holding an account of that platform with exactly k accounts of it before it |
| PlatformCard.ActualIndex | components/profile-complete/creator/PlatformCard.tsx:117-120 | a row index within the platform's accounts maps to the position of that account; any other index maps to nothing |
| PlatformCard.OccurrenceUnique | components/profile-complete/creator/PlatformCard.tsx:117-120 | no two positions of the platform have the same number of its accounts before them, so the mapped position is the only one |
| PlatformCard.RemoveOccurrence | components/profile-complete/creator/PlatformCard.tsx:138-147 | exactly the mapped entry leaves the whole platform list; an index past the platform's accounts removes nothing |
| PlatformCard.RemoveOccurrenceCount | components/profile-complete/creator/PlatformCard.tsx:138-147 | removing an existing account leaves its platform one account fewer and every other platform its count |
| PlatformCard.AccountsLabel | components/profile-complete/creator/PlatformCard.tsx:82-99 | the header line appears exactly when the platform has accounts, and it starts with their number |
| PlatformCard.AccountsLabelWord | components/profile-complete/creator/PlatformCard.tsx:97 | the header says `account` exactly when there is one account |
| PlatformCard.AccountTitle | components/profile-complete/creator/PlatformCard.tsx:128 | the handle when there is one, else `Account ` followed by the row number counted from one |
| PlatformCard.FollowersInput | components/profile-complete/creator/PlatformCard.tsx:170 | an empty field stays blank, anything else is what `parseInt` reads from it |
| PlatformCard.FollowersRoundTrip | components/profile-complete/creator/PlatformCard.tsx:169-170 | typing back a shown follower count stores that count |
| PlatformCard.EngagementInput | components/profile-complete/creator/PlatformCard.tsx:180-183 | an empty field stays blank; otherwise the text keeps its length and only the first comma becomes a point |
| PlatformCard.EngagementExamples | components/profile-complete/creator/PlatformCard.tsx:181 | `4,5` reads as `4.5`, and in `1,2,3` only the first comma is replaced |
| PlatformDemographics.LeadingZeros | components/profile-complete/creator/PlatformDemographics.tsx:176 | the count of `0`s at the start of the text, stopping at the first other character |
| PlatformDemographics.ZerosStripped | components/profile-complete/creator/PlatformDemographics.tsx:176 | the longest run of leading zeros that is still followed by a digit, as the pattern `^0+(?=\d)` matches it |
| PlatformDemographics.CleanNumber | components/profile-complete/creator/PlatformDemographics.tsx:174-192 | empty exactly when the input is; otherwise exactly the zeros that `^0+(?=\d)` matches are dropped (`ZerosStripped`), so what remains never starts with a zero followed by a digit |
| PlatformDemographics.ZerosValue | components/profile-complete/creator/PlatformDemographics.tsx:176 | leading zeros add nothing to a number's value |
| PlatformDemographics.CleanNumberKeepsValue | components/profile-complete/creator/PlatformDemographics.tsx:176-191 | cleaning a typed number keeps its value |
| PlatformDemographics.CleanNumberIdempotent | components/profile-complete/creator/PlatformDemographics.tsx:176-191 | cleaning a cleaned value changes nothing |
| PlatformDemographics.ZerosKeepOne | components/profile-complete/creator/PlatformDemographics.tsx:176 | `007` becomes `7`, `000` keeps one zero, `00a` keeps one zero before the letter, `00.5` becomes `0.5` and `0` stays `0` |
| PlatformDemographics.PercentShown | components/profile-complete/creator/PlatformDemographics.tsx:110 | a positive value is shown and reads back as itself; zero or less shows a blank field |
| PlatformDemographics.PercentEdit | components/profile-complete/creator/PlatformDemographics.tsx:111-114 | a cleared field stores 0, anything else the number read from it |
| PlatformDemographics.PercentRoundTrip | components/profile-complete/creator/PlatformDemographics.tsx:110-114 | typing back a shown value stores it again, and a cleared field shows blank again |
| PlatformDemographics.FirstSideWarning | components/profile-complete/creator/PlatformDemographics.tsx:201-203 | on an account without a split, the total warning shows after setting one side exactly when that side exceeds 100 |
| PlatformDemographics.TagClickFlips | components/profile-complete/creator/PlatformDemographics.tsx:146-152 | clicking an age-range tag flips its selected look and leaves every other tag as it was |
| ListingOfferings.Check | components/profile-complete/hotel/ListingOfferings.tsx:54-60 | checking appends the item at the end; unchecking removes every copy; other items keep their count |
| ListingOfferings.ClickToggles | components/profile-complete/hotel/ListingOfferings.tsx:53-60 | since the box shows whether the item is listed, a click is the list toggle |
| ListingOfferings.CheckThenUncheck | components/profile-complete/hotel/ListingOfferings.tsx:54-60 | checking then unchecking an absent item restores the list |
| ListingOfferings.CheckType | components/profile-complete/hotel/ListingOfferings.tsx:54-60 | the type is listed afterwards exactly when checked; other types and fields are unchanged |
| ListingOfferings.CheckMonth | components/profile-complete/hotel/ListingOfferings.tsx:233-239 | the month is available afterwards exactly when checked; other months and fields are unchanged |
| ListingOfferings.CheckPlatform | components/profile-complete/hotel/ListingOfferings.tsx:268-274 | the platform is listed afterwards exactly when checked; other platforms and fields are unchanged |
| ListingOfferings.SectionFollowsCheckbox | components/profile-complete/hotel/ListingOfferings.tsx:83-160 | a type's terms section is shown exactly when its box was last checked; other sections stay |
| ListingOfferings.AllYear | components/profile-complete/hotel/ListingOfferings.tsx:196-205 | a full year empties the months, anything less fills all twelve, so the full-year state flips; nothing else changes |
| ListingOfferings.AllYearTwice | components/profile-complete/hotel/ListingOfferings.tsx:196-205 | two presses from a partial year end empty, from a full year end full |
| ListingOfferings.NightsInput | components/profile-complete/hotel/ListingOfferings.tsx:100-126 | an empty or unreadable field clears the value; otherwise the number read, raised to at least 1 |
| ListingOfferings.NightsExamples | components/profile-complete/hotel/ListingOfferings.tsx:106-107 | a typed positive count is stored, a decimal is cut at its point, and 0 becomes 1 |
| ListingOfferings.AmountInput | components/profile-complete/hotel/ListingOfferings.tsx:151-175 | an unreadable field or 0 clears the value; anything else is stored as read |
| ListingOfferings.AmountExamples | components/profile-complete/hotel/ListingOfferings.tsx:151 | a typed positive amount is stored and a typed 0 clears the field |
| FormNavigation.Render | components/profile-complete/FormNavigationButtons.tsx:16-52 | `Previous` shows exactly after the first step; the main button is disabled exactly while saving or before the last step without permission to proceed; it reads `Saving...` while saving, the submit label on the last step and `Next` otherwise |
| FormNavigation.LastStepIgnoresCanProceed | components/profile-complete/FormNavigationButtons.tsx:16-35 | on the last step the permission to proceed plays no part |
| FormNavigation.SavingDisables | components/profile-complete/FormNavigationButtons.tsx:35-41 | while saving the button is disabled and reads `Saving...` |
| FormNavigation.EnabledNextMeansProceed | components/profile-complete/FormNavigationButtons.tsx:35-52 | an enabled `Next` button means the step may be left and nothing is saving |
| StepIndicators.Render | components/profile-complete/StepIndicators.tsx:9-49 | one indicator per step numbered from one; exactly the current step is active and exactly the earlier ones completed, with a check mark; every step but the last has a connector, highlighted exactly after a completed step |
| StepIndicators.CompletedPrefix | components/profile-complete/StepIndicators.tsx:11-12 | completed steps form a prefix, and no two steps are active |
| StepIndicators.ConnectorCount | components/profile-complete/StepIndicators.tsx:43-49 | there is one connector fewer than there are steps |
| StepIndicators.AllButLast | components/profile-complete/StepIndicators.tsx:43 | counting the connectors of indicators that have one except the last gives one fewer than their number |
| HotelFormView.HandleFormSubmit | components/profile-complete/hotel/HotelProfileForm.tsx:72-79 | the form submit submits on the last step and advances on any other |
| HotelFormView.Render | components/profile-complete/hotel/HotelProfileForm.tsx:81-129 | the basic-info panel shows exactly on step 1 and the listings panel exactly on step 2; the error box exactly when there is an error; the buttons are exactly the navigation buttons for this step with `Complete Profile` as submit label |
| HotelFormView.OnePanel | components/profile-complete/hotel/HotelProfileForm.tsx:88-112 | at most one panel shows, and none outside steps 1 and 2 |
| HotelFormView.EnabledFirstStepAdvances | components/profile-complete/hotel/HotelProfileForm.tsx:72-129 | on step 1 of 2 an enabled button means the first step's check passes and nothing is saving, and pressing it advances |

## Where the code differs from its description

- A stored consent record that does not parse does not count as "no consent on record".
  The banner is shown only in the branch where nothing is stored
  (context/CookieConsentContext.tsx:64-71). A present but unparseable record makes
  `JSON.parse` throw at line 65, and the `catch` at lines 95-96 only logs. So the backend is
  never asked, and loading ends with the banner hidden and no consent. `CookieConsent.Load`
  states this path.
- `necessary` is described as always `true`. A consent record from the backend is copied as
  sent, so a record saying `false` is loaded as `false` (`CookieConsent.RemoteNecessaryNotForced`).
  Every save, by contrast, forces it on.
- Cancelling the application modal is meant to start the next application afresh, but
  `handleCancel` (components/marketplace/CollaborationApplicationModal.tsx:161-169) never
  clears the error message. The modal stays mounted while closed, since it returns `null`
  only after its hooks have run (line 81). So an availability message shown before Cancel
  is still shown on reopening, until the next month toggle, date change or submit. `ApplicationModal.Cancel`
  keeps the message.

## Left out

- Server-side rendering: the `typeof window === 'undefined'` branches are not modelled; the model is always in a browser.
- Storage events: the `storage` listener in `useAuth` (hooks/useAuth.ts:75-108) is left out, and so is the `StorageEvent` that `useLocalStorage` dispatches on its own window after a write (hooks/useLocalStorage.ts:69). The listener only re-runs the load, on another tab's write or on that same-tab event.
- Timing: the `setTimeout` delays and the `isSubmitting` flags of the modals and the collaborations page are left out; each submit is one step.
- Remote calls are not modelled. The backend consent record and the marketplace data are `Option` or plain inputs, and multipart versus JSON request bodies are not distinguished.
- The race between an in-flight backend consent fetch and a user save is not modelled: load and save are separate steps.
- File reading: `FileReader` results are inputs (data URLs). For the multiple upload, the completion order is an input that holds the same files as the selection.
- Visitor ids: `Math.random` and `Date.now` are replaced by a `nonce` input.
- JSON: only the canonical consent text that the store itself writes is read back. Any other text counts as a parse failure, although `JSON.parse` would accept reordered keys or extra whitespace.
- Text: case mapping is ASCII only. White space is the ASCII set plus no-break space, the byte-order mark and the line and paragraph separators, without the other Unicode space separators. Full Unicode `toLowerCase` and `trim` are left out.
- `localeCompare` is modelled as character-code order (`Text.StrLe`), not locale collation.
- Text length and order: a Dafny `char` is a Unicode scalar value, while JavaScript counts and compares UTF-16 code units. For text outside the Basic Multilingual Plane (emoji, say), the 500-character cap of `ApplicationModal.EditText`, the 10-to-500 description checks and `Text.StrLe` therefore differ from the source: one such character counts once here and twice in the source, and `StrLe` orders by scalar value, not by code unit.
- ApplicationModal.EditText: the 500 cap counts Unicode scalar values, not the UTF-16 code units the source counts.
- Inherited object keys: the source looks statuses and month names up in object literals, which also find the keys every object inherits (`constructor`, `toString` and the like). `getStatusClasses('constructor')` gives `undefined undefined`, `getStatusStyle('constructor')` gives the `Object` function, and `getMonthAbbr('toString')` gives a function. The model's tables hold only their own keys, so `Colors` gives these inputs the pending style and `Months.GetMonthAbbr` cuts them to three characters.
- Floats: `parseFloat` values (engagement rates, percentages) are not modelled as numbers.
- Dates are (year, month, day) triples or invalid. Time zones and time of day are left out.
- The storage key names of `useAuth` come from a constants module that is not part of this model, so they are a parameter with distinct names.
- The country list comes from the `countries-list` package, so it is a parameter.
- `ListingFormData` and `PlatformFormData` are not part of this model; their shapes are taken from how the code uses them.
- The mock collaboration data itself is not modelled; only its user filter is.
- The raw state setters that the hooks expose (`setForm`, `setListings`, `setPlatformDeliverables` and the like) replace state wholesale, so they are not modelled. The same goes for the generic field-change handlers, which write one field verbatim (hooks/useHotelProfileForm.ts:38-40, 213-215; hooks/useCreatorProfileEdit.ts:343-345).
- `onStepClick` of the step indicators is not modelled, because it only forwards the click.
- Console logging and error toasts are left out.
- Text.ParseInt: reads a sign and decimal digits exactly. JavaScript's `parseInt` without a radix also reads a `0x` or `0X` prefix as hexadecimal and rounds values beyond 2^53 to the nearest double; neither is modelled.
- PlatformCard.FollowersInput: `0x10` reads as 0 here and as 16 in the source, and counts beyond 2^53 are exact here, because `Text.ParseInt` is decimal and unbounded.
- ListingOfferings.NightsInput: a `0x` prefix and values beyond 2^53 read as in `Text.ParseInt`, not as JavaScript's `parseInt`.
- ListingOfferings.AmountInput: a `0x` prefix and values beyond 2^53 read as in `Text.ParseInt`, not as JavaScript's `parseInt`.
- PlatformDemographics.PercentEdit: reads the country share with integer parsing, because the source's `parseFloat` is a float.
- PlatformCard.EngagementInput: keeps the text handed to `parseFloat` and not the number it gives.
- PlatformDemographics.FirstSideWarning: states the warning over the editor's integer gender update. The component passes the cleaned text to that handler, which parses it.
- DeliverableSelection.DeliverableToggle: requires one entry per platform, the invariant the hook keeps from its empty start. The same holds for DeliverableSelection.QuantityChange, DeliverableSelection.AddCustom and DeliverableSelection.RemoveCustom.
- DeliverableSelection.RemovePlatform: ensures only that no platform appears twice, not the full well-formedness invariant.
- DeliverableSelection.DropEmptyCustom: ensures only that no platform appears twice, not the full well-formedness invariant.
- Sorting.Sort: stability is not stated; only order and permutation are.
- ApplicationModal.Steps: compares dates by month index and ignores time zones and time of day.
- ApplicationModal.MonthsInRange: compares dates by month index and ignores time zones and time of day.

=== FILE: application_modal.dfy ===
/**
 * `CollaborationApplicationModal`: a creator's application to a hotel. It holds the
 * pitch text, travel dates or preferred months, the platform deliverables and consent,
 * and checks the requested months against the hotel's availability before submitting.
 */
module ApplicationModal {
  import opened Seqs
  import opened Text
  import opened Options
  import opened Months
  import opened DeliverableSelection
  import opened Wrappers

  // ---------------------------------------------------------------------------
  // Months of a travel-date range
  // ---------------------------------------------------------------------------

  type MonthIndex = m: int | 0 <= m < 12
  type DayOfMonth = d: int | 1 <= d <= 31 witness 1

  /** A calendar date as `new Date(s)` yields it: year, month counted from 0, day. */
  datatype Date = Date(year: int, month: MonthIndex, day: DayOfMonth)

  /** The months elapsed since year 0 at the date's month. */
  function MonthNumber(d: Date): int {
    d.year * 12 + d.month
  }

  /**
   * How many month starts the range walk visits: the first of each month from `from`'s
   * month while it is on or before `to`, and never more than 24.
   */
  function Steps(from: Date, to: Date): (n: nat)
    ensures n <= 24
    ensures n > 0 ==> MonthNumber(from) + n - 1 <= MonthNumber(to)
    ensures n < 24 ==> MonthNumber(from) + n > MonthNumber(to)
  {
    var span := MonthNumber(to) - MonthNumber(from) + 1;
    if span <= 0 then 0 else if span > 24 then 24 else span
  }

  /** The abbreviations of the first `n` months starting at `from`'s month. */
  function Walk(from: Date, n: nat): (r: seq<string>)
    ensures |r| == n
    ensures forall k | 0 <= k < n :: r[k] == MonthsAbbr[(MonthNumber(from) + k) % 12]
  {
    seq(n, k requires 0 <= k < n => MonthsAbbr[(MonthNumber(from) + k) % 12])
  }

  /** What `getMonthsInRange` returns, stated directly: invalid dates give nothing. */
  function RangeMonths(from: Option<Date>, to: Option<Date>): seq<string> {
    if from.None? || to.None? then [] else Dedupe(Walk(from.value, Steps(from.value, to.value)))
  }

  /** The range's months are distinct month abbreviations, so there are at most twelve. */
  lemma RangeMonthsBounded(from: Option<Date>, to: Option<Date>)
    ensures NoDup(RangeMonths(from, to))
    ensures forall m | m in RangeMonths(from, to) :: m in MonthsAbbr
    ensures |RangeMonths(from, to)| <= 12
  {
    var r := RangeMonths(from, to);
    MonthTablesAligned();
    if from.Some? && to.Some? {
      var w := Walk(from.value, Steps(from.value, to.value));
      forall m | m in r ensures m in MonthsAbbr {
        var k :| 0 <= k < |w| && w[k] == m;
      }
    }
    NoDupBound(r, MonthsAbbr);
  }

  /** Some step of twelve consecutive months lands on each month. */
  lemma ModShift(a: int, i: int)
    requires 0 <= i < 12
    ensures 0 <= (i - a) % 12 < 12 && (a + (i - a) % 12) % 12 == i
  {
    var q, r := (i - a) / 12, (i - a) % 12;
    assert a + r == i - 12 * q;
    assert (i - 12 * q) % 12 == i;
  }

  /** A walk of a year or more names every month. */
  lemma FullYearWalk(from: Date, n: nat)
    requires n >= 12
    ensures forall m | m in MonthsAbbr :: m in Walk(from, n)
  {
    forall m | m in MonthsAbbr ensures m in Walk(from, n) {
      var i :| 0 <= i < |MonthsAbbr| && MonthsAbbr[i] == m;
      ModShift(MonthNumber(from), i);
      var k := (i - MonthNumber(from)) % 12;
      assert Walk(from, n)[k] == m;
    }
  }

  /** A range spanning a year or more names every month. */
  lemma RangeCoversYear(from: Date, to: Date)
    requires MonthNumber(to) - MonthNumber(from) >= 11
    ensures forall m | m in MonthsAbbr :: m in RangeMonths(Some(from), Some(to))
  {
    FullYearWalk(from, Steps(from, to));
  }

  /**
   * `getMonthsInRange(from, to)` with the dates already parsed (`None` for an invalid
   * date). The running first-of-month date is held as its month number: `setMonth(+1)`
   * adds one, and `current <= to` compares month numbers because the walk's day is the 1st.
   */
  method MonthsInRange(from: Option<Date>, to: Option<Date>) returns (months: seq<string>)
    ensures months == RangeMonths(from, to)
    ensures from.None? || to.None? ==> months == []
  {
    if from.None? || to.None? {
      return [];
    }
    var f, t := from.value, to.value;
    var raw: seq<string> := [];
    var current := MonthNumber(f);
    var counter := 0;
    while current <= MonthNumber(t) && counter < 24
      invariant 0 <= counter <= Steps(f, t)
      invariant current == MonthNumber(f) + counter
      invariant raw == Walk(f, counter)
    {
      assert raw + [MonthsAbbr[current % 12]] == Walk(f, counter + 1);
      raw := raw + [MonthsAbbr[current % 12]];
      current := current + 1;
      counter := counter + 1;
    }
    months := Dedupe(raw);
  }

  // ---------------------------------------------------------------------------
  // Availability and platform filters
  // ---------------------------------------------------------------------------

  /** `isMonthAvailable(month)`: any month when the hotel names none, else one of its months, abbreviated. */
  predicate IsMonthAvailable(available: seq<string>, month: string) {
    |available| == 0 || month in Map(GetMonthAbbr, available)
  }

  /** Every month is available when the hotel names none; otherwise only the abbreviations of its months are. */
  lemma MonthAvailability(available: seq<string>, month: string)
    ensures |available| == 0 ==> IsMonthAvailable(available, month)
    ensures |available| > 0 ==> (IsMonthAvailable(available, month) <==> exists a | a in available :: GetMonthAbbr(a) == month)
  {
    if |available| > 0 && IsMonthAvailable(available, month) {
      var k :| 0 <= k < |available| && Map(GetMonthAbbr, available)[k] == month;
      assert available[k] in available;
    }
    if exists a | a in available :: GetMonthAbbr(a) == month {
      var a :| a in available && GetMonthAbbr(a) == month;
      var k :| 0 <= k < |available| && available[k] == a;
      assert Map(GetMonthAbbr, available)[k] == month;
    }
  }

  const ContentPackage := "Content Package"

  /** `platformMatch(list, key)`: exactly, ignoring case, or `YT` standing for YouTube. */
  predicate PlatformMatch(list: seq<string>, key: string) {
    key in list
    || (exists item | item in list :: ToLower(item) == ToLower(key))
    || (key == "YouTube" && "YT" in list)
  }

  /** `filterPlatforms(p)`: which platforms the application offers. */
  predicate FilterPlatforms(required: seq<string>, creator: seq<string>, p: string) {
    p == ContentPackage || (PlatformMatch(required, p) && (|creator| == 0 || PlatformMatch(creator, p)))
  }

  /**
   * The content package is always offered; any other platform must be wanted by the hotel
   * and, when the creator lists platforms, held by the creator. A hotel wanting nothing
   * leaves only the content package.
   */
  lemma FilterPlatformsFacts(required: seq<string>, creator: seq<string>, p: string)
    ensures FilterPlatforms(required, creator, ContentPackage)
    ensures p != ContentPackage && FilterPlatforms(required, creator, p) ==> PlatformMatch(required, p)
    ensures p != ContentPackage && FilterPlatforms(required, creator, p) && |creator| > 0 ==> PlatformMatch(creator, p)
    ensures |required| == 0 ==> (FilterPlatforms(required, creator, p) <==> p == ContentPackage)
    ensures p in required && (|creator| == 0 || p in creator) ==> FilterPlatforms(required, creator, p)
  {
  }

  /**
   * A platform matches a list exactly when some entry equals it ignoring case, or when it is
   * `YouTube` and the list holds the alias `YT`; the exact test adds nothing. So `youtube` is
   * offered to a hotel wanting `YouTube`, `YT` stands only for the exact key `YouTube`, and
   * different platforms do not match.
   */
  lemma MatchIgnoresCase(list: seq<string>, key: string)
    ensures PlatformMatch(list, key) <==>
      (exists item | item in list :: ToLower(item) == ToLower(key)) || (key == "YouTube" && "YT" in list)
    ensures PlatformMatch(["YouTube"], "youtube")
    ensures !PlatformMatch(["TikTok"], "YouTube")
    ensures PlatformMatch(["YT"], "YouTube") && !PlatformMatch(["YT"], "youtube")
  {
    if key in list {
      assert ToLower(key) == ToLower(key);
    }
    assert ToLower("YouTube") == ToLower("youtube");
    assert "YouTube" in ["YouTube"];
    assert ToLower("TikTok")[0] != ToLower("YouTube")[0];
    assert ToLower("YT") != ToLower("youtube") by {
      assert |ToLower("YT")| == 2;
    }
  }

  // ---------------------------------------------------------------------------
  // The form
  // ---------------------------------------------------------------------------

  const MaxCharacters := 500

  /** The modal's state; `error` is the message shown above the buttons. */
  datatype Form = Form(
    whyGreatFit: string, travelDateFrom: string, travelDateTo: string, preferredMonths: seq<string>,
    consent: bool, deliverables: Selector, error: Option<string>)

  /** The state the modal opens with, and returns to after a submit or a cancel. */
  const Initial := Form("", "", "", [], true, Selector([], ""), None)

  /** The text area's `onChange`: an edit longer than the cap is ignored. */
  function EditText(f: Form, value: string): (r: Form)
    ensures |value| <= MaxCharacters ==> r == f.(whyGreatFit := value)
    ensures |value| > MaxCharacters ==> r == f
    ensures |f.whyGreatFit| <= MaxCharacters ==> |r.whyGreatFit| <= MaxCharacters
  {
    if |value| <= MaxCharacters then f.(whyGreatFit := value) else f
  }

  /** `handleMonthToggle(month)`: the month is added or removed and the error cleared. */
  function MonthToggle(f: Form, month: string): (r: Form)
    ensures month in r.preferredMonths <==> month !in f.preferredMonths
    ensures forall m | m != month :: m in r.preferredMonths <==> m in f.preferredMonths
    ensures r.error.None?
    ensures r.(preferredMonths := f.preferredMonths, error := f.error) == f
  {
    f.(preferredMonths := Toggle(f.preferredMonths, month), error := None)
  }

  /** Toggling a month twice gives back the preferred months it started from. */
  lemma MonthToggleTwice(f: Form, month: string)
    requires month !in f.preferredMonths
    ensures MonthToggle(MonthToggle(f, month), month).preferredMonths == f.preferredMonths
  {
    ToggleTwiceFromAbsent(f.preferredMonths, month);
  }

  /** The date pickers' handlers: the date is set and the error cleared. */
  function SetDates(f: Form, from: string, to: string): (r: Form)
    ensures r.travelDateFrom == from && r.travelDateTo == to && r.error.None?
    ensures r.(travelDateFrom := f.travelDateFrom, travelDateTo := f.travelDateTo, error := f.error) == f
  {
    f.(travelDateFrom := from, travelDateTo := to, error := None)
  }

  /** A platform entry with at least one deliverable. */
  predicate HasDeliverables(e: Entry) {
    |e.deliverables| > 0
  }

  /** The data handed to `onSubmit`. */
  datatype Application = Application(
    whyGreatFit: string, travelDateFrom: Option<string>, travelDateTo: Option<string>,
    preferredMonths: seq<string>, platformDeliverables: seq<Entry>, consent: bool)

  /** What a submit attempt does. */
  datatype Outcome = Ignored | Unavailable(message: string) | Submitted(application: Application)

  /** The months the application asks for: the date range when both dates are set, else the preferred months. */
  function Requested(f: Form, parse: string -> Option<Date>): seq<string> {
    if f.travelDateFrom != "" && f.travelDateTo != "" then RangeMonths(parse(f.travelDateFrom), parse(f.travelDateTo))
    else f.preferredMonths
  }

  /** The requested months outside the hotel's availability. */
  function InvalidMonths(f: Form, available: seq<string>, parse: string -> Option<Date>): (r: seq<string>)
    ensures forall m :: m in r <==> m in Requested(f, parse) && m !in Map(GetMonthAbbr, available)
  {
    Filter((m: string) => m !in Map(GetMonthAbbr, available), Requested(f, parse))
  }

  /** Availability is checked only when the hotel names some, but not all twelve, months. */
  predicate ChecksAvailability(available: seq<string>) {
    0 < |available| < 12
  }

  function UnavailableMessage(invalid: seq<string>): string {
    "The hotel is not available in: " + Join(invalid, ", ") + ". Please select dates within their availability."
  }

  /**
   * `handleSubmit()` with `parse` standing for `new Date(s)` (`None` for an invalid date).
   * Nothing happens without a non-blank pitch, a platform with deliverables and consent;
   * a requested month outside the hotel's availability is reported and blocks the submit;
   * otherwise the application, with only the non-empty platform entries, is submitted and
   * the form reset.
   */
  function Submit(f: Form, available: seq<string>, parse: string -> Option<Date>): (r: (Form, Outcome))
    ensures r.1.Ignored? <==> IsBlank(f.whyGreatFit) || Filter(HasDeliverables, f.deliverables.entries) == [] || !f.consent
    ensures r.1.Ignored? ==> r.0 == f.(error := None)
    ensures r.1.Unavailable? <==> !r.1.Ignored? && ChecksAvailability(available) && InvalidMonths(f, available, parse) != []
    ensures r.1.Unavailable? ==>
      (r.0 == f.(error := Some(r.1.message)) && r.1.message == UnavailableMessage(InvalidMonths(f, available, parse)))
    ensures r.1.Submitted? ==>
      && r.0 == Initial
      && r.1.application.whyGreatFit == f.whyGreatFit
      && r.1.application.preferredMonths == f.preferredMonths
      && r.1.application.consent
      && r.1.application.platformDeliverables == Filter(HasDeliverables, f.deliverables.entries)
      && r.1.application.platformDeliverables != []
      && r.1.application.travelDateFrom == OrUndefined(f.travelDateFrom)
      && r.1.application.travelDateTo == OrUndefined(f.travelDateTo)
    ensures r.1.Submitted? && ChecksAvailability(available) ==>
      forall m | m in Requested(f, parse) :: IsMonthAvailable(available, m)
  {
    var valid := Filter(HasDeliverables, f.deliverables.entries);
    if IsBlank(f.whyGreatFit) || valid == [] || !f.consent then (f.(error := None), Ignored)
    else if ChecksAvailability(available) && InvalidMonths(f, available, parse) != [] then
      var message := UnavailableMessage(InvalidMonths(f, available, parse));
      (f.(error := Some(message)), Unavailable(message))
    else
      (Initial, Submitted(Application(f.whyGreatFit, OrUndefined(f.travelDateFrom), OrUndefined(f.travelDateTo),
        f.preferredMonths, valid, f.consent)))
  }

  /** Travel dates take precedence: with both set, the preferred months play no part in the check. */
  lemma DatesTakePrecedence(f: Form, months: seq<string>, available: seq<string>, parse: string -> Option<Date>)
    requires f.travelDateFrom != "" && f.travelDateTo != ""
    ensures Submit(f.(preferredMonths := months), available, parse).1.Unavailable? == Submit(f, available, parse).1.Unavailable?
  {
    assert InvalidMonths(f.(preferredMonths := months), available, parse) == InvalidMonths(f, available, parse);
  }

  /** A hotel available all year, or naming no months, never blocks an application. */
  lemma AllYearNeverBlocks(f: Form, available: seq<string>, parse: string -> Option<Date>)
    requires |available| == 0 || |available| >= 12
    ensures !Submit(f, available, parse).1.Unavailable?
  {
  }

  /**
   * `handleCancel()`: every field returns to its initial value except the error message,
   * which the handler does not clear; the modal stays mounted while closed, so a reopened
   * form still shows it.
   */
  function Cancel(f: Form): (r: Form)
    ensures r == Initial.(error := f.error)
    ensures r.deliverables == Reset(f.deliverables)
  {
    f.(whyGreatFit := "", travelDateFrom := "", travelDateTo := "", preferredMonths := [],
      deliverables := Reset(f.deliverables), consent := true)
  }
}

=== FILE: auth.dfy ===
/**
 * `useAuth`: the signed-in user's session, mirrored into eight local-storage keys.
 * The key names live in a storage-constants module that is not part of this model,
 * so they are a parameter, assumed pairwise distinct.
 */
module Auth {
  import opened Wrappers
  import opened LocalStorage
  import opened Seqs

  /** The storage key of each field, and the key of the cached user record. */
  datatype Keys = Keys(
    isLoggedIn: string, userId: string, userEmail: string, userName: string,
    userType: string, userStatus: string, profileComplete: string, hasProfile: string,
    user: string)

  function AuthKeys(k: Keys): seq<string> {
    [k.isLoggedIn, k.userId, k.userEmail, k.userName, k.userType, k.userStatus, k.profileComplete, k.hasProfile]
  }

  /** The nine keys are pairwise different. */
  predicate Distinct(k: Keys) {
    NoDup(AuthKeys(k)) && k.user !in AuthKeys(k)
  }

  /** The session fields (`isLoading` is kept apart). */
  datatype AuthState = AuthState(
    isLoggedIn: bool, userId: Option<string>, userEmail: Option<string>, userName: Option<string>,
    userType: Option<string>, userStatus: Option<string>, profileComplete: bool, hasProfile: bool)

  const LoggedOut := AuthState(false, None, None, None, None, None, false, false)

  /** The hook: its session fields and whether the first read from storage is still pending. */
  datatype Session = Session(state: AuthState, isLoading: bool)

  const Initial := Session(LoggedOut, true)

  /**
   * A partial update. `None` is a field left out of the object; `Some(None)` is an explicit null.
   */
  datatype AuthPatch = AuthPatch(
    isLoggedIn: Option<bool>, userId: Option<Option<string>>, userEmail: Option<Option<string>>,
    userName: Option<Option<string>>, userType: Option<Option<string>>, userStatus: Option<Option<string>>,
    profileComplete: Option<bool>, hasProfile: Option<bool>)

  /** The text stored under `key`, or null. */
  function ReadText(storage: Storage, key: string): Option<string> {
    if key in storage then Some(storage[key]) else None
  }

  /** A stored flag is set iff its text is exactly `true`. */
  function ReadFlag(storage: Storage, key: string): bool {
    ReadText(storage, key) == Some("true")
  }

  /** The mount effect's read: every field decoded from its key. */
  function ReadAuth(k: Keys, storage: Storage): (s: AuthState)
    ensures s.isLoggedIn <==> k.isLoggedIn in storage && storage[k.isLoggedIn] == "true"
    ensures s.profileComplete <==> k.profileComplete in storage && storage[k.profileComplete] == "true"
    ensures s.hasProfile <==> k.hasProfile in storage && storage[k.hasProfile] == "true"
    ensures s.userId.None? <==> k.userId !in storage
    ensures s.userId.Some? ==> s.userId.value == storage[k.userId]
    ensures s.userEmail.None? <==> k.userEmail !in storage
    ensures s.userEmail.Some? ==> s.userEmail.value == storage[k.userEmail]
    ensures s.userName.None? <==> k.userName !in storage
    ensures s.userName.Some? ==> s.userName.value == storage[k.userName]
    ensures s.userType.None? <==> k.userType !in storage
    ensures s.userType.Some? ==> s.userType.value == storage[k.userType]
    ensures s.userStatus.None? <==> k.userStatus !in storage
    ensures s.userStatus.Some? ==> s.userStatus.value == storage[k.userStatus]
  {
    AuthState(
      ReadFlag(storage, k.isLoggedIn), ReadText(storage, k.userId), ReadText(storage, k.userEmail),
      ReadText(storage, k.userName), ReadText(storage, k.userType), ReadText(storage, k.userStatus),
      ReadFlag(storage, k.profileComplete), ReadFlag(storage, k.hasProfile))
  }

  /** Loading finishes with the stored session. */
  function Load(k: Keys, storage: Storage): (s: Session)
    ensures !s.isLoading
    ensures s.state == ReadAuth(k, storage)
  {
    Session(ReadAuth(k, storage), false)
  }

  /** What a write does to one key: nothing, `setItem` or `removeItem`. */
  datatype Op = Keep | Put(text: string) | Delete

  /** The text under the key after `op`, given the text before. */
  function OpRead(before: Option<string>, op: Op): Option<string> {
    match op
    case Keep => before
    case Put(t) => Some(t)
    case Delete => None
  }

  function ApplyOp(storage: Storage, key: string, op: Op): (r: Storage)
    ensures ReadText(r, key) == OpRead(ReadText(storage, key), op)
    ensures forall x | x != key :: ReadText(r, x) == ReadText(storage, x)
  {
    match op
    case Keep => storage
    case Put(t) => storage[key := t]
    case Delete => storage - {key}
  }

  /** The writes `ops[i]` to `keys[i]`, in order. */
  function ApplyAll(storage: Storage, keys: seq<string>, ops: seq<Op>): Storage
    requires |keys| == |ops|
    decreases |keys|
  {
    if |keys| == 0 then storage else ApplyAll(ApplyOp(storage, keys[0], ops[0]), keys[1..], ops[1..])
  }

  /** Keys that are not written keep their text. */
  lemma {:induction false} ApplyAllOther(storage: Storage, keys: seq<string>, ops: seq<Op>, x: string)
    requires |keys| == |ops| && x !in keys
    ensures ReadText(ApplyAll(storage, keys, ops), x) == ReadText(storage, x)
    decreases |keys|
  {
    if |keys| > 0 {
      ApplyAllOther(ApplyOp(storage, keys[0], ops[0]), keys[1..], ops[1..], x);
    }
  }

  /** With distinct keys, each key ends up as its own write left it. */
  lemma {:induction false} ApplyAllAt(storage: Storage, keys: seq<string>, ops: seq<Op>, i: nat)
    requires |keys| == |ops| && NoDup(keys) && i < |keys|
    ensures ReadText(ApplyAll(storage, keys, ops), keys[i]) == OpRead(ReadText(storage, keys[i]), ops[i])
    decreases i
  {
    var s1 := ApplyOp(storage, keys[0], ops[0]);
    if i == 0 {
      ApplyAllOther(s1, keys[1..], ops[1..], keys[0]);
    } else {
      assert keys[1..][i - 1] == keys[i];
      ApplyAllAt(s1, keys[1..], ops[1..], i - 1);
    }
  }

  /** A present boolean field is written as its text; an absent one leaves the key alone. */
  function FlagOp(v: Option<bool>): (op: Op)
    ensures v.None? <==> op.Keep?
    ensures v.Some? ==> op == Put(BoolText(v.value))
  {
    if v.Some? then Put(BoolText(v.value)) else Keep
  }

  /** A present string field is written when non-empty, and its key removed when null or empty. */
  function TextOp(v: Option<Option<string>>): (op: Op)
    ensures v.None? <==> op.Keep?
    ensures op.Put? <==> v.Some? && v.value.Some? && v.value.value != ""
    ensures op.Put? ==> op.text == v.value.value
  {
    if v.None? then Keep
    else if v.value.Some? && v.value.value != "" then Put(v.value.value)
    else Delete
  }

  /** The write to each of the eight keys, in `AuthKeys` order. */
  function PatchOps(p: AuthPatch): seq<Op> {
    [FlagOp(p.isLoggedIn), TextOp(p.userId), TextOp(p.userEmail), TextOp(p.userName),
     TextOp(p.userType), TextOp(p.userStatus), FlagOp(p.profileComplete), FlagOp(p.hasProfile)]
  }

  /** `{...prev, ...p}`: every present field of the patch replaces the previous one verbatim. */
  function Overlay(s: AuthState, p: AuthPatch): AuthState {
    AuthState(
      p.isLoggedIn.GetOr(s.isLoggedIn), p.userId.GetOr(s.userId), p.userEmail.GetOr(s.userEmail),
      p.userName.GetOr(s.userName), p.userType.GetOr(s.userType), p.userStatus.GetOr(s.userStatus),
      p.profileComplete.GetOr(s.profileComplete), p.hasProfile.GetOr(s.hasProfile))
  }

  /** A string field as a later read from storage sees it: the empty string reads back as null. */
  function Stored(v: Option<Option<string>>): Option<Option<string>> {
    if v.Some? && v.value.Some? && v.value.value == "" then Some(None) else v
  }

  function StoredPatch(p: AuthPatch): AuthPatch {
    p.(userId := Stored(p.userId), userEmail := Stored(p.userEmail), userName := Stored(p.userName),
       userType := Stored(p.userType), userStatus := Stored(p.userStatus))
  }

  /**
   * The storage writes of `setAuthState(p)`: each of the eight keys receives its field's write
   * and no other key changes.
   */
  function StorePatch(k: Keys, storage: Storage, p: AuthPatch): (r: Storage)
    requires Distinct(k)
    ensures forall i | 0 <= i < 8 :: ReadText(r, AuthKeys(k)[i]) == OpRead(ReadText(storage, AuthKeys(k)[i]), PatchOps(p)[i])
    ensures forall x | x !in AuthKeys(k) :: ReadText(r, x) == ReadText(storage, x)
  {
    var keys := AuthKeys(k);
    var ops := PatchOps(p);
    var stored := ApplyAll(storage, keys, ops);
    forall x | x !in keys ensures ReadText(stored, x) == ReadText(storage, x) {
      ApplyAllOther(storage, keys, ops, x);
    }
    forall i | 0 <= i < 8 ensures ReadText(stored, keys[i]) == OpRead(ReadText(storage, keys[i]), ops[i]) {
      ApplyAllAt(storage, keys, ops, i);
    }
    stored
  }

  /** `setAuthState(p)`: storage takes the writes and memory takes the overlay. */
  function SetAuthState(k: Keys, session: Session, storage: Storage, p: AuthPatch): (r: (Session, Storage))
    requires Distinct(k)
    ensures r.0.state == Overlay(session.state, p)
    ensures r.0.isLoading == session.isLoading
    ensures r.1 == StorePatch(k, storage, p)
  {
    (Session(Overlay(session.state, p), session.isLoading), StorePatch(k, storage, p))
  }

  /**
   * Reloading after `setAuthState(p)` sees the old stored session overlaid with `p`,
   * except that an empty string, removed from storage, comes back as null.
   */
  lemma ReloadAfterSet(k: Keys, storage: Storage, p: AuthPatch)
    requires Distinct(k)
    ensures ReadAuth(k, StorePatch(k, storage, p)) == Overlay(ReadAuth(k, storage), StoredPatch(p))
  {
    var st := StorePatch(k, storage, p);
    var keys := AuthKeys(k);
    assert ReadText(st, k.isLoggedIn) == OpRead(ReadText(storage, k.isLoggedIn), FlagOp(p.isLoggedIn)) by { assert keys[0] == k.isLoggedIn; }
    assert ReadText(st, k.userId) == OpRead(ReadText(storage, k.userId), TextOp(p.userId)) by { assert keys[1] == k.userId; }
    assert ReadText(st, k.userEmail) == OpRead(ReadText(storage, k.userEmail), TextOp(p.userEmail)) by { assert keys[2] == k.userEmail; }
    assert ReadText(st, k.userName) == OpRead(ReadText(storage, k.userName), TextOp(p.userName)) by { assert keys[3] == k.userName; }
    assert ReadText(st, k.userType) == OpRead(ReadText(storage, k.userType), TextOp(p.userType)) by { assert keys[4] == k.userType; }
    assert ReadText(st, k.userStatus) == OpRead(ReadText(storage, k.userStatus), TextOp(p.userStatus)) by { assert keys[5] == k.userStatus; }
    assert ReadText(st, k.profileComplete) == OpRead(ReadText(storage, k.profileComplete), FlagOp(p.profileComplete)) by { assert keys[6] == k.profileComplete; }
    assert ReadText(st, k.hasProfile) == OpRead(ReadText(storage, k.hasProfile), FlagOp(p.hasProfile)) by { assert keys[7] == k.hasProfile; }
  }

  /** An empty user name is kept in memory but its key is removed, so a reload reads null. */
  lemma EmptyNameLostOnReload(k: Keys, session: Session, storage: Storage)
    requires Distinct(k)
    ensures var p := AuthPatch(None, None, None, Some(Some("")), None, None, None, None);
      var r := SetAuthState(k, session, storage, p);
      r.0.state.userName == Some("") && ReadAuth(k, r.1).userName == None
  {
    ReloadAfterSet(k, storage, AuthPatch(None, None, None, Some(Some("")), None, None, None, None));
  }

  /** `clearAuth()`: all eight field keys and the user key are removed and the session is logged out. */
  function ClearAuth(k: Keys, session: Session, storage: Storage): (r: (Session, Storage))
    ensures r.0 == Session(LoggedOut, session.isLoading)
    ensures forall x | x in AuthKeys(k) || x == k.user :: x !in r.1
    ensures forall x | x !in AuthKeys(k) && x != k.user :: (x in r.1 <==> x in storage) && (x in r.1 ==> r.1[x] == storage[x])
    ensures ReadAuth(k, r.1) == LoggedOut
  {
    (Session(LoggedOut, session.isLoading), storage - (set x | x in AuthKeys(k)) - {k.user})
  }

  predicate IsHotel(s: AuthState) { s.userType == Some("hotel") }
  predicate IsCreator(s: AuthState) { s.userType == Some("creator") }
  predicate IsAdmin(s: AuthState) { s.userType == Some("admin") }

  /** At most one of the three role flags holds. */
  lemma AtMostOneRole(s: AuthState)
    ensures !(IsHotel(s) && IsCreator(s)) && !(IsHotel(s) && IsAdmin(s)) && !(IsCreator(s) && IsAdmin(s))
  {
  }
}

=== FILE: collaborations_page.dfy ===
/**
 * The collaborations page: the signed-in hotel's or creator's collaborations, filtered
 * by status and by a search over the other party, sorted newest first or by the other
 * party's name, with local status updates.
 */
module CollaborationsPage {
  import opened Wrappers
  import opened Seqs
  import opened Text
  import opened Sorting

  /** The name and location shown for the hotel or creator on a collaboration. */
  datatype Party = Party(name: string, location: string)

  /** A collaboration with its two parties attached; `createdAt` is a time in milliseconds. */
  datatype Collaboration = Collaboration(
    id: string, hotelId: string, creatorId: string, status: string, createdAt: int,
    hotel: Option<Party>, creator: Option<Party>)

  const All := "all"
  const Newest := "newest"

  /** The party the signed-in user is not: the creator for a hotel user, otherwise the hotel. */
  function OtherParty(c: Collaboration, userType: string): Option<Party> {
    if userType == "hotel" then c.creator else c.hotel
  }

  /** The search test: the other party's name or location contains the query, ignoring case. */
  predicate MatchesQuery(c: Collaboration, userType: string, query: string) {
    var p := OtherParty(c, userType);
    p.Some? && (Contains(ToLower(p.value.name), ToLower(query)) || Contains(ToLower(p.value.location), ToLower(query)))
  }

  /**
   * The filter callback: the status must equal the filter unless it is `all`, and a
   * non-blank query must match; the query itself is matched untrimmed.
   */
  predicate Keep(statusFilter: string, query: string, userType: string, c: Collaboration) {
    (statusFilter == All || c.status == statusFilter) && (IsBlank(query) || MatchesQuery(c, userType, query))
  }

  /** The name the `a-z` sort compares: the other party's, or `''` when it is missing. */
  function SortName(c: Collaboration, userType: string): string {
    match OtherParty(c, userType)
    case Some(p) => p.name
    case None => ""
  }

  /** The sort's comparator as a "may come before" relation. */
  function Order(sortOption: string, userType: string): (Collaboration, Collaboration) -> bool {
    if sortOption == Newest then (a: Collaboration, b: Collaboration) => a.createdAt >= b.createdAt
    else (a: Collaboration, b: Collaboration) => StrLe(SortName(a, userType), SortName(b, userType))
  }

  /** Both sort options are consistent orders. */
  lemma OrderConsistent(sortOption: string, userType: string)
    ensures TotalPreorder(Order(sortOption, userType))
  {
    var le := Order(sortOption, userType);
    if sortOption != Newest {
      forall a: Collaboration, b: Collaboration ensures le(a, b) || le(b, a) {
        StrLeTotal(SortName(a, userType), SortName(b, userType));
      }
      forall a: Collaboration, b: Collaboration, c: Collaboration | le(a, b) && le(b, c) ensures le(a, c) {
        StrLeTrans(SortName(a, userType), SortName(b, userType), SortName(c, userType));
      }
    }
  }

  /** `filteredAndSortedCollaborations`. */
  function FilteredAndSorted(cs: seq<Collaboration>, statusFilter: string, query: string, sortOption: string, userType: string): (r: seq<Collaboration>)
    ensures multiset(r) == multiset(Filter((c: Collaboration) => Keep(statusFilter, query, userType, c), cs))
    ensures |r| <= |cs|
  {
    Sort(Order(sortOption, userType), Filter((c: Collaboration) => Keep(statusFilter, query, userType, c), cs))
  }

  /**
   * The page shows exactly the collaborations passing the filters, each from the input, with
   * the selected status unless the filter is `all`, in the chosen order.
   */
  lemma FilteredAndSortedFacts(cs: seq<Collaboration>, statusFilter: string, query: string, sortOption: string, userType: string)
    ensures var r := FilteredAndSorted(cs, statusFilter, query, sortOption, userType);
      && (forall c :: c in r <==> c in cs && Keep(statusFilter, query, userType, c))
      && (statusFilter != All ==> forall c | c in r :: c.status == statusFilter)
      && (!IsBlank(query) ==> forall c | c in r :: MatchesQuery(c, userType, query))
      && (sortOption == Newest ==> forall i, j | 0 <= i < j < |r| :: r[i].createdAt >= r[j].createdAt)
      && (sortOption != Newest ==> forall i, j | 0 <= i < j < |r| :: StrLe(SortName(r[i], userType), SortName(r[j], userType)))
  {
    var kept := Filter((c: Collaboration) => Keep(statusFilter, query, userType, c), cs);
    var r := FilteredAndSorted(cs, statusFilter, query, sortOption, userType);
    forall c ensures c in r <==> c in kept {
      assert c in r <==> c in multiset(r);
    }
    OrderConsistent(sortOption, userType);
    SortSorts(Order(sortOption, userType), kept);
  }

  /** A blank query searches nothing: only the status filter applies. */
  lemma BlankQueryIgnored(cs: seq<Collaboration>, statusFilter: string, query: string, userType: string, c: Collaboration)
    requires IsBlank(query)
    ensures Keep(statusFilter, query, userType, c) <==> statusFilter == All || c.status == statusFilter
  {
  }

  /** The query is not trimmed: a leading space stops a name from matching. */
  lemma QueryNotTrimmed()
    ensures var c := Collaboration("1", "1", "1", "pending", 0, None, Some(Party("Anna", "")));
      Keep(All, "anna", "hotel", c) && !Keep(All, " anna", "hotel", c)
  {
    var c := Collaboration("1", "1", "1", "pending", 0, None, Some(Party("Anna", "")));
    assert ToLower("Anna") == "anna";
    assert StartsWith(ToLower("Anna"), ToLower("anna"));
    assert ToLower(" anna") == " anna";
    assert !IsBlank(" anna") by { assert !IsSpace(" anna"[1]); }
    assert !Contains("anna", " anna") by {
      assert !Contains("anna"[1..][1..][1..][1..], " anna");
      assert !Contains("anna"[1..][1..][1..], " anna");
      assert !Contains("anna"[1..][1..], " anna");
      assert !Contains("anna"[1..], " anna");
    }
    assert !Contains(ToLower(""), " anna");
  }

  /** `handleStatusUpdate(id, status)`: the collaborations with that id take the new status; no other changes. */
  function StatusUpdate(cs: seq<Collaboration>, id: string, status: string): (r: seq<Collaboration>)
    ensures |r| == |cs|
    ensures forall k | 0 <= k < |cs| && cs[k].id == id :: r[k] == cs[k].(status := status)
    ensures forall k | 0 <= k < |cs| && cs[k].id != id :: r[k] == cs[k]
  {
    Map((c: Collaboration) => if c.id == id then c.(status := status) else c, cs)
  }

  /** A second update of the same collaboration overrides the first. */
  lemma StatusUpdateTwice(cs: seq<Collaboration>, id: string, first: string, second: string)
    ensures StatusUpdate(StatusUpdate(cs, id, first), id, second) == StatusUpdate(cs, id, second)
  {
  }

  /** The id the mock data is filtered by: the stored user id, or `'1'` when there is none. */
  function FilterId(userId: Option<string>): (r: string)
    ensures Truthy(userId) ==> r == userId.value
    ensures !Truthy(userId) ==> r == "1"
  {
    Or(userId, Some("1")).value
  }

  /** The user-type filter of `getMockCollaborations`: a hotel sees its own collaborations, anyone else a creator's. */
  function ForUser(all: seq<Collaboration>, userType: string, userId: Option<string>): (r: seq<Collaboration>)
    ensures forall c :: c in r <==> c in all && (if userType == "hotel" then c.hotelId else c.creatorId) == FilterId(userId)
  {
    if userType == "hotel" then Filter((c: Collaboration) => c.hotelId == FilterId(userId), all)
    else Filter((c: Collaboration) => c.creatorId == FilterId(userId), all)
  }
}

=== FILE: colors.dfy ===
/** The badge styles for collaboration statuses and their case-insensitive lookup. */
module Colors {
  import opened Text

  /** The four utility classes of a status badge. */
  datatype StatusStyle = StatusStyle(bg: string, text: string, border: string, dot: string)

  const PendingStyle := StatusStyle("bg-warning-100", "text-warning-700", "border-warning-200", "bg-warning-500")
  const DeclinedStyle := StatusStyle("bg-error-100", "text-error-700", "border-error-200", "bg-error-500")

  /** The style table, keyed by lower-case backend status (plus `staying`). */
  const StatusStyles: map<string, StatusStyle> := map[
    "pending" := PendingStyle,
    "negotiating" := StatusStyle("bg-info-100", "text-info-700", "border-info-200", "bg-info-500"),
    "accepted" := StatusStyle("bg-success-100", "text-success-700", "border-success-200", "bg-success-500"),
    "staying" := StatusStyle("bg-purple-100", "text-purple-700", "border-purple-200", "bg-purple-500"),
    "completed" := StatusStyle("bg-success-100", "text-success-700", "border-success-200", "bg-success-500"),
    "declined" := DeclinedStyle,
    "cancelled" := StatusStyle("bg-gray-100", "text-gray-500", "border-gray-200", "bg-gray-400")
  ]

  /** The style of `status`, looked up lower-cased, falling back to the pending style. */
  function GetStatusStyle(status: string): (r: StatusStyle)
    ensures r in StatusStyles.Values
    ensures ToLower(status) in StatusStyles ==> r == StatusStyles[ToLower(status)]
    ensures ToLower(status) !in StatusStyles ==> r == PendingStyle
  {
    var key := ToLower(status);
    if key in StatusStyles then StatusStyles[key]
    else
      assert StatusStyles["pending"] == PendingStyle;
      PendingStyle
  }

  /** The background and text classes of `status`, joined by a space, with the same fallback. */
  function GetStatusClasses(status: string): (r: string)
    ensures ToLower(status) !in StatusStyles ==> r == "bg-warning-100 text-warning-700"
  {
    var key := ToLower(status);
    if key !in StatusStyles then PendingStyle.bg + " " + PendingStyle.text
    else StatusStyles[key].bg + " " + StatusStyles[key].text
  }

  /** The class string is always the background and text of the full style. */
  lemma ClassesMatchStyle(status: string)
    ensures GetStatusClasses(status) == GetStatusStyle(status).bg + " " + GetStatusStyle(status).text
  {
  }

  /** Statuses that differ only in letter case get the same style. */
  lemma StyleIgnoresCase(a: string, b: string)
    requires ToLower(a) == ToLower(b)
    ensures GetStatusStyle(a) == GetStatusStyle(b)
    ensures GetStatusClasses(a) == GetStatusClasses(b)
  {
  }

  /** The front-end status `rejected` has no entry and is styled as pending; only `declined` gets the error style. */
  lemma RejectedLooksPending()
    ensures GetStatusStyle("rejected") == PendingStyle
    ensures GetStatusStyle("declined") == DeclinedStyle
    ensures GetStatusStyle("DECLINED") == DeclinedStyle
  {
    assert ToLower("rejected") == "rejected";
    assert ToLower("declined") == "declined";
    assert ToLower("DECLINED") == "declined";
  }
}

=== FILE: cookie_consent.dfy ===
/**
 * The cookie-consent store: the visitor's choice of cookie categories, kept in local
 * storage under `vayada_cookie_consent`, synchronised from the backend on load, and
 * the flags that drive the banner and the settings panel.
 */
module CookieConsent {
  import opened Wrappers
  import opened Text
  import opened LocalStorage

  const VisitorIdKey: string := "vayada_visitor_id"
  const ConsentKey: string := "vayada_cookie_consent"

  /** The four cookie categories. */
  datatype Consent = Consent(necessary: bool, functional: bool, analytics: bool, marketing: bool)

  const AllAccepted := Consent(true, true, true, true)
  const NecessaryOnly := Consent(true, false, false, false)

  /** The consent record the backend returns for a visitor (the fields the store reads). */
  datatype RemoteConsent = RemoteConsent(visitorId: string, necessary: bool, functional: bool, analytics: bool, marketing: bool)

  /** The store's state. */
  datatype State = State(consent: Option<Consent>, hasConsented: bool, isLoading: bool, showBanner: bool, showSettings: bool)

  const Initial := State(None, false, true, false, false)

  // ---------------------------------------------------------------------------
  // The stored text
  // ---------------------------------------------------------------------------

  /** The text introducing a member: `{"name":` for the first, `,"name":` for the others. */
  function Member(first: bool, name: string): string {
    (if first then "{" else ",") + "\"" + name + "\":"
  }

  /** The members `names[i]: values[i]` of an object of booleans, closed by `}`. */
  function EncodeMembers(names: seq<string>, values: seq<bool>, first: bool): string
    requires |names| == |values|
  {
    if |names| == 0 then "}"
    else Member(first, names[0]) + BoolText(values[0]) + EncodeMembers(names[1..], values[1..], false)
  }

  const Names: seq<string> := ["necessary", "functional", "analytics", "marketing"]

  function Flags(c: Consent): seq<bool> {
    [c.necessary, c.functional, c.analytics, c.marketing]
  }

  /** `JSON.stringify` of a consent record: keys in declaration order, no white space. */
  function Encode(c: Consent): string {
    EncodeMembers(Names, Flags(c), true)
  }

  /** The rest of `t` after the literal `p`, if `t` starts with it. */
  function Expect(t: string, p: string): (r: Option<string>)
    ensures r.Some? <==> StartsWith(t, p)
    ensures r.Some? ==> t == p + r.value
  {
    if StartsWith(t, p) then Some(t[|p|..]) else None
  }

  /** A JSON boolean at the start of `t`, and the rest. */
  function ParseBool(t: string): (r: Option<(bool, string)>)
    ensures r.Some? ==> t == BoolText(r.value.0) + r.value.1
  {
    if StartsWith(t, "true") then Some((true, t[4..]))
    else if StartsWith(t, "false") then Some((false, t[5..]))
    else None
  }

  /** The values of the members `names`, in that order and nothing else, at the start of `t`. */
  function DecodeMembers(t: string, names: seq<string>, first: bool): (r: Option<seq<bool>>)
    ensures r.Some? ==> |r.value| == |names| && EncodeMembers(names, r.value, first) == t
    decreases |names|
  {
    if |names| == 0 then (if t == "}" then Some([]) else None)
    else
      var after := Expect(t, Member(first, names[0]));
      if after.None? then None
      else
        var b := ParseBool(after.value);
        if b.None? then None
        else
          var rest := DecodeMembers(b.value.1, names[1..], false);
          if rest.None? then None else Some([b.value.0] + rest.value)
  }

  lemma ParseBoolText(b: bool, rest: string)
    ensures ParseBool(BoolText(b) + rest) == Some((b, rest))
  {
    var t := BoolText(b) + rest;
    if b {
      assert t[..4] == "true";
      assert t[4..] == rest;
    } else {
      assert t[0] == 'f';
      assert t[..5] == "false";
      assert t[5..] == rest;
    }
  }

  /** Decoding inverts encoding, member by member. */
  lemma {:induction false} DecodeEncodeMembers(names: seq<string>, values: seq<bool>, first: bool)
    requires |names| == |values|
    ensures DecodeMembers(EncodeMembers(names, values, first), names, first) == Some(values)
    decreases |names|
  {
    if |names| > 0 {
      var rest := EncodeMembers(names[1..], values[1..], false);
      var t := Member(first, names[0]) + BoolText(values[0]) + rest;
      var m := Member(first, names[0]);
      assert t[..|m|] == m;
      assert t[|m|..] == BoolText(values[0]) + rest;
      ParseBoolText(values[0], rest);
      DecodeEncodeMembers(names[1..], values[1..], false);
      assert [values[0]] + values[1..] == values;
    }
  }

  /**
   * `JSON.parse` of a stored consent record. This model reads the exact text `Encode` writes;
   * any other text is a parse failure.
   */
  function Decode(t: string): (r: Option<Consent>)
    ensures r.Some? ==> Encode(r.value) == t
  {
    var bs := DecodeMembers(t, Names, true);
    if bs.None? then None
    else
      var c := Consent(bs.value[0], bs.value[1], bs.value[2], bs.value[3]);
      assert Flags(c) == bs.value;
      Some(c)
  }

  /** Every record written is read back as itself. */
  lemma DecodeEncode(c: Consent)
    ensures Decode(Encode(c)) == Some(c)
  {
    DecodeEncodeMembers(Names, Flags(c), true);
  }

  /** The stored consent, if the key holds a record that parses. */
  function StoredConsent(storage: Storage): Option<Consent> {
    if ConsentKey in storage then Decode(storage[ConsentKey]) else None
  }

  // ---------------------------------------------------------------------------
  // Visitor id
  // ---------------------------------------------------------------------------

  /**
   * `getVisitorId()`: the stored id when there is a non-empty one; otherwise a nonce id
   * `v_` + `nonce` (the random part, a parameter here) that is stored before it is returned.
   */
  function GetVisitorId(storage: Storage, nonce: string): (r: (string, Storage))
    ensures VisitorIdKey in storage && storage[VisitorIdKey] != "" ==> r == (storage[VisitorIdKey], storage)
    ensures !(VisitorIdKey in storage && storage[VisitorIdKey] != "") ==> r.0 == "v_" + nonce && r.1 == storage[VisitorIdKey := r.0]
    ensures r.0 != "" && VisitorIdKey in r.1 && r.1[VisitorIdKey] == r.0
    ensures forall k | k != VisitorIdKey :: (k in r.1 <==> k in storage) && (k in storage ==> r.1[k] == storage[k])
  {
    if VisitorIdKey in storage && storage[VisitorIdKey] != "" then (storage[VisitorIdKey], storage)
    else
      var id := "v_" + nonce;
      (id, storage[VisitorIdKey := id])
  }

  /** A second call returns the id the first one returned and writes nothing. */
  lemma VisitorIdStable(storage: Storage, nonce1: string, nonce2: string)
    ensures var (id, s1) := GetVisitorId(storage, nonce1);
      GetVisitorId(s1, nonce2) == (id, s1)
  {
  }

  // ---------------------------------------------------------------------------
  // Loading
  // ---------------------------------------------------------------------------

  /** The four flags the store copies out of a backend record, `necessary` included as sent. */
  function FromRemote(rc: RemoteConsent): Consent {
    Consent(rc.necessary, rc.functional, rc.analytics, rc.marketing)
  }

  /**
   * The backend step of loading: skipped for an empty visitor id; a record found
   * replaces the consent in memory and in storage and hides the banner; no record
   * (or a failed request) changes nothing.
   */
  function SyncRemote(s: State, storage: Storage, visitorId: string, remote: Option<RemoteConsent>): (r: (State, Storage))
    ensures visitorId == "" || remote.None? ==> r == (s, storage)
    ensures visitorId != "" && remote.Some? ==>
      r.0 == s.(consent := Some(FromRemote(remote.value)), hasConsented := true, showBanner := false)
      && StoredConsent(r.1) == Some(FromRemote(remote.value))
  {
    if visitorId == "" || remote.None? then (s, storage)
    else
      var c := FromRemote(remote.value);
      DecodeEncode(c);
      (s.(consent := Some(c), hasConsented := true, showBanner := false), storage[ConsentKey := Encode(c)])
  }

  /**
   * `loadConsent()` on mount. A stored value that is present but does not parse throws
   * before the backend is asked: loading ends with the initial state and nothing written.
   * `remote` is what the backend returns for the visitor, `nonce` the random part of a new id.
   */
  function Load(storage: Storage, remote: Option<RemoteConsent>, nonce: string): (r: (State, Storage))
    ensures !r.0.isLoading && !r.0.showSettings
    ensures ConsentKey in storage && storage[ConsentKey] != "" && StoredConsent(storage).None? ==>
      r == (Initial.(isLoading := false), storage)
    ensures r.0.consent.Some? <==> r.0.hasConsented
    ensures r.0.showBanner ==> r.0.consent.None?
  {
    var text := if ConsentKey in storage then storage[ConsentKey] else "";
    if text != "" && Decode(text).None? then (Initial.(isLoading := false), storage)
    else
      var s1 := if text != "" then Initial.(consent := Decode(text), hasConsented := true, showBanner := false)
                else Initial.(showBanner := true);
      var (id, storage1) := GetVisitorId(storage, nonce);
      var (s2, storage2) := SyncRemote(s1, storage1, id, remote);
      (s2.(isLoading := false), storage2)
  }

  /** With no backend record, a stored record is loaded as is and the banner stays hidden. */
  lemma LoadStored(storage: Storage, c: Consent, nonce: string)
    requires ConsentKey in storage && storage[ConsentKey] == Encode(c)
    ensures Load(storage, None, nonce).0 == State(Some(c), true, false, false, false)
  {
    DecodeEncode(c);
  }

  /** With nothing stored and no backend record, the banner is shown. */
  lemma LoadNothingShowsBanner(storage: Storage, nonce: string)
    requires ConsentKey !in storage || storage[ConsentKey] == ""
    ensures Load(storage, None, nonce).0 == State(None, false, false, true, false)
  {
  }

  /** A backend record wins over whatever is stored (as long as the stored text parses), in memory and in storage. */
  lemma RemoteOverrides(storage: Storage, rc: RemoteConsent, nonce: string)
    requires !(ConsentKey in storage && storage[ConsentKey] != "" && StoredConsent(storage).None?)
    ensures var (s, st) := Load(storage, Some(rc), nonce);
      s == State(Some(FromRemote(rc)), true, false, false, false) && StoredConsent(st) == Some(FromRemote(rc))
  {
  }

  /** `necessary` is taken from the backend as sent, so a record saying false loads as false. */
  lemma RemoteNecessaryNotForced(storage: Storage, nonce: string)
    requires ConsentKey !in storage
    ensures Load(storage, Some(RemoteConsent("v_x", false, false, false, false)), nonce).0.consent == Some(Consent(false, false, false, false))
  {
  }

  // ---------------------------------------------------------------------------
  // Saving
  // ---------------------------------------------------------------------------

  /**
   * `saveConsent(c)`: `necessary` is forced on, the record is stored and held, the banner
   * and the settings panel close. The backend call needs a visitor id, which may be
   * created and stored; its outcome changes nothing.
   */
  function Save(s: State, storage: Storage, c: Consent, nonce: string): (r: (State, Storage))
    ensures r.0 == s.(consent := Some(c.(necessary := true)), hasConsented := true, showBanner := false, showSettings := false)
    ensures StoredConsent(r.1) == r.0.consent
    ensures forall k | k != ConsentKey && k != VisitorIdKey :: (k in r.1 <==> k in storage) && (k in storage ==> r.1[k] == storage[k])
  {
    var final := c.(necessary := true);
    DecodeEncode(final);
    var storage1 := storage[ConsentKey := Encode(final)];
    var (_, storage2) := GetVisitorId(storage1, nonce);
    (s.(consent := Some(final), hasConsented := true, showBanner := false, showSettings := false), storage2)
  }

  /** After any save, a reload without a backend record restores the saved consent with the banner hidden. */
  lemma SaveThenReload(s: State, storage: Storage, c: Consent, nonce1: string, nonce2: string)
    ensures var (s1, st1) := Save(s, storage, c, nonce1);
      Load(st1, None, nonce2).0 == State(s1.consent, true, false, false, false)
  {
    var (s1, st1) := Save(s, storage, c, nonce1);
    LoadStored(st1, c.(necessary := true), nonce2);
  }

  /** `acceptAll()`: every category on. */
  function AcceptAll(s: State, storage: Storage, nonce: string): (r: (State, Storage))
    ensures r.0.consent == Some(Consent(true, true, true, true))
    ensures StoredConsent(r.1) == Some(Consent(true, true, true, true))
  {
    Save(s, storage, AllAccepted, nonce)
  }

  /** `acceptNecessaryOnly()`: only the necessary category on. */
  function AcceptNecessaryOnly(s: State, storage: Storage, nonce: string): (r: (State, Storage))
    ensures r.0.consent == Some(Consent(true, false, false, false))
    ensures StoredConsent(r.1) == Some(Consent(true, false, false, false))
  {
    Save(s, storage, NecessaryOnly, nonce)
  }

  /** A partial consent: a missing field keeps the current value. */
  datatype ConsentPatch = ConsentPatch(necessary: Option<bool>, functional: Option<bool>, analytics: Option<bool>, marketing: Option<bool>)

  /**
   * `updateConsent(p)`: the patch laid over the current consent (or over necessary-only when
   * there is none) is saved, with `necessary` forced on whatever the patch says.
   */
  function UpdateConsent(s: State, storage: Storage, p: ConsentPatch, nonce: string): (r: (State, Storage))
    ensures r.0.consent.Some? && r.0.consent.value.necessary
    ensures var base := s.consent.GetOr(NecessaryOnly);
      r.0.consent.value.functional == p.functional.GetOr(base.functional)
      && r.0.consent.value.analytics == p.analytics.GetOr(base.analytics)
      && r.0.consent.value.marketing == p.marketing.GetOr(base.marketing)
    ensures StoredConsent(r.1) == r.0.consent
    ensures r.0.hasConsented && !r.0.showBanner && !r.0.showSettings
  {
    var base := s.consent.GetOr(NecessaryOnly);
    var merged := Consent(true, p.functional.GetOr(base.functional), p.analytics.GetOr(base.analytics), p.marketing.GetOr(base.marketing));
    Save(s, storage, merged, nonce)
  }

  /** An empty patch on a store without consent saves necessary-only. */
  lemma UpdateFromNothing(s: State, storage: Storage, nonce: string)
    requires s.consent.None?
    ensures UpdateConsent(s, storage, ConsentPatch(None, None, None, None), nonce).0.consent == Some(NecessaryOnly)
  {
  }

  /** `openSettings()`. */
  function OpenSettings(s: State): (r: State)
    ensures r.showSettings && r.(showSettings := s.showSettings) == s
  {
    s.(showSettings := true)
  }

  /** `closeSettings()`. */
  function CloseSettings(s: State): (r: State)
    ensures !r.showSettings && r.(showSettings := s.showSettings) == s
  {
    s.(showSettings := false)
  }

  /** Closing after opening only restores the panel flag when it was closed before. */
  lemma OpenCloseRoundTrip(s: State)
    requires !s.showSettings
    ensures CloseSettings(OpenSettings(s)) == s
  {
  }
}

=== FILE: creator_profile_edit.dfy ===
/**
 * `useCreatorProfileEdit`: the creator's profile editor. It turns the API's creator record
 * into the profile and the edit form, validates the form, builds the update payload and
 * keeps the per-platform demographics (age groups, countries, gender split) editable.
 */
module CreatorProfileEdit {
  import opened Wrappers
  import opened Seqs
  import opened Text
  import opened Validation
  import ImageUpload
  import ProfilePicture

  datatype AgeGroup = AgeGroup(ageRange: string, percentage: int)
  datatype CountryShare = CountryShare(country: string, percentage: int)
  datatype GenderSplit = GenderSplit(male: int, female: int)

  /** `ProfilePlatform`: one social-media account of the creator. */
  datatype Platform = Platform(
    id: string, name: string, handle: string, followers: int, engagementRate: real,
    topCountries: seq<CountryShare>, topAgeGroups: seq<AgeGroup>, genderSplit: Option<GenderSplit>)

  datatype Rating = Rating(averageRating: real, totalReviews: int)

  /** `CreatorProfile`. */
  datatype Profile = Profile(
    id: string, name: string, profilePicture: Option<string>, shortDescription: string, location: string,
    status: string, rating: Rating, platforms: seq<Platform>, portfolioLink: Option<string>,
    email: string, phone: string)

  /** `CreatorEditFormData`. */
  datatype EditForm = EditForm(
    name: string, profilePicture: string, shortDescription: string, location: string,
    portfolioLink: string, platforms: seq<Platform>)

  // ---------------------------------------------------------------------------
  // The API record and its transformation
  // ---------------------------------------------------------------------------

  /** An age group as the API sends it, under either spelling of the range key. */
  datatype ApiAgeGroup = ApiAgeGroup(ageRange: Option<string>, age_range: Option<string>, percentage: Option<int>)

  /**
   * A gender split as the API sends it: missing, JSON text (with the outcome of parsing it,
   * `None` when parsing throws) or an object.
   */
  datatype ApiGender = NoGender | GenderText(text: string, parsed: Option<GenderSplit>) | GenderObject(split: GenderSplit)

  /** A platform as the API sends it; snake-case fields are the alternative spellings. */
  datatype ApiPlatform = ApiPlatform(
    id: string, name: string, handle: Option<string>, followers: Option<int>,
    engagementRate: Option<real>, engagement_rate: Option<real>,
    topCountries: Option<seq<CountryShare>>, top_countries: Option<seq<CountryShare>>,
    topAgeGroups: Option<seq<ApiAgeGroup>>, top_age_groups: Option<seq<ApiAgeGroup>>,
    genderSplit: ApiGender, gender_split: ApiGender)

  datatype ApiRating = ApiRating(
    averageRating: Option<real>, average_rating: Option<real>, totalReviews: Option<int>, total_reviews: Option<int>)

  /** `ApiCreatorResponse`. */
  datatype ApiCreator = ApiCreator(
    id: Option<string>, name: Option<string>,
    profilePicture: Option<string>, profile_picture: Option<string>,
    shortDescription: Option<string>, short_description: Option<string>,
    portfolioLink: Option<string>, portfolio_link: Option<string>,
    location: Option<string>, status: Option<string>, email: Option<string>, phone: Option<string>,
    platforms: Option<seq<ApiPlatform>>, rating: Option<ApiRating>)

  /** An age range worth keeping: neither empty nor the text `null`. */
  predicate Kept(g: AgeGroup) {
    g.ageRange != "" && g.ageRange != "null"
  }

  /** The range (either spelling, trimmed) and percentage of an API age group. */
  function AgeGroupOf(g: ApiAgeGroup): AgeGroup {
    AgeGroup(Trim(g.ageRange.OrElse(g.age_range).GetOr("")), g.percentage.GetOr(0))
  }

  /** Any present gender split except empty text. */
  predicate GenderGiven(g: ApiGender) {
    !g.NoGender? && !(g.GenderText? && g.text == "")
  }

  /** The gender split of an API platform: the object, or the parsed text, or `{0, 0}`. */
  function GenderOf(p: ApiPlatform): (r: GenderSplit)
    ensures !GenderGiven(p.genderSplit) && !GenderGiven(p.gender_split) ==> r == GenderSplit(0, 0)
    ensures p.genderSplit.GenderObject? ==> r == p.genderSplit.split
    ensures p.genderSplit.GenderText? && p.genderSplit.text != "" && p.genderSplit.parsed.None? ==> r == GenderSplit(0, 0)
    ensures p.genderSplit.GenderText? && p.genderSplit.text != "" && p.genderSplit.parsed.Some? ==> r == p.genderSplit.parsed.value
    ensures !GenderGiven(p.genderSplit) && p.gender_split.GenderObject? ==> r == p.gender_split.split
    ensures !GenderGiven(p.genderSplit) && p.gender_split.GenderText? && p.gender_split.text != "" ==>
      r == if p.gender_split.parsed.Some? then p.gender_split.parsed.value else GenderSplit(0, 0)
  {
    var raw := if GenderGiven(p.genderSplit) then p.genderSplit else p.gender_split;
    match raw
    case GenderObject(s) => s
    case GenderText(t, parsed) => if t == "" then GenderSplit(0, 0) else parsed.GetOr(GenderSplit(0, 0))
    case NoGender => GenderSplit(0, 0)
  }

  /** One platform of `transformCreatorProfile`. */
  function TransformPlatform(p: ApiPlatform): (r: Platform)
    ensures forall g | g in r.topAgeGroups :: Kept(g)
    ensures r.genderSplit == Some(GenderOf(p))
    ensures r.id == p.id && r.name == p.name
    ensures p.handle.None? ==> r.handle == ""
    ensures p.followers.None? ==> r.followers == 0
    ensures p.engagementRate.None? && p.engagement_rate.None? ==> r.engagementRate == 0.0
  {
    var er := p.engagementRate;
    var rate := if er.Some? && er.value != 0.0 then er.value else p.engagement_rate.GetOr(0.0);
    var raw := p.topAgeGroups.OrElse(p.top_age_groups).GetOr([]);
    Platform(
      p.id, p.name, Or(p.handle, None).GetOr(""), p.followers.GetOr(0), rate,
      p.topCountries.OrElse(p.top_countries).GetOr([]),
      Filter(Kept, Map(AgeGroupOf, raw)),
      Some(GenderOf(p)))
  }

  /**
   * The kept age groups are exactly the API's groups with a usable range, each trimmed,
   * whichever key spelling carried the range.
   */
  lemma TransformAgeGroups(p: ApiPlatform)
    ensures forall g | g in TransformPlatform(p).topAgeGroups :: Trim(g.ageRange) == g.ageRange
    ensures forall a | a in p.topAgeGroups.OrElse(p.top_age_groups).GetOr([]) ::
      Kept(AgeGroupOf(a)) ==> AgeGroupOf(a) in TransformPlatform(p).topAgeGroups
  {
    var raw := p.topAgeGroups.OrElse(p.top_age_groups).GetOr([]);
    forall g | g in TransformPlatform(p).topAgeGroups ensures Trim(g.ageRange) == g.ageRange {
      assert g in Map(AgeGroupOf, raw);
      var k :| 0 <= k < |raw| && Map(AgeGroupOf, raw)[k] == g;
      TrimIdempotent(raw[k].ageRange.OrElse(raw[k].age_range).GetOr(""));
    }
    forall a | a in raw && Kept(AgeGroupOf(a)) ensures AgeGroupOf(a) in TransformPlatform(p).topAgeGroups {
      var k :| 0 <= k < |raw| && raw[k] == a;
      assert Map(AgeGroupOf, raw)[k] == AgeGroupOf(a);
    }
  }

  /** `transformCreatorProfile`: every field defaulted, every platform transformed. */
  function Transform(a: ApiCreator): (r: Profile)
    ensures r.status != "" && (a.status.None? ==> r.status == "pending")
    ensures Truthy(a.status) ==> r.status == a.status.value
    ensures r.id == TextOr(a.id, "") && r.name == TextOr(a.name, "") && r.location == TextOr(a.location, "")
    ensures r.email == TextOr(a.email, "") && r.phone == TextOr(a.phone, "")
    ensures r.shortDescription == TextOr(a.shortDescription, TextOr(a.short_description, ""))
    ensures var raw := TextOr(a.profilePicture, TextOr(a.profile_picture, ""));
      && (r.profilePicture.None? <==> IsBlank(raw))
      && (r.profilePicture.Some? ==> r.profilePicture.value == Trim(raw))
    ensures r.profilePicture.Some? ==> r.profilePicture.value != ""
    ensures Truthy(a.profilePicture) && !IsBlank(a.profilePicture.value) ==> r.profilePicture == Some(Trim(a.profilePicture.value))
    ensures r.portfolioLink.None? <==> !Truthy(a.portfolioLink) && !Truthy(a.portfolio_link)
    ensures r.portfolioLink.Some? ==> r.portfolioLink.value == TextOr(a.portfolioLink, TextOr(a.portfolio_link, ""))
    ensures r.portfolioLink.Some? ==> r.portfolioLink.value != ""
    ensures a.rating.Some? && a.rating.value.averageRating.Some? ==> r.rating.averageRating == a.rating.value.averageRating.value
    ensures a.rating.Some? && a.rating.value.totalReviews.Some? ==> r.rating.totalReviews == a.rating.value.totalReviews.value
    ensures a.rating.None? ==> r.rating == Rating(0.0, 0)
    ensures |r.platforms| == |a.platforms.GetOr([])|
    ensures forall i | 0 <= i < |r.platforms| :: r.platforms[i] == TransformPlatform(a.platforms.value[i])
    ensures forall i, g | 0 <= i < |r.platforms| && g in r.platforms[i].topAgeGroups :: Kept(g)
  {
    var picture := Trim(TextOr(a.profilePicture, TextOr(a.profile_picture, "")));
    var link := TextOr(a.portfolioLink, TextOr(a.portfolio_link, ""));
    var rating := a.rating.GetOr(ApiRating(None, None, None, None));
    Profile(
      TextOr(a.id, ""),
      TextOr(a.name, ""),
      if picture != "" then Some(picture) else None,
      TextOr(a.shortDescription, TextOr(a.short_description, "")),
      TextOr(a.location, ""),
      TextOr(a.status, "pending"),
      Rating(rating.averageRating.OrElse(rating.average_rating).GetOr(0.0),
             rating.totalReviews.OrElse(rating.total_reviews).GetOr(0)),
      Map(TransformPlatform, a.platforms.GetOr([])),
      if link != "" then Some(link) else None,
      TextOr(a.email, ""),
      TextOr(a.phone, ""))
  }

  /** An age group the cancel path keeps: a non-empty range. */
  predicate NonEmptyRange(g: AgeGroup) {
    g.ageRange != ""
  }

  /** The edit form `loadProfile` fills from a profile, dropping empty and `null` ranges. */
  function LoadedForm(p: Profile): (f: EditForm)
    ensures f.name == p.name && f.location == p.location && f.shortDescription == p.shortDescription
    ensures f.profilePicture == p.profilePicture.GetOr("") && f.portfolioLink == p.portfolioLink.GetOr("")
    ensures |f.platforms| == |p.platforms|
    ensures forall i, g | 0 <= i < |f.platforms| && g in f.platforms[i].topAgeGroups :: Kept(g)
  {
    EditForm(p.name, p.profilePicture.GetOr(""), p.shortDescription, p.location, p.portfolioLink.GetOr(""),
      Map((q: Platform) => q.(topAgeGroups := Filter(Kept, q.topAgeGroups)), p.platforms))
  }

  /** The edit form `cancelEdit` restores from a profile, dropping empty ranges only. */
  function CancelledForm(p: Profile): (f: EditForm)
    ensures f.name == p.name && f.location == p.location && f.shortDescription == p.shortDescription
    ensures f.profilePicture == p.profilePicture.GetOr("") && f.portfolioLink == p.portfolioLink.GetOr("")
    ensures |f.platforms| == |p.platforms|
    ensures forall i, g | 0 <= i < |f.platforms| && g in f.platforms[i].topAgeGroups :: NonEmptyRange(g)
  {
    EditForm(p.name, p.profilePicture.GetOr(""), p.shortDescription, p.location, p.portfolioLink.GetOr(""),
      Map((q: Platform) => q.(topAgeGroups := Filter(NonEmptyRange, q.topAgeGroups)), p.platforms))
  }

  /**
   * For a profile that came through the transformation, loading and cancelling give the
   * same form, and its platforms are the profile's own: neither filter removes anything.
   */
  lemma CancelRestoresLoadedForm(a: ApiCreator)
    ensures CancelledForm(Transform(a)) == LoadedForm(Transform(a))
    ensures LoadedForm(Transform(a)).platforms == Transform(a).platforms
  {
    var p := Transform(a);
    forall i | 0 <= i < |p.platforms|
      ensures Filter(Kept, p.platforms[i].topAgeGroups) == p.platforms[i].topAgeGroups
      ensures Filter(NonEmptyRange, p.platforms[i].topAgeGroups) == p.platforms[i].topAgeGroups
    {
      var gs := p.platforms[i].topAgeGroups;
      assert forall k | 0 <= k < |gs| :: Kept(gs[k]);
      FilterAll(Kept, gs);
      FilterAll(NonEmptyRange, gs);
    }
  }

  // ---------------------------------------------------------------------------
  // The editor's state
  // ---------------------------------------------------------------------------

  /** The hook's state: the loaded profile, the contact fields, the form and the platform UI. */
  datatype Editor = Editor(
    profile: Option<Profile>, email: string, phone: string, form: EditForm, editing: bool,
    expanded: set<int>, countryInputs: map<int, string>,
    picture: ProfilePicture.Draft)

  /**
   * `loadProfile` with the fetched record, `None` when the request failed: on success the
   * profile, contact fields and form are replaced and the platform UI is reset; on failure
   * nothing changes.
   */
  function LoadProfile(e: Editor, fetched: Option<ApiCreator>): (r: Editor)
    ensures fetched.None? ==> r == e
    ensures fetched.Some? ==>
      && r.profile == Some(Transform(fetched.value))
      && r.email == Transform(fetched.value).email && r.phone == Transform(fetched.value).phone
      && r.form == LoadedForm(Transform(fetched.value))
      && r.expanded == {} && r.countryInputs == map[]
      && r.editing == e.editing && r.picture == e.picture
  {
    match fetched
    case None => e
    case Some(a) =>
      var p := Transform(a);
      e.(profile := Some(p), email := p.email, phone := p.phone, form := LoadedForm(p), expanded := {}, countryInputs := map[])
  }

  /** `cancelEdit`: the form returns to the profile (when there is one) and editing ends. */
  function CancelEdit(e: Editor): (r: Editor)
    ensures e.profile.Some? ==> r.form == CancelledForm(e.profile.value)
    ensures e.profile.None? ==> r.form == e.form
    ensures !r.editing && r.picture == ProfilePicture.Discard(e.picture)
    ensures r.profile == e.profile && r.expanded == e.expanded
  {
    var e' := e.(editing := false, picture := ProfilePicture.Discard(e.picture));
    if e.profile.Some? then e'.(form := CancelledForm(e.profile.value)) else e'
  }

  /** Whatever was edited after a load, cancelling gives back the form as loaded. */
  lemma CancelAfterLoad(e: Editor, a: ApiCreator, edited: EditForm)
    ensures CancelEdit(LoadProfile(e, Some(a)).(form := edited)).form == LoadProfile(e, Some(a)).form
  {
    CancelRestoresLoadedForm(a);
  }

  // ---------------------------------------------------------------------------
  // Validation
  // ---------------------------------------------------------------------------

  /** The problems `validateForm` reports. */
  datatype Problem =
    | NoName | NoLocation | NoDescription | ShortDescription | LongDescription | BadPortfolio | NoPlatforms
    | NoPlatformName | NoHandle | NoFollowers | NoEngagement

  function Wording(p: Problem): string {
    match p
    case NoName => "Name is required"
    case NoLocation => "Location is required"
    case NoDescription => "Short description is required"
    case ShortDescription => "Short description must be at least 10 characters"
    case LongDescription => "Short description must be at most 500 characters"
    case BadPortfolio => "Portfolio link must start with http:// or https://"
    case NoPlatforms => "At least one platform is required"
    case NoPlatformName => "Platform name is required"
    case NoHandle => "Handle is required"
    case NoFollowers => "Followers must be greater than 0"
    case NoEngagement => "Engagement rate must be greater than 0"
  }

  /** An error of `validateForm`: about the form, or about the platform at a position. */
  datatype Message = FormMessage(problem: Problem) | PlatformMessage(index: nat, problem: Problem)

  /** The returned string; platforms are counted from one. */
  function Render(m: Message): (r: string)
    ensures m.FormMessage? ==> r == Wording(m.problem)
    ensures m.PlatformMessage? ==> StartsWith(r, "Platform ") && |r| > |Wording(m.problem)|
  {
    match m
    case FormMessage(p) => Wording(p)
    case PlatformMessage(i, p) => "Platform " + NatToString(i + 1) + ": " + Wording(p)
  }

  /** The checks on the form's own fields, in order. */
  function FormRules(f: EditForm): seq<Rule<Message>> {
    [ Rule(!IsBlank(f.name), FormMessage(NoName)),
      Rule(!IsBlank(f.location), FormMessage(NoLocation)),
      Rule(!IsBlank(f.shortDescription), FormMessage(NoDescription)),
      Rule(|Trim(f.shortDescription)| >= 10, FormMessage(ShortDescription)),
      Rule(|Trim(f.shortDescription)| <= 500, FormMessage(LongDescription)),
      Rule(f.portfolioLink == "" || HasHttpScheme(f.portfolioLink), FormMessage(BadPortfolio)),
      Rule(|f.platforms| > 0, FormMessage(NoPlatforms)) ]
  }

  /** The checks on the platform at position `i`, in order. */
  function PlatformRules(p: Platform, i: nat): seq<Rule<Message>> {
    [ Rule(p.name != "", PlatformMessage(i, NoPlatformName)),
      Rule(!IsBlank(p.handle), PlatformMessage(i, NoHandle)),
      Rule(p.followers > 0, PlatformMessage(i, NoFollowers)),
      Rule(p.engagementRate > 0.0, PlatformMessage(i, NoEngagement)) ]
  }

  function AllRules(f: EditForm): seq<Rule<Message>> {
    FormRules(f) + Each(PlatformRules, f.platforms)
  }

  predicate PlatformValid(p: Platform) {
    p.name != "" && !IsBlank(p.handle) && p.followers > 0 && p.engagementRate > 0.0
  }

  /** A form the editor accepts, stated field by field. */
  predicate FormValid(f: EditForm) {
    && !IsBlank(f.name) && !IsBlank(f.location)
    && 10 <= |Trim(f.shortDescription)| <= 500
    && (f.portfolioLink == "" || HasHttpScheme(f.portfolioLink))
    && |f.platforms| > 0
    && forall i | 0 <= i < |f.platforms| :: PlatformValid(f.platforms[i])
  }

  lemma PlatformRulesAgree(p: Platform, i: nat)
    ensures FirstFailure(PlatformRules(p, i)).None? <==> PlatformValid(p)
  {
    var rs := PlatformRules(p, i);
    FirstFailureSpec(rs);
    if FirstFailure(rs).None? {
      assert rs[0].holds && rs[1].holds && rs[2].holds && rs[3].holds;
    }
  }

  lemma FormRulesAgree(f: EditForm)
    ensures FirstFailure(FormRules(f)).None? <==>
      !IsBlank(f.name) && !IsBlank(f.location) && 10 <= |Trim(f.shortDescription)| <= 500
      && (f.portfolioLink == "" || HasHttpScheme(f.portfolioLink)) && |f.platforms| > 0
  {
    var fr := FormRules(f);
    FirstFailureSpec(fr);
    if FirstFailure(fr).None? {
      assert fr[0].holds && fr[1].holds && fr[3].holds && fr[4].holds && fr[5].holds && fr[6].holds;
    }
  }

  /** All checks pass exactly when the form is valid. */
  lemma AllRulesAgree(f: EditForm)
    ensures FirstFailure(AllRules(f)).None? <==> FormValid(f)
  {
    FormRulesAgree(f);
    var valid := (p: Platform, i: nat) => PlatformValid(p);
    forall p, i ensures FirstFailure(PlatformRules(p, i)).None? <==> valid(p, i) {
      PlatformRulesAgree(p, i);
    }
    EachAgree(PlatformRules, valid, f.platforms);
    AppendPasses(FormRules(f), Each(PlatformRules, f.platforms));
  }

  /** `validateForm()`: the form's fields, then each platform in turn, stopping at the first failure. */
  method ValidateForm(f: EditForm) returns (error: Option<Message>)
    ensures error == FirstFailure(AllRules(f))
    ensures error.None? <==> FormValid(f)
  {
    AllRulesAgree(f);
    error := Validate(FormRules(f), PlatformRules, f.platforms);
  }

  // ---------------------------------------------------------------------------
  // The update payload
  // ---------------------------------------------------------------------------

  /** A platform as sent to the API; the optional parts are left out when empty. */
  datatype PayloadPlatform = PayloadPlatform(
    name: string, handle: string, followers: int, engagementRate: real,
    topCountries: Option<seq<CountryShare>>, topAgeGroups: Option<seq<AgeGroup>>, genderSplit: Option<GenderSplit>)

  /** `CreatorUpdatePayload`. */
  datatype Payload = Payload(
    name: string, location: string, shortDescription: string, platforms: seq<PayloadPlatform>,
    audienceSize: int, portfolioLink: Option<string>, phone: Option<string>, profilePicture: Option<string>)

  /** An age group the payload keeps: its trimmed range is neither empty nor `null`. */
  predicate SendableRange(g: AgeGroup) {
    Trim(g.ageRange) != "" && Trim(g.ageRange) != "null"
  }

  function TrimRange(g: AgeGroup): AgeGroup {
    g.(ageRange := Trim(g.ageRange))
  }

  /** The age groups sent for a platform: the usable ones, with trimmed ranges. */
  function SentAgeGroups(gs: seq<AgeGroup>): (r: seq<AgeGroup>)
    ensures |r| <= |gs|
    ensures forall k | 0 <= k < |r| :: Kept(r[k])
  {
    var kept := Filter(SendableRange, gs);
    var r := Map(TrimRange, kept);
    assert forall k | 0 <= k < |r| :: Kept(r[k]) by {
      forall k | 0 <= k < |r| ensures Kept(r[k]) {
        assert SendableRange(kept[k]);
      }
    }
    r
  }

  /** Every group sent is a usable group of the platform, with its range trimmed: nothing is invented. */
  lemma SentAgeGroupsSound(gs: seq<AgeGroup>, k: int)
    requires 0 <= k < |SentAgeGroups(gs)|
    ensures exists g | g in gs && SendableRange(g) :: SentAgeGroups(gs)[k] == TrimRange(g)
  {
    var kept := Filter(SendableRange, gs);
    assert kept[k] in kept;
    var g := kept[k];
    assert g in gs && SendableRange(g) && SentAgeGroups(gs)[k] == TrimRange(g);
  }

  /** Every usable age group is sent, with its range trimmed. */
  lemma SentAgeGroupsComplete(gs: seq<AgeGroup>, g: AgeGroup)
    requires g in gs && SendableRange(g)
    ensures TrimRange(g) in SentAgeGroups(gs)
  {
    var kept := Filter(SendableRange, gs);
    assert g in kept;
    var k :| 0 <= k < |kept| && kept[k] == g;
    assert SentAgeGroups(gs)[k] == TrimRange(g);
  }

  /** One platform of the payload. */
  function PayloadPlatformOf(p: Platform): (r: PayloadPlatform)
    ensures r.name == p.name && r.handle == Trim(p.handle) && r.followers == p.followers
    ensures r.topCountries.Some? <==> |p.topCountries| > 0
    ensures r.topCountries.Some? ==> r.topCountries.value == p.topCountries
    ensures r.engagementRate == p.engagementRate
    ensures r.topAgeGroups.Some? <==> exists g | g in p.topAgeGroups :: SendableRange(g)
    ensures r.topAgeGroups.Some? ==> r.topAgeGroups.value == SentAgeGroups(p.topAgeGroups)
    ensures r.topAgeGroups.Some? ==> |r.topAgeGroups.value| > 0 && forall k | 0 <= k < |r.topAgeGroups.value| :: Kept(r.topAgeGroups.value[k])
    ensures r.topAgeGroups.None? ==> forall g | g in p.topAgeGroups :: !SendableRange(g)
    ensures r.genderSplit.Some? <==> p.genderSplit.Some? && (p.genderSplit.value.male > 0 || p.genderSplit.value.female > 0)
    ensures r.genderSplit.Some? ==> r.genderSplit == p.genderSplit
  {
    var groups := SentAgeGroups(p.topAgeGroups);
    assert forall g | g in p.topAgeGroups && SendableRange(g) :: |groups| > 0 by {
      forall g | g in p.topAgeGroups && SendableRange(g) ensures |groups| > 0 {
        SentAgeGroupsComplete(p.topAgeGroups, g);
      }
    }
    assert |groups| > 0 ==> exists g | g in p.topAgeGroups :: SendableRange(g) by {
      if |groups| > 0 {
        SentAgeGroupsSound(p.topAgeGroups, 0);
      }
    }
    PayloadPlatform(
      p.name, Trim(p.handle), p.followers, p.engagementRate,
      if |p.topCountries| > 0 then Some(p.topCountries) else None,
      if |groups| > 0 then Some(groups) else None,
      if p.genderSplit.Some? && (p.genderSplit.value.male > 0 || p.genderSplit.value.female > 0) then p.genderSplit else None)
  }

  function Followers(p: Platform): int {
    p.followers
  }

  function SentFollowers(p: PayloadPlatform): int {
    p.followers
  }

  /**
   * The save payload for a form, the phone field and the uploaded picture URL: trimmed
   * texts, the audience size as the sum of all followers, and the optional fields only when
   * they carry something.
   */
  function PayloadOf(f: EditForm, phone: string, pictureUrl: Option<string>): (r: Payload)
    ensures r.name == Trim(f.name) && r.location == Trim(f.location) && r.shortDescription == Trim(f.shortDescription)
    ensures |r.platforms| == |f.platforms|
    ensures forall i | 0 <= i < |f.platforms| :: r.platforms[i] == PayloadPlatformOf(f.platforms[i])
    ensures r.audienceSize == Sum(Followers, f.platforms)
    ensures r.portfolioLink.Some? <==> !IsBlank(f.portfolioLink)
    ensures r.portfolioLink.Some? ==> r.portfolioLink.value == Trim(f.portfolioLink)
    ensures r.phone.Some? <==> !IsBlank(phone)
    ensures r.phone.Some? ==> r.phone.value == Trim(phone)
    ensures r.profilePicture.Some? <==> Truthy(pictureUrl)
    ensures r.profilePicture.Some? ==> r.profilePicture == pictureUrl
  {
    var platforms := Map(PayloadPlatformOf, f.platforms);
    SumMap(SentFollowers, PayloadPlatformOf, Followers, f.platforms);
    Payload(
      Trim(f.name), Trim(f.location), Trim(f.shortDescription), platforms,
      Sum(SentFollowers, platforms),
      if !IsBlank(f.portfolioLink) then Some(Trim(f.portfolioLink)) else None,
      if !IsBlank(phone) then Some(Trim(phone)) else None,
      if Truthy(pictureUrl) then pictureUrl else None)
  }

  /** A valid form always reports an audience of at least one follower per platform. */
  lemma ValidAudience(f: EditForm, phone: string, pictureUrl: Option<string>)
    requires FormValid(f)
    ensures PayloadOf(f, phone, pictureUrl).audienceSize >= |f.platforms| > 0
  {
    SumPositive(Followers, f.platforms);
  }

  /** What `saveProfile` does before its final request. */
  datatype SaveStep = Invalid(message: Message) | UploadFailed | Submit(payload: Payload)

  /**
   * `saveProfile` up to the update request. `uploaded` is the URL the picture upload
   * returned, `None` when it failed; it is consulted only when a new picture was chosen.
   */
  function SaveProfile(e: Editor, uploaded: Option<string>): (r: SaveStep)
    ensures r.Invalid? <==> !FormValid(e.form)
    ensures r.Invalid? ==> Some(r.message) == FirstFailure(AllRules(e.form))
    ensures r.UploadFailed? <==> FormValid(e.form) && e.picture.file.Some? && uploaded.None?
    ensures r.Submit? && e.picture.file.None? ==> r.payload == PayloadOf(e.form, e.phone, None)
    ensures r.Submit? && e.picture.file.Some? ==> r.payload == PayloadOf(e.form, e.phone, uploaded)
  {
    AllRulesAgree(e.form);
    var error := FirstFailure(AllRules(e.form));
    if error.Some? then Invalid(error.value)
    else if e.picture.file.Some? && uploaded.None? then UploadFailed
    else Submit(PayloadOf(e.form, e.phone, if e.picture.file.Some? then uploaded else None))
  }

  /**
   * `saveContact` with the outcome of the request: without a profile nothing is sent; on
   * success the profile's phone becomes the trimmed phone field; on failure nothing changes.
   */
  function SaveContact(e: Editor, succeeded: bool): (r: (Editor, bool))
    ensures r.1 <==> e.profile.Some? && succeeded
    ensures r.1 ==> r.0.profile == Some(e.profile.value.(phone := Trim(e.phone)))
    ensures !r.1 ==> r.0.profile == e.profile
    ensures r.0.form == e.form && r.0.phone == e.phone
  {
    if e.profile.None? || !succeeded then (e, false)
    else (e.(profile := Some(e.profile.value.(phone := Trim(e.phone)))), true)
  }

  // ---------------------------------------------------------------------------
  // The profile picture
  // ---------------------------------------------------------------------------

  /** `confirmPicture`: the draft's preview, when non-empty, becomes the form's picture; the dialog closes. */
  function ConfirmPicture(e: Editor): (r: Editor)
    ensures Truthy(e.picture.preview) ==> r.form == e.form.(profilePicture := e.picture.preview.value)
    ensures !Truthy(e.picture.preview) ==> r.form == e.form
    ensures !r.picture.showModal && r.picture.preview == e.picture.preview && r.picture.file == e.picture.file
  {
    var (d, picture) := ProfilePicture.Confirm(e.picture, e.form.profilePicture);
    e.(picture := d, form := e.form.(profilePicture := picture))
  }

  // ---------------------------------------------------------------------------
  // Platform sub-reducers
  // ---------------------------------------------------------------------------

  /** `togglePlatformExpanded(index)`. */
  function TogglePlatformExpanded(e: Editor, index: int): (r: Editor)
    ensures index in r.expanded <==> index !in e.expanded
    ensures forall j | j != index :: j in r.expanded <==> j in e.expanded
    ensures r.form == e.form
  {
    e.(expanded := ToggleMember(e.expanded, index))
  }

  lemma TogglePlatformExpandedTwice(e: Editor, index: int)
    ensures TogglePlatformExpanded(TogglePlatformExpanded(e, index), index) == e
  {
    ToggleMemberTwice(e.expanded, index);
  }

  /** The platform at `i` replaced; the rest of the form is untouched. */
  function WithPlatform(f: EditForm, i: int, p: Platform): (r: EditForm)
    requires 0 <= i < |f.platforms|
    ensures |r.platforms| == |f.platforms| && r.platforms[i] == p
    ensures forall j | 0 <= j < |f.platforms| && j != i :: r.platforms[j] == f.platforms[j]
    ensures r.(platforms := f.platforms) == f
  {
    f.(platforms := f.platforms[i := p])
  }

  /** Some age group has the range. */
  predicate HasRange(gs: seq<AgeGroup>, range: string) {
    exists g | g in gs :: g.ageRange == range
  }

  function OtherRange(range: string): AgeGroup -> bool {
    (g: AgeGroup) => g.ageRange != range
  }

  /** Selecting an age range: every entry with it removed when present, else `{range, 0}` appended. */
  function ToggleAgeGroup(gs: seq<AgeGroup>, range: string): (r: seq<AgeGroup>)
    ensures HasRange(r, range) <==> !HasRange(gs, range)
    ensures forall g: AgeGroup | g.ageRange != range :: g in r <==> g in gs
    ensures forall g: AgeGroup | g.ageRange != range :: multiset(r)[g] == multiset(gs)[g]
    ensures !HasRange(gs, range) ==> r == gs + [AgeGroup(range, 0)]
  {
    if HasRange(gs, range) then
      FilterCounts(OtherRange(range), gs);
      Filter(OtherRange(range), gs)
    else
      assert AgeGroup(range, 0) in gs + [AgeGroup(range, 0)];
      gs + [AgeGroup(range, 0)]
  }

  /** Selecting and deselecting a range leaves the age groups as they were. */
  lemma ToggleAgeGroupTwice(gs: seq<AgeGroup>, range: string)
    requires !HasRange(gs, range)
    ensures ToggleAgeGroup(ToggleAgeGroup(gs, range), range) == gs
  {
    var once := gs + [AgeGroup(range, 0)];
    assert HasRange(once, range) by {
      assert once[|gs|] in once;
    }
    FilterAppend(OtherRange(range), gs, [AgeGroup(range, 0)]);
    FilterAll(OtherRange(range), gs);
    assert Filter(OtherRange(range), [AgeGroup(range, 0)]) == [];
  }

  /** `toggleAgeGroupTag(platformIndex, ageRange)`. */
  function ToggleAgeGroupTag(e: Editor, i: int, range: string): (r: Editor)
    requires 0 <= i < |e.form.platforms|
    ensures |r.form.platforms| == |e.form.platforms|
    ensures HasRange(r.form.platforms[i].topAgeGroups, range) <==> !HasRange(e.form.platforms[i].topAgeGroups, range)
    ensures r.form.platforms[i].topAgeGroups == ToggleAgeGroup(e.form.platforms[i].topAgeGroups, range)
    ensures r.form.platforms[i] == e.form.platforms[i].(topAgeGroups := r.form.platforms[i].topAgeGroups)
    ensures forall j | 0 <= j < |e.form.platforms| && j != i :: r.form.platforms[j] == e.form.platforms[j]
    ensures r.(form := e.form) == e
  {
    var p := e.form.platforms[i];
    e.(form := WithPlatform(e.form, i, p.(topAgeGroups := ToggleAgeGroup(p.topAgeGroups, range))))
  }

  /** Some entry names the country. */
  predicate HasCountry(cs: seq<CountryShare>, country: string) {
    exists c | c in cs :: c.country == country
  }

  /** No country is listed twice. */
  predicate DistinctCountries(cs: seq<CountryShare>) {
    forall i, j | 0 <= i < j < |cs| :: cs[i].country != cs[j].country
  }

  /** The country appended with 0 % unless already listed. */
  function AddCountry(cs: seq<CountryShare>, country: string): (r: seq<CountryShare>)
    ensures HasCountry(r, country)
    ensures HasCountry(cs, country) ==> r == cs
    ensures !HasCountry(cs, country) ==> r == cs + [CountryShare(country, 0)]
    ensures DistinctCountries(cs) ==> DistinctCountries(r)
  {
    if HasCountry(cs, country) then cs
    else
      var r := cs + [CountryShare(country, 0)];
      assert r[|cs|] in r;
      assert DistinctCountries(cs) ==> DistinctCountries(r) by {
        if DistinctCountries(cs) {
          forall i, j | 0 <= i < j < |r| ensures r[i].country != r[j].country {
            if j == |cs| {
              assert r[i] in cs;
            }
          }
        }
      }
      r
  }

  /** `addCountryToPlatform(platformIndex, country)`: the country is added once and the search input cleared. */
  function AddCountryToPlatform(e: Editor, i: int, country: string): (r: Editor)
    requires 0 <= i < |e.form.platforms|
    ensures |r.form.platforms| == |e.form.platforms|
    ensures r.form.platforms[i].topCountries == AddCountry(e.form.platforms[i].topCountries, country)
    ensures r.form.platforms[i] == e.form.platforms[i].(topCountries := r.form.platforms[i].topCountries)
    ensures forall j | 0 <= j < |e.form.platforms| && j != i :: r.form.platforms[j] == e.form.platforms[j]
    ensures r.countryInputs == e.countryInputs[i := ""]
    ensures r.(form := e.form, countryInputs := e.countryInputs) == e
  {
    var p := e.form.platforms[i];
    e.(form := WithPlatform(e.form, i, p.(topCountries := AddCountry(p.topCountries, country))),
       countryInputs := e.countryInputs[i := ""])
  }

  function OtherCountry(country: string): CountryShare -> bool {
    (c: CountryShare) => c.country != country
  }

  /** `removeCountryFromPlatform(platformIndex, country)`: every entry for that country leaves the platform. */
  function RemoveCountryFromPlatform(e: Editor, i: int, country: string): (r: Editor)
    requires 0 <= i < |e.form.platforms|
    ensures |r.form.platforms| == |e.form.platforms|
    ensures !HasCountry(r.form.platforms[i].topCountries, country)
    ensures forall c: CountryShare | c.country != country :: c in r.form.platforms[i].topCountries <==> c in e.form.platforms[i].topCountries
    ensures forall c: CountryShare | c.country != country :: multiset(r.form.platforms[i].topCountries)[c] == multiset(e.form.platforms[i].topCountries)[c]
    ensures r.form.platforms[i] == e.form.platforms[i].(topCountries := r.form.platforms[i].topCountries)
    ensures forall j | 0 <= j < |e.form.platforms| && j != i :: r.form.platforms[j] == e.form.platforms[j]
    ensures r.(form := e.form) == e
  {
    var p := e.form.platforms[i];
    FilterCounts(OtherCountry(country), p.topCountries);
    e.(form := WithPlatform(e.form, i, p.(topCountries := Filter(OtherCountry(country), p.topCountries))))
  }

  /** Adding a country that was not listed and removing it again restores the platform. */
  lemma AddThenRemoveCountry(e: Editor, i: int, country: string)
    requires 0 <= i < |e.form.platforms|
    requires !HasCountry(e.form.platforms[i].topCountries, country)
    ensures RemoveCountryFromPlatform(AddCountryToPlatform(e, i, country), i, country).form == e.form
  {
    var cs := e.form.platforms[i].topCountries;
    FilterAppend(OtherCountry(country), cs, [CountryShare(country, 0)]);
    FilterAll(OtherCountry(country), cs);
    assert Filter(OtherCountry(country), [CountryShare(country, 0)]) == [];
    var r := RemoveCountryFromPlatform(AddCountryToPlatform(e, i, country), i, country);
    assert r.form.platforms[i] == e.form.platforms[i];
    assert r.form.platforms == e.form.platforms;
  }

  /** A country's share set to `percentage`; every other entry kept. */
  function SetShare(cs: seq<CountryShare>, country: string, percentage: int): (r: seq<CountryShare>)
    ensures |r| == |cs|
    ensures forall k | 0 <= k < |cs| :: r[k].country == cs[k].country
    ensures forall k | 0 <= k < |cs| && cs[k].country == country :: r[k].percentage == percentage
    ensures forall k | 0 <= k < |cs| && cs[k].country != country :: r[k] == cs[k]
    ensures DistinctCountries(cs) ==> DistinctCountries(r)
  {
    Map((c: CountryShare) => if c.country == country then c.(percentage := percentage) else c, cs)
  }

  /** `updateCountryPercentage(platformIndex, country, percentage)`. */
  function UpdateCountryPercentage(e: Editor, i: int, country: string, percentage: int): (r: Editor)
    requires 0 <= i < |e.form.platforms|
    ensures |r.form.platforms| == |e.form.platforms|
    ensures r.form.platforms[i].topCountries == SetShare(e.form.platforms[i].topCountries, country, percentage)
    ensures r.form.platforms[i] == e.form.platforms[i].(topCountries := r.form.platforms[i].topCountries)
    ensures forall j | 0 <= j < |e.form.platforms| && j != i :: r.form.platforms[j] == e.form.platforms[j]
    ensures r.(form := e.form) == e
  {
    var p := e.form.platforms[i];
    e.(form := WithPlatform(e.form, i, p.(topCountries := SetShare(p.topCountries, country, percentage))))
  }

  datatype Gender = Male | Female

  /** `updateGenderSplit(platformIndex, gender, value)`: one side set, the other kept (0 when there was no split). */
  function UpdateGenderSplit(e: Editor, i: int, gender: Gender, value: int): (r: Editor)
    requires 0 <= i < |e.form.platforms|
    ensures |r.form.platforms| == |e.form.platforms|
    ensures r.form.platforms[i].genderSplit.Some?
    ensures var prior := e.form.platforms[i].genderSplit.GetOr(GenderSplit(0, 0));
      var s := r.form.platforms[i].genderSplit.value;
      if gender.Male? then s.male == value && s.female == prior.female else s.female == value && s.male == prior.male
    ensures r.form.platforms[i] == e.form.platforms[i].(genderSplit := r.form.platforms[i].genderSplit)
    ensures forall j | 0 <= j < |e.form.platforms| && j != i :: r.form.platforms[j] == e.form.platforms[j]
    ensures r.(form := e.form) == e
  {
    var p := e.form.platforms[i];
    var base := p.genderSplit.GetOr(GenderSplit(0, 0));
    var split := if gender.Male? then base.(male := value) else base.(female := value);
    e.(form := WithPlatform(e.form, i, p.(genderSplit := Some(split))))
  }

  /** The country names a platform already lists. */
  function CountryNames(cs: seq<CountryShare>): seq<string> {
    Map((c: CountryShare) => c.country, cs)
  }

  /**
   * `getAvailableCountries(platformIndex)` over the country list `countries`: the countries
   * the platform does not list yet whose name contains the search input, ignoring case.
   */
  function AvailableCountries(countries: seq<string>, e: Editor, i: int): (r: seq<string>)
    ensures forall c :: c in r <==>
      && c in countries
      && !(0 <= i < |e.form.platforms| && HasCountry(e.form.platforms[i].topCountries, c))
      && Contains(ToLower(c), ToLower(if i in e.countryInputs then e.countryInputs[i] else ""))
  {
    var input := if i in e.countryInputs then e.countryInputs[i] else "";
    var existing := if 0 <= i < |e.form.platforms| then CountryNames(e.form.platforms[i].topCountries) else [];
    assert forall c :: c in existing <==> 0 <= i < |e.form.platforms| && HasCountry(e.form.platforms[i].topCountries, c) by {
      if 0 <= i < |e.form.platforms| {
        var cs := e.form.platforms[i].topCountries;
        forall c ensures c in existing <==> HasCountry(cs, c) {
          if HasCountry(cs, c) {
            var x :| x in cs && x.country == c;
            var k :| 0 <= k < |cs| && cs[k] == x;
            assert existing[k] == c;
          }
        }
      }
    }
    Filter((c: string) => c !in existing && Contains(ToLower(c), ToLower(input)), countries)
  }

  /** With an empty search input every country the platform lacks is offered. */
  lemma EmptyInputOffersAll(countries: seq<string>, e: Editor, i: int, c: string)
    requires i !in e.countryInputs || e.countryInputs[i] == ""
    requires c in countries && !(0 <= i < |e.form.platforms| && HasCountry(e.form.platforms[i].topCountries, c))
    ensures c in AvailableCountries(countries, e, i)
  {
    ContainsEmpty(ToLower(c));
  }
}

=== FILE: deliverable_selection.dfy ===
/**
 * `usePlatformDeliverables`: the platforms a collaboration request covers and, per
 * platform, the deliverable types asked for with their quantities. Every handler keeps
 * the list well formed: each platform once, each type once per platform, every quantity
 * at least 1.
 */
module DeliverableSelection {
  import opened Wrappers
  import opened Seqs
  import opened Text

  /** One deliverable type and how many of it. */
  datatype Item = Item(kind: string, quantity: int)

  /** A selected platform and its deliverables. */
  datatype Entry = Entry(platform: string, deliverables: seq<Item>)

  /** The hook's state: the selection and the text of the custom-deliverable field. */
  datatype Selector = Selector(entries: seq<Entry>, customInput: string)

  const Custom: string := "Custom"

  // ---------------------------------------------------------------------------
  // Deliverables of one platform
  // ---------------------------------------------------------------------------

  function Kinds(items: seq<Item>): (r: seq<string>)
    ensures |r| == |items| && forall i | 0 <= i < |items| :: r[i] == items[i].kind
  {
    if |items| == 0 then [] else [items[0].kind] + Kinds(items[1..])
  }

  lemma KindsAppend(items: seq<Item>, x: Item)
    ensures Kinds(items + [x]) == Kinds(items) + [x.kind]
  {
  }

  /** Each type once, every quantity at least 1. */
  predicate ItemsOk(items: seq<Item>) {
    NoDup(Kinds(items)) && forall x | x in items :: x.quantity >= 1
  }

  /** The quantity asked for `kind`, if the type is there. */
  function QuantityOf(items: seq<Item>, kind: string): (r: Option<int>)
    ensures r.Some? <==> kind in Kinds(items)
    ensures r.Some? ==> Item(kind, r.value) in items
  {
    if |items| == 0 then None
    else if items[0].kind == kind then Some(items[0].quantity)
    else QuantityOf(items[1..], kind)
  }

  /** `items.filter(d => d.type !== kind)`. */
  function RemoveKind(items: seq<Item>, kind: string): (r: seq<Item>)
    ensures kind !in Kinds(r)
    ensures forall k | k != kind :: k in Kinds(r) <==> k in Kinds(items)
    ensures forall x | x in r :: x in items
    ensures NoDup(Kinds(items)) ==> NoDup(Kinds(r))
    ensures forall k | k != kind :: QuantityOf(r, k) == QuantityOf(items, k)
  {
    if |items| == 0 then []
    else
      var rest := RemoveKind(items[1..], kind);
      if items[0].kind == kind then rest
      else
        var r := [items[0]] + rest;
        assert r[1..] == rest;
        NoDupCons(items[0].kind, Kinds(items[1..]));
        NoDupCons(items[0].kind, Kinds(rest));
        r
  }

  /** Appending a new type adds its quantity and leaves the others. */
  lemma AppendKind(items: seq<Item>, x: Item)
    requires x.kind !in Kinds(items)
    ensures QuantityOf(items + [x], x.kind) == Some(x.quantity)
    ensures forall k | k != x.kind :: QuantityOf(items + [x], k) == QuantityOf(items, k)
    ensures ItemsOk(items) && x.quantity >= 1 ==> ItemsOk(items + [x])
  {
    KindsAppend(items, x);
    NoDupSnoc(Kinds(items), x.kind);
    AppendQuantities(items, x);
  }

  lemma {:induction false} AppendQuantities(items: seq<Item>, x: Item)
    requires x.kind !in Kinds(items)
    ensures QuantityOf(items + [x], x.kind) == Some(x.quantity)
    ensures forall k | k != x.kind :: QuantityOf(items + [x], k) == QuantityOf(items, k)
    decreases |items|
  {
    if |items| > 0 {
      assert (items + [x])[1..] == items[1..] + [x];
      AppendQuantities(items[1..], x);
    } else {
      assert ([] + [x])[1..] == [];
    }
  }

  /** `handleDeliverableToggle` on one platform: remove the type if present, else append it with quantity 1. */
  function ToggleKind(items: seq<Item>, kind: string): (r: seq<Item>)
    ensures kind in Kinds(r) <==> kind !in Kinds(items)
    ensures kind !in Kinds(items) ==> QuantityOf(r, kind) == Some(1)
    ensures forall k | k != kind :: QuantityOf(r, k) == QuantityOf(items, k)
    ensures ItemsOk(items) ==> ItemsOk(r)
  {
    if kind in Kinds(items) then RemoveKind(items, kind)
    else
      AppendKind(items, Item(kind, 1));
      KindsAppend(items, Item(kind, 1));
      items + [Item(kind, 1)]
  }

  /** `items.map(d => d.type === kind ? {...d, quantity} : d)`. */
  function Requantify(items: seq<Item>, kind: string, quantity: int): (r: seq<Item>)
    ensures Kinds(r) == Kinds(items)
    ensures kind in Kinds(items) ==> QuantityOf(r, kind) == Some(quantity)
    ensures forall k | k != kind :: QuantityOf(r, k) == QuantityOf(items, k)
    ensures forall x | x in r :: x in items || x == Item(kind, quantity)
  {
    if |items| == 0 then []
    else
      var head := if items[0].kind == kind then items[0].(quantity := quantity) else items[0];
      var rest := Requantify(items[1..], kind, quantity);
      assert ([head] + rest)[1..] == rest;
      [head] + rest
  }

  /** The positive-quantity branch of `handleDeliverableQuantityChange` on one platform. */
  function SetQuantity(items: seq<Item>, kind: string, quantity: int): (r: seq<Item>)
    ensures QuantityOf(r, kind) == Some(quantity)
    ensures forall k | k != kind :: QuantityOf(r, k) == QuantityOf(items, k)
    ensures ItemsOk(items) && quantity >= 1 ==> ItemsOk(r)
  {
    if kind in Kinds(items) then Requantify(items, kind, quantity)
    else
      AppendKind(items, Item(kind, quantity));
      items + [Item(kind, quantity)]
  }

  // ---------------------------------------------------------------------------
  // The list of platforms
  // ---------------------------------------------------------------------------

  function Platforms(es: seq<Entry>): (r: seq<string>)
    ensures |r| == |es| && forall i | 0 <= i < |es| :: r[i] == es[i].platform
  {
    if |es| == 0 then [] else [es[0].platform] + Platforms(es[1..])
  }

  lemma PlatformsAppend(es: seq<Entry>, e: Entry)
    ensures Platforms(es + [e]) == Platforms(es) + [e.platform]
  {
  }

  /** Each platform once, and every platform's deliverables well formed. */
  predicate WellFormed(es: seq<Entry>) {
    NoDup(Platforms(es)) && forall e | e in es :: ItemsOk(e.deliverables)
  }

  /** `isPlatformSelected(p)`. */
  predicate IsPlatformSelected(es: seq<Entry>, p: string) {
    p in Platforms(es)
  }

  /** `getPlatformDeliverables(p)`: the first entry's deliverables, or none when `p` is not selected. */
  function GetPlatformDeliverables(es: seq<Entry>, p: string): (r: seq<Item>)
    ensures !IsPlatformSelected(es, p) ==> r == []
    ensures IsPlatformSelected(es, p) ==> Entry(p, r) in es
    ensures (forall e | e in es :: ItemsOk(e.deliverables)) ==> ItemsOk(r)
  {
    if |es| == 0 then []
    else if es[0].platform == p then es[0].deliverables
    else GetPlatformDeliverables(es[1..], p)
  }

  /** `es.filter(pd => pd.platform !== p)`. */
  function RemovePlatform(es: seq<Entry>, p: string): (r: seq<Entry>)
    ensures p !in Platforms(r)
    ensures forall q | q != p :: q in Platforms(r) <==> q in Platforms(es)
    ensures forall e | e in r :: e in es
    ensures forall q | q != p :: GetPlatformDeliverables(r, q) == GetPlatformDeliverables(es, q)
    ensures NoDup(Platforms(es)) ==> NoDup(Platforms(r))
  {
    if |es| == 0 then []
    else
      var rest := RemovePlatform(es[1..], p);
      if es[0].platform == p then rest
      else
        var r := [es[0]] + rest;
        assert r[1..] == rest;
        NoDupCons(es[0].platform, Platforms(es[1..]));
        NoDupCons(es[0].platform, Platforms(rest));
        r
  }

  /** Appending an entry leaves every other platform's first entry where it was. */
  lemma {:induction false} AppendEntry(es: seq<Entry>, e: Entry)
    ensures forall q | q != e.platform :: GetPlatformDeliverables(es + [e], q) == GetPlatformDeliverables(es, q)
    ensures e.platform !in Platforms(es) ==> GetPlatformDeliverables(es + [e], e.platform) == e.deliverables
    ensures WellFormed(es) && e.platform !in Platforms(es) && ItemsOk(e.deliverables) ==> WellFormed(es + [e])
    decreases |es|
  {
    PlatformsAppend(es, e);
    NoDupSnoc(Platforms(es), e.platform);
    if |es| > 0 {
      assert (es + [e])[1..] == es[1..] + [e];
      AppendEntry(es[1..], e);
    }
  }

  /** `handlePlatformToggle(p)`: drop `p`'s entry if selected, else append `p` with no deliverables. */
  function PlatformToggle(es: seq<Entry>, p: string): (r: seq<Entry>)
    ensures IsPlatformSelected(r, p) <==> !IsPlatformSelected(es, p)
    ensures forall q | q != p :: IsPlatformSelected(r, q) == IsPlatformSelected(es, q)
    ensures forall q | q != p :: GetPlatformDeliverables(r, q) == GetPlatformDeliverables(es, q)
    ensures GetPlatformDeliverables(r, p) == []
    ensures WellFormed(es) ==> WellFormed(r)
  {
    if IsPlatformSelected(es, p) then RemovePlatform(es, p)
    else
      var e := Entry(p, []);
      AppendEntry(es, e);
      PlatformsAppend(es, e);
      es + [e]
  }

  lemma {:induction false} RemoveAppended(es: seq<Entry>, e: Entry)
    requires e.platform !in Platforms(es)
    ensures RemovePlatform(es + [e], e.platform) == es
    decreases |es|
  {
    if |es| == 0 {
      assert [e][1..] == [];
    } else {
      assert (es + [e])[1..] == es[1..] + [e];
      RemoveAppended(es[1..], e);
      assert [es[0]] + es[1..] == es;
    }
  }

  /** Toggling an unselected platform twice gives the list back. */
  lemma PlatformToggleTwice(es: seq<Entry>, p: string)
    requires !IsPlatformSelected(es, p)
    ensures PlatformToggle(PlatformToggle(es, p), p) == es
  {
    var e := Entry(p, []);
    PlatformsAppend(es, e);
    RemoveAppended(es, e);
  }

  /** `es.map(pd => pd.platform === p ? {...pd, deliverables: f(pd.deliverables)} : pd)`. */
  function UpdatePlatform(es: seq<Entry>, p: string, f: seq<Item> -> seq<Item>): (r: seq<Entry>)
    ensures Platforms(r) == Platforms(es)
    ensures p !in Platforms(es) ==> r == es
  {
    if |es| == 0 then []
    else
      var head := if es[0].platform == p then es[0].(deliverables := f(es[0].deliverables)) else es[0];
      var rest := UpdatePlatform(es[1..], p, f);
      assert ([head] + rest)[1..] == rest;
      assert p !in Platforms(es) ==> [head] + rest == [es[0]] + es[1..];
      [head] + rest
  }

  /** After an update of `p`, `getPlatformDeliverables` sees `f` applied on `p` and nothing else changed. */
  lemma {:induction false} UpdateDeliverables(es: seq<Entry>, p: string, f: seq<Item> -> seq<Item>, q: string)
    ensures GetPlatformDeliverables(UpdatePlatform(es, p, f), q) ==
      if q == p && IsPlatformSelected(es, p) then f(GetPlatformDeliverables(es, p)) else GetPlatformDeliverables(es, q)
    decreases |es|
  {
    if |es| > 0 {
      var u := UpdatePlatform(es, p, f);
      assert u[1..] == UpdatePlatform(es[1..], p, f);
      UpdateDeliverables(es[1..], p, f, q);
    }
  }

  /** An update keeps the list well formed when `f` keeps `p`'s deliverables well formed. */
  lemma {:induction false} UpdateKeepsWellFormed(es: seq<Entry>, p: string, f: seq<Item> -> seq<Item>)
    requires WellFormed(es)
    requires IsPlatformSelected(es, p) ==> ItemsOk(f(GetPlatformDeliverables(es, p)))
    ensures WellFormed(UpdatePlatform(es, p, f))
    decreases |es|
  {
    if |es| > 0 {
      var u := UpdatePlatform(es, p, f);
      var rest := UpdatePlatform(es[1..], p, f);
      assert u == [u[0]] + rest;
      NoDupCons(es[0].platform, Platforms(es[1..]));
      assert WellFormed(es[1..]);
      UpdateKeepsWellFormed(es[1..], p, f);
    }
  }

  /** `f` applied to `p`'s deliverables, with every consequence a handler's contract needs. */
  lemma UpdateFacts(es: seq<Entry>, p: string, f: seq<Item> -> seq<Item>)
    requires WellFormed(es)
    requires IsPlatformSelected(es, p) ==> ItemsOk(f(GetPlatformDeliverables(es, p)))
    ensures WellFormed(UpdatePlatform(es, p, f))
    ensures forall q | q != p :: GetPlatformDeliverables(UpdatePlatform(es, p, f), q) == GetPlatformDeliverables(es, q)
    ensures IsPlatformSelected(es, p) ==> GetPlatformDeliverables(UpdatePlatform(es, p, f), p) == f(GetPlatformDeliverables(es, p))
  {
    UpdateKeepsWellFormed(es, p, f);
    forall q {
      UpdateDeliverables(es, p, f, q);
    }
  }

  /**
   * `handleDeliverableToggle(p, kind)`: on `p`'s entry the type is removed if present and
   * appended with quantity 1 otherwise; no other platform changes.
   */
  function DeliverableToggle(es: seq<Entry>, p: string, kind: string): (r: seq<Entry>)
    requires WellFormed(es)
    ensures WellFormed(r)
    ensures Platforms(r) == Platforms(es)
    ensures forall q | q != p :: GetPlatformDeliverables(r, q) == GetPlatformDeliverables(es, q)
    ensures IsPlatformSelected(es, p) ==>
      var before := GetPlatformDeliverables(es, p);
      var after := GetPlatformDeliverables(r, p);
      (kind in Kinds(after) <==> kind !in Kinds(before))
      && (kind !in Kinds(before) ==> QuantityOf(after, kind) == Some(1))
      && (forall k | k != kind :: QuantityOf(after, k) == QuantityOf(before, k))
  {
    var f := (items: seq<Item>) => ToggleKind(items, kind);
    UpdateFacts(es, p, f);
    UpdatePlatform(es, p, f)
  }

  /**
   * `handleDeliverableQuantityChange(p, kind, n)`: a negative `n` does nothing; 0 removes the
   * type; a positive `n` sets it, appending the type if missing. Only `p`'s entry changes, and
   * an unselected platform gains no entry.
   */
  function QuantityChange(es: seq<Entry>, p: string, kind: string, n: int): (r: seq<Entry>)
    requires WellFormed(es)
    ensures WellFormed(r)
    ensures n < 0 ==> r == es
    ensures Platforms(r) == Platforms(es)
    ensures forall q | q != p :: GetPlatformDeliverables(r, q) == GetPlatformDeliverables(es, q)
    ensures n == 0 && IsPlatformSelected(es, p) ==>
      kind !in Kinds(GetPlatformDeliverables(r, p))
      && forall k | k != kind :: QuantityOf(GetPlatformDeliverables(r, p), k) == QuantityOf(GetPlatformDeliverables(es, p), k)
    ensures n > 0 && IsPlatformSelected(es, p) ==>
      QuantityOf(GetPlatformDeliverables(r, p), kind) == Some(n)
      && forall k | k != kind :: QuantityOf(GetPlatformDeliverables(r, p), k) == QuantityOf(GetPlatformDeliverables(es, p), k)
  {
    if n < 0 then es
    else
      var f := (items: seq<Item>) => if n == 0 then RemoveKind(items, kind) else SetQuantity(items, kind, n);
      UpdateFacts(es, p, f);
      UpdatePlatform(es, p, f)
  }

  /**
   * `handleAddCustomDeliverable()`: a blank field does nothing at all. Otherwise the trimmed
   * text is added with quantity 1 to the `Custom` entry (created if needed) unless that entry
   * already has it, and the field is cleared.
   */
  function AddCustom(s: Selector): (r: Selector)
    requires WellFormed(s.entries)
    ensures WellFormed(r.entries)
    ensures IsBlank(s.customInput) ==> r == s
    ensures !IsBlank(s.customInput) ==> r.customInput == ""
    ensures !IsBlank(s.customInput) ==>
      IsPlatformSelected(r.entries, Custom)
      && Trim(s.customInput) in Kinds(GetPlatformDeliverables(r.entries, Custom))
    ensures !IsBlank(s.customInput) && Trim(s.customInput) in Kinds(GetPlatformDeliverables(s.entries, Custom)) ==>
      r.entries == s.entries
    ensures !IsBlank(s.customInput) && Trim(s.customInput) !in Kinds(GetPlatformDeliverables(s.entries, Custom)) ==>
      QuantityOf(GetPlatformDeliverables(r.entries, Custom), Trim(s.customInput)) == Some(1)
      && forall k | k != Trim(s.customInput) ::
        QuantityOf(GetPlatformDeliverables(r.entries, Custom), k) == QuantityOf(GetPlatformDeliverables(s.entries, Custom), k)
    ensures forall q | q != Custom :: GetPlatformDeliverables(r.entries, q) == GetPlatformDeliverables(s.entries, q)
    ensures forall q | q != Custom :: IsPlatformSelected(r.entries, q) == IsPlatformSelected(s.entries, q)
  {
    var trimmed := Trim(s.customInput);
    if trimmed == [] then s
    else
      var es := s.entries;
      var item := Item(trimmed, 1);
      if IsPlatformSelected(es, Custom) then
        if trimmed in Kinds(GetPlatformDeliverables(es, Custom)) then Selector(es, "")
        else
          var f := (items: seq<Item>) => items + [item];
          AppendKind(GetPlatformDeliverables(es, Custom), item);
          UpdateFacts(es, Custom, f);
          Selector(UpdatePlatform(es, Custom, f), "")
      else
        var e := Entry(Custom, [item]);
        AppendEntry(es, e);
        PlatformsAppend(es, e);
        Selector(es + [e], "")
  }

  /** `es.filter(pd => pd.platform !== 'Custom' || pd.deliverables.length > 0)`. */
  function DropEmptyCustom(es: seq<Entry>): (r: seq<Entry>)
    ensures forall q | q != Custom :: q in Platforms(r) <==> q in Platforms(es)
    ensures Custom in Platforms(r) ==> Custom in Platforms(es)
    ensures forall e | e in r :: e in es
    ensures NoDup(Platforms(es)) ==> NoDup(Platforms(r))
  {
    if |es| == 0 then []
    else
      var rest := DropEmptyCustom(es[1..]);
      if es[0].platform == Custom && es[0].deliverables == [] then rest
      else
        var r := [es[0]] + rest;
        assert r[1..] == rest;
        NoDupCons(es[0].platform, Platforms(es[1..]));
        NoDupCons(es[0].platform, Platforms(rest));
        r
  }

  /** Dropping the empty `Custom` entry is invisible through `getPlatformDeliverables`, apart from `Custom` being unselected. */
  lemma {:induction false} DropKeepsDeliverables(u: seq<Entry>, q: string)
    requires NoDup(Platforms(u))
    ensures GetPlatformDeliverables(DropEmptyCustom(u), q) == GetPlatformDeliverables(u, q)
    ensures q == Custom ==>
      (IsPlatformSelected(DropEmptyCustom(u), q) <==> IsPlatformSelected(u, q) && GetPlatformDeliverables(u, q) != [])
    decreases |u|
  {
    if |u| > 0 {
      NoDupCons(u[0].platform, Platforms(u[1..]));
      DropKeepsDeliverables(u[1..], q);
      var r := DropEmptyCustom(u);
      if !(u[0].platform == Custom && u[0].deliverables == []) {
        assert r[1..] == DropEmptyCustom(u[1..]);
      }
    }
  }

  /**
   * `handleRemoveCustomDeliverable(kind)`: the type leaves the `Custom` entry, which itself goes
   * once it is empty; entries of other platforms are never removed or changed.
   */
  function RemoveCustom(es: seq<Entry>, kind: string): (r: seq<Entry>)
    requires WellFormed(es)
    ensures WellFormed(r)
    ensures forall q | q != Custom :: IsPlatformSelected(r, q) == IsPlatformSelected(es, q)
    ensures forall q | q != Custom :: GetPlatformDeliverables(r, q) == GetPlatformDeliverables(es, q)
    ensures kind !in Kinds(GetPlatformDeliverables(r, Custom))
    ensures forall k | k != kind :: QuantityOf(GetPlatformDeliverables(r, Custom), k) == QuantityOf(GetPlatformDeliverables(es, Custom), k)
    ensures IsPlatformSelected(r, Custom) <==>
      IsPlatformSelected(es, Custom) && RemoveKind(GetPlatformDeliverables(es, Custom), kind) != []
  {
    var f := (items: seq<Item>) => RemoveKind(items, kind);
    UpdateFacts(es, Custom, f);
    var u := UpdatePlatform(es, Custom, f);
    forall q ensures GetPlatformDeliverables(DropEmptyCustom(u), q) == GetPlatformDeliverables(u, q) {
      DropKeepsDeliverables(u, q);
    }
    DropKeepsDeliverables(u, Custom);
    DropEmptyCustom(u)
  }

  /** `resetDeliverables()`. */
  function Reset(s: Selector): (r: Selector)
    ensures r.entries == [] && r.customInput == "" && WellFormed(r.entries)
  {
    Selector([], "")
  }
}

=== FILE: form_navigation.dfy ===
/**
 * `FormNavigationButtons`: the Previous and submit buttons under each step of the
 * profile-completion wizard.
 */
module FormNavigation {
  import opened Wrappers

  /** What the submit button reads. */
  datatype ButtonLabel = Saving | Finish(text: string) | Next

  /** The rendered buttons: whether Previous is shown, whether submit is disabled, and its label. */
  datatype Buttons = Buttons(showPrevious: bool, submitDisabled: bool, caption: ButtonLabel)

  const DefaultSubmitLabel := "Complete Profile"

  /**
   * The buttons for a step. `submitLabel` is the optional prop, defaulting to
   * `Complete Profile`.
   */
  function Render(currentStep: int, totalSteps: int, submitting: bool, canProceed: bool, submitLabel: Option<string>): (r: Buttons)
    ensures r.showPrevious <==> currentStep > 1
    ensures r.submitDisabled <==> submitting || (currentStep != totalSteps && !canProceed)
    ensures r.caption.Saving? <==> submitting
    ensures r.caption.Finish? <==> !submitting && currentStep == totalSteps
    ensures r.caption.Finish? ==> r.caption.text == submitLabel.GetOr(DefaultSubmitLabel)
  {
    var isLastStep := currentStep == totalSteps;
    Buttons(
      currentStep > 1,
      submitting || (!isLastStep && !canProceed),
      if submitting then Saving else if isLastStep then Finish(submitLabel.GetOr(DefaultSubmitLabel)) else Next)
  }

  /** On the last step the submit button does not depend on `canProceed`. */
  lemma LastStepIgnoresCanProceed(totalSteps: int, submitting: bool, submitLabel: Option<string>)
    ensures Render(totalSteps, totalSteps, submitting, true, submitLabel) == Render(totalSteps, totalSteps, submitting, false, submitLabel)
  {
  }

  /** While saving, the button is disabled and reads `Saving...` on every step. */
  lemma SavingDisables(currentStep: int, totalSteps: int, canProceed: bool, submitLabel: Option<string>)
    ensures var r := Render(currentStep, totalSteps, true, canProceed, submitLabel);
      r.submitDisabled && r.caption == Saving
  {
  }

  /** An enabled button that reads `Next` means the step may be left. */
  lemma EnabledNextMeansProceed(currentStep: int, totalSteps: int, submitting: bool, canProceed: bool, submitLabel: Option<string>)
    requires !Render(currentStep, totalSteps, submitting, canProceed, submitLabel).submitDisabled
    requires Render(currentStep, totalSteps, submitting, canProceed, submitLabel).caption == Next
    ensures canProceed && !submitting && currentStep != totalSteps
  {
  }
}

=== FILE: hotel_form_view.dfy ===
/**
 * `HotelProfileForm` (the component): the hotel wizard's form, showing the panel of the
 * current step, the error box and the navigation buttons, and routing the form submit.
 */
module HotelFormView {
  import opened Wrappers
  import FormNavigation
  import HotelProfileForm

  /** What a form submit calls: the final submit, or the step advance. */
  datatype SubmitAction = CallSubmit | CallNextStep

  /** `handleFormSubmit`: the last step submits, every other step advances. */
  function HandleFormSubmit(currentStep: int, totalSteps: int): (r: SubmitAction)
    ensures r == CallSubmit <==> currentStep == totalSteps
    ensures r == CallNextStep <==> currentStep != totalSteps
  {
    if currentStep == totalSteps then CallSubmit else CallNextStep
  }

  /** The step panels. */
  datatype Panel = BasicInfo | ListingsPanel

  /** What the form renders for a step. */
  datatype View = View(panels: set<Panel>, errorBox: bool, buttons: FormNavigation.Buttons)

  /**
   * The rendered form: the basic-information panel on step 1, the listings panel on step 2,
   * the error box when there is an error, and the navigation buttons fed with the same step,
   * total, saving flag and `canProceed`, labelled `Complete Profile`.
   */
  function Render(currentStep: int, totalSteps: int, error: string, submitting: bool, canProceed: bool): (r: View)
    ensures BasicInfo in r.panels <==> currentStep == 1
    ensures ListingsPanel in r.panels <==> currentStep == 2
    ensures r.errorBox <==> error != ""
    ensures r.buttons.showPrevious <==> currentStep > 1
    ensures r.buttons.submitDisabled <==> submitting || (currentStep != totalSteps && !canProceed)
    ensures r.buttons.caption.Finish? ==> r.buttons.caption.text == "Complete Profile"
    ensures r.buttons == FormNavigation.Render(currentStep, totalSteps, submitting, canProceed, Some("Complete Profile"))
  {
    View(
      (if currentStep == 1 then {BasicInfo} else {}) + (if currentStep == 2 then {ListingsPanel} else {}),
      error != "",
      FormNavigation.Render(currentStep, totalSteps, submitting, canProceed, Some("Complete Profile")))
  }

  /** At most one panel shows at a time, and none outside steps 1 and 2. */
  lemma OnePanel(currentStep: int, totalSteps: int, error: string, submitting: bool, canProceed: bool)
    ensures |Render(currentStep, totalSteps, error, submitting, canProceed).panels| <= 1
    ensures currentStep != 1 && currentStep != 2 ==> Render(currentStep, totalSteps, error, submitting, canProceed).panels == {}
  {
  }

  /**
   * In the two-step hotel wizard, an enabled submit on the basic-information step advances,
   * and only when step 1's fields are filled in.
   */
  lemma EnabledFirstStepAdvances(form: HotelProfileForm.HotelForm, error: string, submitting: bool)
    requires !Render(1, 2, error, submitting, HotelProfileForm.CanProceedStep1(form)).buttons.submitDisabled
    ensures HandleFormSubmit(1, 2) == CallNextStep
    ensures HotelProfileForm.CanProceedStep1(form) && !submitting
  {
  }
}

=== FILE: hotel_profile_edit.dfy ===
/**
 * `useHotelProfileEdit`: the hotel's profile editor. It turns the API's hotel record into
 * the profile (merging each listing's collaboration offerings), edits the basic info, and
 * edits one listing at a time in a separate listing form, with its images and target
 * countries.
 */
module HotelProfileEdit {
  import opened Wrappers
  import opened Seqs
  import opened Text
  import opened Validation
  import opened Listings
  import ImageUpload
  import ProfilePicture

  // ---------------------------------------------------------------------------
  // The API record and its transformation
  // ---------------------------------------------------------------------------

  /** One collaboration offering of a listing, as the API sends it. */
  datatype Offering = Offering(
    collaborationType: string, availabilityMonths: Option<seq<string>>, platforms: Option<seq<string>>,
    freeStayMinNights: Option<int>, freeStayMaxNights: Option<int>, paidMaxAmount: Option<int>,
    discountPercentage: Option<int>)

  /** `CreatorRequirements`. */
  datatype Requirements = Requirements(
    platforms: Option<seq<string>>, minFollowers: Option<int>, targetCountries: Option<seq<string>>,
    targetAgeMin: Option<int>, targetAgeMax: Option<int>, targetAgeGroups: Option<seq<string>>)

  datatype ApiListing = ApiListing(
    id: string, name: string, location: string, description: string, images: Option<seq<string>>,
    accommodationType: Option<string>, offerings: Option<seq<Offering>>, requirements: Option<Requirements>,
    status: string)

  datatype ApiHotel = ApiHotel(
    id: string, name: string, picture: Option<string>, location: string, status: string,
    website: Option<string>, about: Option<string>, email: string, phone: Option<string>,
    listings: Option<seq<ApiListing>>)

  /**
   * `ProfileHotelListing`: the listing's id and status with its editable fields. An absent
   * accommodation type is held as the empty string, which is what the listing form shows.
   */
  datatype ProfileListing = ProfileListing(id: string, status: string, fields: Listing)

  /** `ProfileHotelProfile`. */
  datatype Profile = Profile(
    id: string, name: string, picture: Option<string>, location: string, status: string,
    website: Option<string>, about: Option<string>, email: string, phone: Option<string>,
    listings: seq<ProfileListing>)

  /** `offerings.find(o => o.collaboration_type === t)`. */
  function FindOffering(os: seq<Offering>, t: string): Option<Offering> {
    Find((o: Offering) => o.collaborationType == t, os)
  }

  function MonthsOf(o: Offering): seq<string> {
    o.availabilityMonths.GetOr([])
  }

  function PlatformsOf(o: Offering): seq<string> {
    o.platforms.GetOr([])
  }

  function TypeOf(o: Offering): string {
    o.collaborationType
  }

  /** A number field of the first offering of a type, if there is one. */
  function FromFirst(os: seq<Offering>, t: string, field: Offering -> Option<int>): Option<int> {
    match FindOffering(os, t)
    case Some(o) => field(o)
    case None => None
  }

  /** One listing of `transformHotelProfile`: the offerings merged into the listing's fields. */
  function TransformListing(a: ApiListing): (r: ProfileListing)
    ensures r.id == a.id && r.status == a.status
    ensures r.fields.name == a.name && r.fields.location == a.location && r.fields.description == a.description
    ensures r.fields.images == a.images.GetOr([]) && r.fields.imageFiles == []
    ensures |r.fields.collaborationTypes| == |a.offerings.GetOr([])|
    ensures forall k | 0 <= k < |r.fields.collaborationTypes| :: r.fields.collaborationTypes[k] == a.offerings.value[k].collaborationType
    ensures NoDup(r.fields.availability) && NoDup(r.fields.platforms)
    ensures forall m :: m in r.fields.availability <==> exists o :: o in a.offerings.GetOr([]) && m in MonthsOf(o)
    ensures forall p :: p in r.fields.platforms <==> exists o :: o in a.offerings.GetOr([]) && p in PlatformsOf(o)
    ensures a.requirements.None? ==>
      (r.fields.lookingForPlatforms == [] && r.fields.targetGroupCountries == []
       && r.fields.lookingForMinFollowers.None? && r.fields.targetGroupAgeGroups == [])
  {
    var os := a.offerings.GetOr([]);
    var req := a.requirements;
    ProfileListing(a.id, a.status, Listing(
      a.name, a.location, a.description, Or(a.accommodationType, None).GetOr(""),
      a.images.GetOr([]), [],
      Map(TypeOf, os),
      Dedupe(FlatMap(MonthsOf, os)),
      Dedupe(FlatMap(PlatformsOf, os)),
      FromFirst(os, "Free Stay", (o: Offering) => o.freeStayMinNights),
      FromFirst(os, "Free Stay", (o: Offering) => o.freeStayMaxNights),
      FromFirst(os, "Paid", (o: Offering) => o.paidMaxAmount),
      FromFirst(os, "Discount", (o: Offering) => o.discountPercentage),
      if req.Some? then req.value.platforms.GetOr([]) else [],
      if req.Some? then req.value.minFollowers else None,
      if req.Some? then req.value.targetCountries.GetOr([]) else [],
      if req.Some? then req.value.targetAgeMin else None,
      if req.Some? then req.value.targetAgeMax else None,
      if req.Some? then req.value.targetAgeGroups.GetOr([]) else []))
  }

  /**
   * Each type's numbers come from the first offering of that type: a later offering of the
   * same type is ignored, and without such an offering the numbers are unset.
   */
  lemma TypeNumbersFromFirstOffering(a: ApiListing, k: nat)
    requires a.offerings.Some? && k < |a.offerings.value|
    requires forall j | 0 <= j < k :: a.offerings.value[j].collaborationType != a.offerings.value[k].collaborationType
    ensures var o := a.offerings.value[k];
      var l := TransformListing(a).fields;
      && (o.collaborationType == "Free Stay" ==> l.freeStayMinNights == o.freeStayMinNights && l.freeStayMaxNights == o.freeStayMaxNights)
      && (o.collaborationType == "Paid" ==> l.paidMaxAmount == o.paidMaxAmount)
      && (o.collaborationType == "Discount" ==> l.discountPercentage == o.discountPercentage)
  {
    var os := a.offerings.value;
    FindFirst((o: Offering) => o.collaborationType == os[k].collaborationType, os, k);
  }

  /** Without an offering of a type, that type's numbers are unset. */
  lemma MissingTypeUnset(a: ApiListing)
    requires forall o | o in a.offerings.GetOr([]) :: o.collaborationType != "Paid"
    ensures TransformListing(a).fields.paidMaxAmount.None?
  {
    var os := a.offerings.GetOr([]);
    assert forall k | 0 <= k < |os| :: os[k].collaborationType != "Paid" by {
      forall k | 0 <= k < |os| ensures os[k].collaborationType != "Paid" {
        assert os[k] in os;
      }
    }
  }

  /** `transformHotelProfile`. */
  function Transform(a: ApiHotel): (r: Profile)
    ensures r.id == a.id && r.name == a.name && r.location == a.location && r.email == a.email
    ensures r.status == a.status
    ensures r.picture.None? <==> !Truthy(a.picture)
    ensures r.picture.Some? ==> r.picture.value == a.picture.value && r.picture.value != ""
    ensures r.website.None? <==> !Truthy(a.website)
    ensures r.website.Some? ==> r.website.value == a.website.value && r.website.value != ""
    ensures r.about.None? <==> !Truthy(a.about)
    ensures r.about.Some? ==> r.about.value == a.about.value && r.about.value != ""
    ensures r.phone.None? <==> !Truthy(a.phone)
    ensures r.phone.Some? ==> r.phone.value == a.phone.value && r.phone.value != ""
    ensures |r.listings| == |a.listings.GetOr([])|
    ensures forall k | 0 <= k < |r.listings| :: r.listings[k] == TransformListing(a.listings.value[k])
  {
    Profile(a.id, a.name, Or(a.picture, None), a.location, a.status, Or(a.website, None), Or(a.about, None),
      a.email, Or(a.phone, None), Map(TransformListing, a.listings.GetOr([])))
  }

  // ---------------------------------------------------------------------------
  // The editor's state
  // ---------------------------------------------------------------------------

  /** `HotelEditFormData`. */
  datatype HotelForm = HotelForm(name: string, picture: string, location: string, website: string, about: string)

  /** `DeleteConfirmModalState`. */
  datatype DeleteConfirm = DeleteConfirm(isOpen: bool, listingId: Option<string>, listingName: string)

  const DeleteClosed := DeleteConfirm(false, None, "")

  /** `EMPTY_LISTING_FORM`. */
  const EmptyListingForm := Listings.Empty("")

  datatype Editor = Editor(
    profile: Option<Profile>, email: string, phone: string, form: HotelForm, editing: bool,
    editingListingId: Option<string>, addingNewListing: bool, listingForm: Listing,
    collapsedCards: set<string>, countryInput: string, deleteConfirm: DeleteConfirm,
    picture: ProfilePicture.Draft)

  /** The basic-info form filled from a profile; absent optional fields show as empty. */
  function FormOf(p: Profile): (f: HotelForm)
    ensures f.name == p.name && f.location == p.location
    ensures f.picture == p.picture.GetOr("") && f.website == p.website.GetOr("") && f.about == p.about.GetOr("")
  {
    HotelForm(p.name, p.picture.GetOr(""), p.location, p.website.GetOr(""), p.about.GetOr(""))
  }

  /**
   * `loadProfile` with the fetched record, `None` when the request failed: on success the
   * profile, contact fields and basic-info form are replaced; otherwise nothing changes.
   */
  function LoadProfile(e: Editor, fetched: Option<ApiHotel>): (r: Editor)
    ensures fetched.None? ==> r == e
    ensures fetched.Some? ==>
      && r.profile == Some(Transform(fetched.value)) && r.email == fetched.value.email
      && r.phone == Transform(fetched.value).phone.GetOr("")
      && r.form == FormOf(Transform(fetched.value))
      && r.listingForm == e.listingForm && r.editingListingId == e.editingListingId
  {
    match fetched
    case None => e
    case Some(a) =>
      var p := Transform(a);
      e.(profile := Some(p), email := p.email, phone := p.phone.GetOr(""), form := FormOf(p))
  }

  /** `cancelEdit`: the form returns to the profile (when there is one); editing ends and the picture draft is dropped. */
  function CancelEdit(e: Editor): (r: Editor)
    ensures e.profile.Some? ==> r.form == FormOf(e.profile.value)
    ensures e.profile.None? ==> r.form == e.form
    ensures !r.editing && r.picture == ProfilePicture.Discard(e.picture)
    ensures r.profile == e.profile && r.listingForm == e.listingForm
  {
    var e' := e.(editing := false, picture := ProfilePicture.Discard(e.picture));
    if e.profile.Some? then e'.(form := FormOf(e.profile.value)) else e'
  }

  /** Whatever was typed after a load, cancelling gives back the form as loaded. */
  lemma CancelAfterLoad(e: Editor, a: ApiHotel, edited: HotelForm)
    ensures CancelEdit(LoadProfile(e, Some(a)).(form := edited)).form == LoadProfile(e, Some(a)).form
  {
  }

  // ---------------------------------------------------------------------------
  // Basic info: validation and save
  // ---------------------------------------------------------------------------

  /** The problems the editor reports about its forms. */
  datatype Problem = NoHotelName | NoLocation | BadWebsite | NoListingName | NoImages

  function Wording(p: Problem): string {
    match p
    case NoHotelName => "Hotel name is required"
    case NoLocation => "Location is required"
    case BadWebsite => "Website must start with http:// or https://"
    case NoListingName => "Listing name is required"
    case NoImages => "At least one image is required"
  }

  function FormRules(f: HotelForm): seq<Rule<Problem>> {
    [ Rule(!IsBlank(f.name), NoHotelName),
      Rule(!IsBlank(f.location), NoLocation),
      Rule(f.website == "" || HasHttpScheme(f.website), BadWebsite) ]
  }

  /** A basic-info form the editor accepts. */
  predicate FormValid(f: HotelForm) {
    !IsBlank(f.name) && !IsBlank(f.location) && (f.website == "" || HasHttpScheme(f.website))
  }

  /**
   * `validateForm()`: nothing exactly when the form is valid; otherwise the first problem,
   * in the order name, location, website.
   */
  function ValidateForm(f: HotelForm): (r: Option<Problem>)
    ensures r.None? <==> FormValid(f)
    ensures IsBlank(f.name) ==> r == Some(NoHotelName)
    ensures !IsBlank(f.name) && IsBlank(f.location) ==> r == Some(NoLocation)
    ensures !IsBlank(f.name) && !IsBlank(f.location) && f.website != "" && !HasHttpScheme(f.website) ==> r == Some(BadWebsite)
  {
    var rs := FormRules(f);
    FirstFailureSpec(rs);
    assert FirstFailure(rs).None? ==> rs[0].holds && rs[1].holds && rs[2].holds;
    assert rs[0].holds ==> FirstFailure(rs) == FailureFrom(rs, 1);
    FirstFailure(rs)
  }

  /** The fields `saveProfile` sends; the optional ones are left out when blank. */
  datatype Update = Update(name: string, location: string, website: Option<string>, about: Option<string>)

  /** What `saveProfile` does before its request: report a problem, or send the update (with the new picture file, if any). */
  datatype ProfileSave = InvalidProfile(problem: Problem) | SendProfile(update: Update, pictureFile: Option<ImageUpload.File>)

  /** `saveProfile` up to its request. */
  function SaveProfile(e: Editor): (r: ProfileSave)
    ensures r.InvalidProfile? <==> !FormValid(e.form)
    ensures r.InvalidProfile? ==> Some(r.problem) == ValidateForm(e.form)
    ensures r.SendProfile? ==>
      && r.update.name == Trim(e.form.name) && r.update.location == Trim(e.form.location)
      && (r.update.website.Some? <==> !IsBlank(e.form.website))
      && (r.update.website.Some? ==> r.update.website.value == Trim(e.form.website))
      && (r.update.about.Some? <==> !IsBlank(e.form.about))
      && (r.update.about.Some? ==> r.update.about.value == Trim(e.form.about))
      && r.pictureFile == e.picture.file
  {
    match ValidateForm(e.form)
    case Some(p) => InvalidProfile(p)
    case None =>
      var f := e.form;
      SendProfile(Update(Trim(f.name), Trim(f.location),
        OrUndefined(Trim(f.website)), OrUndefined(Trim(f.about))), e.picture.file)
  }

  /** `saveContact` with the request's outcome: only a loaded profile is updated, with the trimmed phone. */
  function SaveContact(e: Editor, succeeded: bool): (r: (Editor, bool))
    ensures r.1 <==> e.profile.Some? && succeeded
    ensures r.1 ==> r.0.profile == Some(e.profile.value.(phone := Some(Trim(e.phone))))
    ensures !r.1 ==> r.0 == e
  {
    if e.profile.None? || !succeeded then (e, false)
    else (e.(profile := Some(e.profile.value.(phone := Some(Trim(e.phone))))), true)
  }

  /** `confirmPicture`: the draft's preview, when non-empty, becomes the form's picture; the dialog closes. */
  function ConfirmPicture(e: Editor): (r: Editor)
    ensures Truthy(e.picture.preview) ==> r.form == e.form.(picture := e.picture.preview.value)
    ensures !Truthy(e.picture.preview) ==> r.form == e.form
    ensures !r.picture.showModal && r.picture.preview == e.picture.preview
  {
    var (d, picture) := ProfilePicture.Confirm(e.picture, e.form.picture);
    e.(picture := d, form := e.form.(picture := picture))
  }

  // ---------------------------------------------------------------------------
  // Listing editing
  // ---------------------------------------------------------------------------

  /** `toggleListingCard(listingId)`. */
  function ToggleListingCard(e: Editor, id: string): (r: Editor)
    ensures id in r.collapsedCards <==> id !in e.collapsedCards
    ensures forall j | j != id :: j in r.collapsedCards <==> j in e.collapsedCards
    ensures r.(collapsedCards := e.collapsedCards) == e
  {
    e.(collapsedCards := ToggleMember(e.collapsedCards, id))
  }

  lemma ToggleListingCardTwice(e: Editor, id: string)
    ensures ToggleListingCard(ToggleListingCard(e, id), id) == e
  {
    ToggleMemberTwice(e.collapsedCards, id);
  }

  /** `startEditListing(listing)`: the listing's fields are copied into the listing form. */
  function StartEditListing(e: Editor, l: ProfileListing): (r: Editor)
    ensures r.editingListingId == Some(l.id) && !r.addingNewListing && r.listingForm == l.fields
    ensures r.(editingListingId := e.editingListingId, addingNewListing := e.addingNewListing, listingForm := e.listingForm) == e
  {
    e.(editingListingId := Some(l.id), listingForm := l.fields, addingNewListing := false)
  }

  /** `startAddListing()`. */
  function StartAddListing(e: Editor): (r: Editor)
    ensures r.addingNewListing && r.editingListingId.None? && r.listingForm == EmptyListingForm
    ensures r.(editingListingId := e.editingListingId, addingNewListing := e.addingNewListing, listingForm := e.listingForm) == e
  {
    e.(addingNewListing := true, editingListingId := None, listingForm := EmptyListingForm)
  }

  /** `cancelListingEdit()`. */
  function CancelListingEdit(e: Editor): (r: Editor)
    ensures !r.addingNewListing && r.editingListingId.None? && r.listingForm == EmptyListingForm
    ensures r.(editingListingId := e.editingListingId, addingNewListing := e.addingNewListing, listingForm := e.listingForm) == e
  {
    e.(editingListingId := None, addingNewListing := false, listingForm := EmptyListingForm)
  }

  /** Whichever listing was being edited, cancelling ends in the same listing state. */
  lemma CancelForgetsListing(e: Editor, l: ProfileListing)
    ensures CancelListingEdit(StartEditListing(e, l)) == CancelListingEdit(StartAddListing(e)) == CancelListingEdit(e)
  {
  }

  /** The checks `saveListing` makes before anything else, in order. */
  function ListingRules(l: Listing): seq<Rule<Problem>> {
    [ Rule(!IsBlank(l.name), NoListingName),
      Rule(!IsBlank(l.location), NoLocation),
      Rule(|l.images| > 0, NoImages) ]
  }

  /**
   * `saveListing` with the record the reload fetches: a blank name, then a blank location,
   * then no images are refused with the editor unchanged; otherwise the profile is reloaded
   * and the listing edit ends.
   */
  function SaveListing(e: Editor, fetched: Option<ApiHotel>): (r: (Editor, Option<Problem>))
    ensures IsBlank(e.listingForm.name) ==> r == (e, Some(NoListingName))
    ensures !IsBlank(e.listingForm.name) && IsBlank(e.listingForm.location) ==> r == (e, Some(NoLocation))
    ensures !IsBlank(e.listingForm.name) && !IsBlank(e.listingForm.location) && e.listingForm.images == [] ==> r == (e, Some(NoImages))
    ensures r.1.None? <==> !IsBlank(e.listingForm.name) && !IsBlank(e.listingForm.location) && |e.listingForm.images| > 0
    ensures r.1.None? ==> r.0 == CancelListingEdit(LoadProfile(e, fetched))
  {
    var rs := ListingRules(e.listingForm);
    FirstFailureSpec(rs);
    assert FirstFailure(rs).None? ==> rs[0].holds && rs[1].holds && rs[2].holds;
    assert rs[0].holds ==> FirstFailure(rs) == FailureFrom(rs, 1);
    match FirstFailure(rs)
    case Some(p) => (e, Some(p))
    case None => (CancelListingEdit(LoadProfile(e, fetched)), None)
  }

  /** `openDeleteConfirm(listingId, listingName)`. */
  function OpenDeleteConfirm(e: Editor, id: string, name: string): (r: Editor)
    ensures r.deleteConfirm == DeleteConfirm(true, Some(id), name)
    ensures r.(deleteConfirm := e.deleteConfirm) == e
  {
    e.(deleteConfirm := DeleteConfirm(true, Some(id), name))
  }

  /** `closeDeleteConfirm()`. */
  function CloseDeleteConfirm(e: Editor): (r: Editor)
    ensures r.deleteConfirm == DeleteClosed
    ensures r.(deleteConfirm := e.deleteConfirm) == e
  {
    e.(deleteConfirm := DeleteClosed)
  }

  /**
   * `confirmDeleteListing()` with the outcome of the delete request and the record the
   * reload fetches. Without a listing id nothing is requested and `false` is returned; a
   * failed request leaves the editor as it was.
   */
  function ConfirmDeleteListing(e: Editor, deleted: bool, fetched: Option<ApiHotel>): (r: (Editor, bool))
    ensures !Truthy(e.deleteConfirm.listingId) ==> r == (e, false)
    ensures r.1 <==> Truthy(e.deleteConfirm.listingId) && deleted
    ensures !r.1 ==> r.0 == e
    ensures r.1 ==> r.0 == CloseDeleteConfirm(LoadProfile(e, fetched))
  {
    if !Truthy(e.deleteConfirm.listingId) || !deleted then (e, false)
    else (CloseDeleteConfirm(LoadProfile(e, fetched)), true)
  }

  /** Opening and then closing the dialog leaves it as if never opened. */
  lemma OpenThenClose(e: Editor, id: string, name: string)
    ensures CloseDeleteConfirm(OpenDeleteConfirm(e, id, name)) == CloseDeleteConfirm(e)
  {
  }

  /** `updateListingField(field, value)`: only that field of the listing form changes. */
  function UpdateListingField(e: Editor, f: Field, v: Value): (r: Editor)
    requires Fits(f, v)
    ensures Get(r.listingForm, f) == v
    ensures forall g | g != f :: Get(r.listingForm, g) == Get(e.listingForm, g)
    ensures r.(listingForm := e.listingForm) == e
  {
    e.(listingForm := Set(e.listingForm, f, v))
  }

  /** A listing image this editor takes: an image type of at most 5 MiB. */
  predicate Acceptable(f: ImageUpload.File) {
    StartsWith(f.mimeType, "image/") && f.size <= 5 * 1024 * 1024
  }

  function DataUrl(f: ImageUpload.File): string {
    f.dataUrl
  }

  const TooManyImages := "Maximum 10 images allowed"

  /** The data URLs read from the acceptable files are those of the acceptable chosen files, in some order. */
  lemma AcceptedUrls(chosen: seq<ImageUpload.File>, completed: seq<ImageUpload.File>)
    requires multiset(completed) == multiset(Filter(Acceptable, chosen))
    ensures |completed| <= |chosen|
    ensures |Map(DataUrl, completed)| == |Filter(Acceptable, chosen)|
    ensures multiset(Map(DataUrl, completed)) == multiset(Map(DataUrl, Filter(Acceptable, chosen)))
    ensures forall u :: u in Map(DataUrl, completed) <==> exists f :: f in chosen && Acceptable(f) && f.dataUrl == u
  {
    assert |multiset(completed)| == |multiset(Filter(Acceptable, chosen))|;
    MapPermutation(DataUrl, completed, Filter(Acceptable, chosen));
    var added := Map(DataUrl, completed);
    forall u ensures u in added <==> exists f :: f in chosen && Acceptable(f) && f.dataUrl == u {
      if u in added {
        var k :| 0 <= k < |added| && added[k] == u;
        assert completed[k] in multiset(Filter(Acceptable, chosen));
      }
      if exists f :: f in chosen && Acceptable(f) && f.dataUrl == u {
        var f :| f in chosen && Acceptable(f) && f.dataUrl == u;
        assert f in multiset(completed);
        var k :| 0 <= k < |completed| && completed[k] == f;
        assert added[k] == u;
      }
    }
  }

  /**
   * `handleListingImageChange(files)`. `completed` holds the acceptable chosen files in the
   * order their readers finish. The batch is refused whole when the listing would exceed ten
   * images; otherwise unacceptable files are skipped one by one and the others' data URLs
   * appended.
   */
  function ListingImageChange(e: Editor, chosen: seq<ImageUpload.File>, completed: seq<ImageUpload.File>): (r: (Editor, Option<string>))
    requires multiset(completed) == multiset(Filter(Acceptable, chosen))
    ensures chosen == [] ==> r == (e, None)
    ensures chosen != [] && |e.listingForm.images| + |chosen| > 10 ==> r == (e, Some(TooManyImages))
    ensures r.1.Some? ==> r.0 == e
    ensures r.1.None? && chosen != [] ==> |r.0.listingForm.images| <= 10
    ensures r.1.None? ==> r.0 == e.(listingForm := r.0.listingForm)
    ensures forall g | g != Images :: Get(r.0.listingForm, g) == Get(e.listingForm, g)
    ensures r.1.None? && chosen != [] ==> r.0.listingForm.images == e.listingForm.images + Map(DataUrl, completed)
    ensures r.1.None? && chosen != [] ==> |r.0.listingForm.images| == |e.listingForm.images| + |Filter(Acceptable, chosen)|
    ensures r.1.None? && chosen != [] ==>
      && r.0.listingForm.images[..|e.listingForm.images|] == e.listingForm.images
      && r.0.listingForm.images[|e.listingForm.images|..] == Map(DataUrl, completed)
    ensures r.1.None? && chosen != [] ==>
      multiset(r.0.listingForm.images[|e.listingForm.images|..]) == multiset(Map(DataUrl, Filter(Acceptable, chosen)))
    ensures r.1.None? && chosen != [] ==>
      forall u :: u in r.0.listingForm.images[|e.listingForm.images|..] <==> exists f :: f in chosen && Acceptable(f) && f.dataUrl == u
  {
    if chosen == [] then (e, None)
    else if |e.listingForm.images| + |chosen| > 10 then (e, Some(TooManyImages))
    else
      var added := Map(DataUrl, completed);
      AcceptedUrls(chosen, completed);
      var images := e.listingForm.images + added;
      assert images[..|e.listingForm.images|] == e.listingForm.images;
      assert images[|e.listingForm.images|..] == added;
      assert |images| <= 10;
      var r := (e.(listingForm := e.listingForm.(images := images)), None);
      assert forall g | g != Images :: Get(r.0.listingForm, g) == Get(e.listingForm, g);
      r
  }

  /** `removeListingImage(index)`: exactly that position leaves the listing form's images. */
  function RemoveListingImage(e: Editor, index: int): (r: Editor)
    ensures r.listingForm.images == RemoveAt(e.listingForm.images, index)
    ensures forall g | g != Images :: Get(r.listingForm, g) == Get(e.listingForm, g)
    ensures r.(listingForm := e.listingForm) == e
  {
    e.(listingForm := e.listingForm.(images := RemoveAt(e.listingForm.images, index)))
  }

  /**
   * `getAvailableCountriesForListing()` over the country list `countries`: those not yet
   * targeted whose name contains the search input, ignoring case.
   */
  function AvailableCountries(countries: seq<string>, e: Editor): (r: seq<string>)
    ensures forall c :: c in r <==>
      c in countries && c !in e.listingForm.targetGroupCountries && Contains(ToLower(c), ToLower(e.countryInput))
    ensures |r| <= |countries|
  {
    Filter((c: string) => c !in e.listingForm.targetGroupCountries && Contains(ToLower(c), ToLower(e.countryInput)), countries)
  }

  /** `addCountryToListing(country)`: appended as is, with no duplicate check, and the search input cleared. */
  function AddCountryToListing(e: Editor, country: string): (r: Editor)
    ensures r.listingForm.targetGroupCountries == e.listingForm.targetGroupCountries + [country]
    ensures r.countryInput == ""
    ensures forall g | g != TargetGroupCountries :: Get(r.listingForm, g) == Get(e.listingForm, g)
    ensures r.(listingForm := e.listingForm, countryInput := e.countryInput) == e
  {
    e.(listingForm := e.listingForm.(targetGroupCountries := e.listingForm.targetGroupCountries + [country]), countryInput := "")
  }

  /** `removeCountryFromListing(country)`: every entry equal to the country is removed. */
  function RemoveCountryFromListing(e: Editor, country: string): (r: Editor)
    ensures country !in r.listingForm.targetGroupCountries
    ensures forall c | c != country :: multiset(r.listingForm.targetGroupCountries)[c] == multiset(e.listingForm.targetGroupCountries)[c]
    ensures forall g | g != TargetGroupCountries :: Get(r.listingForm, g) == Get(e.listingForm, g)
    ensures r.(listingForm := e.listingForm) == e
  {
    e.(listingForm := e.listingForm.(targetGroupCountries := RemoveAll(e.listingForm.targetGroupCountries, country)))
  }

  /** A country picked from the offered list and then removed leaves the targets as they were. */
  lemma AddOfferedThenRemove(countries: seq<string>, e: Editor, country: string)
    requires country in AvailableCountries(countries, e)
    ensures RemoveCountryFromListing(AddCountryToListing(e, country), country).listingForm == e.listingForm
  {
    RemoveAllAppend(e.listingForm.targetGroupCountries, country);
  }

  /** Adding an already targeted country lists it twice: the add itself does not guard against duplicates. */
  lemma AddTwiceDuplicates(e: Editor, country: string)
    ensures multiset(AddCountryToListing(AddCountryToListing(e, country), country).listingForm.targetGroupCountries)[country]
      == multiset(e.listingForm.targetGroupCountries)[country] + 2
  {
  }
}

=== FILE: hotel_profile_form.dfy ===
/**
 * `useHotelProfileForm`: the hotel side of the profile-completion wizard. It keeps the
 * basic-info form, the list of property listings with their collapsed cards, and the
 * listing images; it validates the whole form and scores its completion.
 */
module HotelProfileForm {
  import opened Wrappers
  import opened Seqs
  import opened Text
  import opened Validation
  import opened Listings
  import ImageUpload

  /** `HotelFormState`. */
  datatype HotelForm = HotelForm(name: string, location: string, about: string, website: string, phone: string, picture: string)

  /** The wizard's state: the form, the listings, the collapsed listing cards and the chosen profile picture. */
  datatype Wizard = Wizard(form: HotelForm, listings: seq<Listing>, collapsed: set<int>, pictureFile: Option<ImageUpload.File>)

  /** The state on mount, with the optional initial name. */
  function Initial(initialName: string): (w: Wizard)
    ensures w.form.name == initialName && w.listings == [] && w.collapsed == {} && w.pictureFile.None?
    ensures w.form.location == w.form.about == w.form.website == w.form.phone == w.form.picture == ""
  {
    Wizard(HotelForm(initialName, "", "", "", "", ""), [], {}, None)
  }

  /** The limits of the image guards: 10 images per listing, 5 MiB per file, any `image/` type. */
  const ImageOptions := ImageUpload.Options(10, 5, [])

  const ListingCountError := "Maximum 10 images allowed per listing"

  /**
   * `handleProfileImageChange`: the first chosen file becomes the profile picture when it is
   * an image of at most 5 MiB, and its data URL becomes the form's picture; otherwise the
   * wizard is unchanged and the error is reported.
   */
  function ProfileImageChange(w: Wizard, chosen: seq<ImageUpload.File>): (r: (Wizard, Option<string>))
    ensures chosen == [] ==> r == (w, None)
    ensures chosen != [] && !StartsWith(chosen[0].mimeType, "image/") ==> r == (w, Some(ImageUpload.TypeError))
    ensures chosen != [] && StartsWith(chosen[0].mimeType, "image/") && chosen[0].size > ImageUpload.MaxBytes(ImageOptions)
      ==> r == (w, Some("Image must be less than 5MB"))
    ensures r.1.None? && chosen != [] ==>
      r.0 == w.(pictureFile := Some(chosen[0]), form := w.form.(picture := chosen[0].dataUrl))
  {
    if chosen == [] then (w, None)
    else
      var f := chosen[0];
      if !StartsWith(f.mimeType, "image/") then (w, Some(ImageUpload.TypeError))
      else if f.size > 5 * 1024 * 1024 then (w, Some("Image must be less than 5MB"))
      else (w.(pictureFile := Some(f), form := w.form.(picture := f.dataUrl)), None)
  }

  // ---------------------------------------------------------------------------
  // Listings
  // ---------------------------------------------------------------------------

  /** `addListing()`: one empty listing is appended, its location taken from the form. */
  function AddListing(w: Wizard): (r: Wizard)
    ensures |r.listings| == |w.listings| + 1 && r.listings[..|w.listings|] == w.listings
    ensures r.listings[|w.listings|].location == w.form.location
    ensures r.listings[|w.listings|].name == "" && r.listings[|w.listings|].images == []
    ensures Aligned(r.listings[|w.listings|])
    ensures r.form == w.form && r.collapsed == w.collapsed
  {
    var r := w.(listings := w.listings + [Empty(w.form.location)]);
    assert r.listings[..|w.listings|] == w.listings;
    r
  }

  /** Where the listing at `j` sits after the listing at `index` is removed. */
  function Shifted(j: int, index: int): int {
    if j < index then j else j - 1
  }

  /** The collapsed indices after the listing at `index` is removed. */
  function RemapCollapsed(collapsed: set<int>, index: int): (r: set<int>)
    ensures forall c :: c in r <==> (c < index && c in collapsed) || (c >= index && c + 1 in collapsed)
  {
    var r := set c | c in collapsed && c != index :: Shifted(c, index);
    assert forall d | d in collapsed && d > index :: d - 1 in r by {
      forall d | d in collapsed && d > index ensures d - 1 in r {
        assert Shifted(d, index) == d - 1;
      }
    }
    r
  }

  /** `removeListing(index)`: the listing leaves the list and the collapsed indices above it move down. */
  function RemoveListing(w: Wizard, index: int): (r: Wizard)
    ensures r.listings == RemoveAt(w.listings, index)
    ensures forall c :: c in r.collapsed <==> (c < index && c in w.collapsed) || (c >= index && c + 1 in w.collapsed)
    ensures r.form == w.form
  {
    w.(listings := RemoveAt(w.listings, index), collapsed := RemapCollapsed(w.collapsed, index))
  }

  /** After a removal every other listing keeps its collapsed state at its new position. */
  lemma RemoveListingKeepsCollapsed(w: Wizard, index: int, j: int)
    requires 0 <= index < |w.listings| && 0 <= j < |w.listings| && j != index
    ensures RemoveListing(w, index).listings[Shifted(j, index)] == w.listings[j]
    ensures Shifted(j, index) in RemoveListing(w, index).collapsed <==> j in w.collapsed
  {
    var r := RemoveListing(w, index);
    if j > index {
      assert r.listings[j - 1] == w.listings[j];
    }
  }

  /** The removed listing's own index does not survive as a collapsed card of a neighbour. */
  lemma RemoveListingDropsOwnState(w: Wizard, index: int)
    requires index in w.collapsed && index + 1 !in w.collapsed
    ensures index !in RemoveListing(w, index).collapsed
  {
  }

  /** `toggleListingCollapse(index)`. */
  function ToggleCollapse(w: Wizard, index: int): (r: Wizard)
    ensures index in r.collapsed <==> index !in w.collapsed
    ensures forall c | c != index :: c in r.collapsed <==> c in w.collapsed
    ensures r.listings == w.listings && r.form == w.form
  {
    w.(collapsed := ToggleMember(w.collapsed, index))
  }

  /** Collapsing twice restores the collapsed set. */
  lemma ToggleCollapseTwice(w: Wizard, index: int)
    ensures ToggleCollapse(ToggleCollapse(w, index), index) == w
  {
    ToggleMemberTwice(w.collapsed, index);
  }

  /** `updateListing(index, field, value)`: only that field of that listing changes. */
  function UpdateListing(w: Wizard, index: int, f: Field, v: Value): (r: Wizard)
    requires 0 <= index < |w.listings| && Fits(f, v)
    ensures |r.listings| == |w.listings|
    ensures Get(r.listings[index], f) == v
    ensures forall g | g != f :: Get(r.listings[index], g) == Get(w.listings[index], g)
    ensures forall j | 0 <= j < |w.listings| && j != index :: r.listings[j] == w.listings[j]
    ensures r.form == w.form && r.collapsed == w.collapsed
  {
    w.(listings := w.listings[index := Set(w.listings[index], f, v)])
  }

  /**
   * `handleListingImageChange(index, files)`. `completed` is the chosen files in the order
   * their readers finish. The whole batch is refused when the listing would hold more than
   * ten images, or when any file is not an image or exceeds 5 MiB; otherwise every file is
   * appended with its data URL, in completion order.
   */
  function ListingImageChange(w: Wizard, index: int, chosen: seq<ImageUpload.File>, completed: seq<ImageUpload.File>): (r: (Wizard, Option<string>))
    requires 0 <= index < |w.listings|
    requires multiset(completed) == multiset(chosen)
    ensures chosen == [] ==> r == (w, None)
    ensures chosen != [] && |w.listings[index].images| + |chosen| > 10 ==> r == (w, Some(ListingCountError))
    ensures r.1.Some? ==> r.0 == w
    ensures r.1.None? <==> chosen == [] || (|w.listings[index].images| + |chosen| <= 10 && ImageUpload.FirstInvalid(chosen, ImageOptions).None?)
    ensures |r.0.listings| == |w.listings|
    ensures r.1.None? && chosen != [] ==> |r.0.listings[index].images| <= 10
    ensures forall j | 0 <= j < |w.listings| && j != index :: r.0.listings[j] == w.listings[j]
    ensures forall g | g != Images && g != ImageFiles :: Get(r.0.listings[index], g) == Get(w.listings[index], g)
    ensures Aligned(w.listings[index]) ==> Aligned(r.0.listings[index])
    ensures r.1.None? && chosen != [] ==>
      |w.listings[index].imageFiles| <= |r.0.listings[index].imageFiles|
      && multiset(r.0.listings[index].imageFiles[|w.listings[index].imageFiles|..]) == multiset(chosen)
  {
    var l := w.listings[index];
    if chosen == [] then (w, None)
    else if |l.images| + |chosen| > 10 then (w, Some(ListingCountError))
    else
      var bad := ImageUpload.FirstInvalid(chosen, ImageOptions);
      if bad.Some? then (w, bad)
      else
        assert |completed| == |chosen| by {
          assert |multiset(completed)| == |multiset(chosen)|;
        }
        var l' := l.(images := l.images + Map((f: ImageUpload.File) => f.dataUrl, completed), imageFiles := l.imageFiles + completed);
        assert l'.imageFiles[|l.imageFiles|..] == completed;
        (w.(listings := w.listings[index := l']), None)
  }

  /** `removeListingImage(listingIndex, imageIndex)`: the same position leaves both the images and the files. */
  function RemoveListingImage(w: Wizard, listingIndex: int, imageIndex: int): (r: Wizard)
    requires 0 <= listingIndex < |w.listings|
    ensures |r.listings| == |w.listings|
    ensures r.listings[listingIndex].images == RemoveAt(w.listings[listingIndex].images, imageIndex)
    ensures r.listings[listingIndex].imageFiles == RemoveAt(w.listings[listingIndex].imageFiles, imageIndex)
    ensures forall g | g != Images && g != ImageFiles :: Get(r.listings[listingIndex], g) == Get(w.listings[listingIndex], g)
    ensures forall j | 0 <= j < |w.listings| && j != listingIndex :: r.listings[j] == w.listings[j]
    ensures Aligned(w.listings[listingIndex]) ==> Aligned(r.listings[listingIndex])
  {
    var l := w.listings[listingIndex];
    w.(listings := w.listings[listingIndex := l.(images := RemoveAt(l.images, imageIndex), imageFiles := RemoveAt(l.imageFiles, imageIndex))])
  }

  // ---------------------------------------------------------------------------
  // Validation
  // ---------------------------------------------------------------------------

  /** A number field that is set and positive (`!x || x <= 0` fails it). */
  predicate Positive(n: Option<int>) {
    n.Some? && n.value > 0
  }

  /** The problems `validateForm` reports. */
  datatype Problem =
    | ShortName | NoLocation | NoAbout | ShortAbout | NoWebsite | NoListings
    | NoListingName | NoListingLocation | NoAccommodationType | NoDescription | ShortDescription
    | NoCollaborationType | NoAvailability | NoPlatform | NoLookingFor
    | LowMinNights | LowMaxNights | PaidAmount | DiscountRange

  /** The wording of each problem. */
  function Wording(p: Problem): string {
    match p
    case ShortName => "Hotel name must be at least 2 characters"
    case NoLocation => "Location is required"
    case NoAbout => "About section is recommended. Please add a description about your hotel."
    case ShortAbout => "About section must be at least 50 characters"
    case NoWebsite => "Website is recommended. Please add your hotel website URL."
    case NoListings => "At least one property listing is required. Please add a listing."
    case NoListingName => "Property name is required"
    case NoListingLocation => "Property location is required"
    case NoAccommodationType => "Accommodation type is required"
    case NoDescription => "Property description is required"
    case ShortDescription => "Property description must be at least 10 characters"
    case NoCollaborationType => "At least one collaboration type is required"
    case NoAvailability => "At least one availability month is required"
    case NoPlatform => "At least one platform is required"
    case NoLookingFor => "At least one platform in \"Looking For\" is required"
    case LowMinNights => "Free Stay requires minimum nights greater than 0"
    case LowMaxNights => "Free Stay max nights must be greater than min nights"
    case PaidAmount => "Paid collaboration requires max amount greater than 0"
    case DiscountRange => "Discount percentage must be between 1 and 100"
  }

  /** An error of `validateForm`: about the form, or about the listing at a position. */
  datatype Message = FormMessage(problem: Problem) | ListingMessage(index: nat, problem: Problem)

  /** The text passed to `onError`; listings are counted from one. */
  function Render(m: Message): (r: string)
    ensures m.FormMessage? ==> r == Wording(m.problem)
    ensures m.ListingMessage? ==> StartsWith(r, "Listing ") && |r| > |Wording(m.problem)|
  {
    match m
    case FormMessage(p) => Wording(p)
    case ListingMessage(i, p) => "Listing " + NatToString(i + 1) + ": " + Wording(p)
  }

  /** The checks on the basic-info form, in the order `validateForm` makes them. */
  function FormRules(form: HotelForm, listingCount: nat): seq<Rule<Message>> {
    [ Rule(|Trim(form.name)| >= 2, FormMessage(ShortName)),
      Rule(!IsBlank(form.location), FormMessage(NoLocation)),
      Rule(!IsBlank(form.about), FormMessage(NoAbout)),
      Rule(|Trim(form.about)| >= 50, FormMessage(ShortAbout)),
      Rule(!IsBlank(form.website), FormMessage(NoWebsite)),
      Rule(listingCount > 0, FormMessage(NoListings)) ]
  }

  /** The free-stay night check: set, non-zero, and not below the minimum. */
  predicate FreeStayMaxOk(l: Listing) {
    l.freeStayMaxNights.Some? && l.freeStayMaxNights.value != 0
    && !(l.freeStayMinNights.Some? && l.freeStayMaxNights.value < l.freeStayMinNights.value)
  }

  /** The checks on the listing at position `i`, in order. */
  function ListingRules(l: Listing, i: nat): seq<Rule<Message>> {
    var freeStay := "Free Stay" in l.collaborationTypes;
    [ Rule(!IsBlank(l.name), ListingMessage(i, NoListingName)),
      Rule(!IsBlank(l.location), ListingMessage(i, NoListingLocation)),
      Rule(!IsBlank(l.accommodationType), ListingMessage(i, NoAccommodationType)),
      Rule(!IsBlank(l.description), ListingMessage(i, NoDescription)),
      Rule(|Trim(l.description)| >= 10, ListingMessage(i, ShortDescription)),
      Rule(|l.collaborationTypes| > 0, ListingMessage(i, NoCollaborationType)),
      Rule(|l.availability| > 0, ListingMessage(i, NoAvailability)),
      Rule(|l.platforms| > 0, ListingMessage(i, NoPlatform)),
      Rule(|l.lookingForPlatforms| > 0, ListingMessage(i, NoLookingFor)),
      Rule(!freeStay || Positive(l.freeStayMinNights), ListingMessage(i, LowMinNights)),
      Rule(!freeStay || FreeStayMaxOk(l), ListingMessage(i, LowMaxNights)),
      Rule(!("Paid" in l.collaborationTypes) || Positive(l.paidMaxAmount), ListingMessage(i, PaidAmount)),
      Rule(!("Discount" in l.collaborationTypes) || (Positive(l.discountPercentage) && l.discountPercentage.value <= 100),
        ListingMessage(i, DiscountRange)) ]
  }

  /** Every check `validateForm` makes, in order: the form, then each listing in turn. */
  function AllRules(form: HotelForm, listings: seq<Listing>): seq<Rule<Message>> {
    FormRules(form, |listings|) + Each(ListingRules, listings)
  }

  /** A listing the wizard accepts, stated field by field. */
  predicate ListingValid(l: Listing) {
    && !IsBlank(l.name) && !IsBlank(l.location) && !IsBlank(l.accommodationType)
    && |Trim(l.description)| >= 10
    && |l.collaborationTypes| > 0 && |l.availability| > 0 && |l.platforms| > 0 && |l.lookingForPlatforms| > 0
    && ("Free Stay" in l.collaborationTypes ==>
          l.freeStayMinNights.Some? && l.freeStayMaxNights.Some?
          && 0 < l.freeStayMinNights.value <= l.freeStayMaxNights.value)
    && ("Paid" in l.collaborationTypes ==> Positive(l.paidMaxAmount))
    && ("Discount" in l.collaborationTypes ==> l.discountPercentage.Some? && 1 <= l.discountPercentage.value <= 100)
  }

  /** The basic-info part of a valid form. */
  predicate BasicInfoValid(form: HotelForm) {
    |Trim(form.name)| >= 2 && !IsBlank(form.location) && |Trim(form.about)| >= 50 && !IsBlank(form.website)
  }

  /** A form the wizard accepts, stated field by field. */
  predicate FormValid(form: HotelForm, listings: seq<Listing>) {
    && BasicInfoValid(form)
    && |listings| > 0
    && forall i | 0 <= i < |listings| :: ListingValid(listings[i])
  }

  /** The listing checks all pass exactly when the listing is valid. */
  lemma ListingRulesAgree(l: Listing, i: nat)
    ensures FirstFailure(ListingRules(l, i)).None? <==> ListingValid(l)
  {
    var rs := ListingRules(l, i);
    FirstFailureSpec(rs);
    if FirstFailure(rs).None? {
      assert rs[0].holds && rs[1].holds && rs[2].holds && rs[4].holds && rs[5].holds && rs[6].holds;
      assert rs[7].holds && rs[8].holds && rs[9].holds && rs[10].holds && rs[11].holds && rs[12].holds;
    }
  }

  /** The form checks all pass exactly when the basic info is valid and there is a listing. */
  lemma FormRulesAgree(form: HotelForm, n: nat)
    ensures FirstFailure(FormRules(form, n)).None? <==> BasicInfoValid(form) && n > 0
  {
    var fr := FormRules(form, n);
    FirstFailureSpec(fr);
    if FirstFailure(fr).None? {
      assert fr[0].holds && fr[1].holds && fr[3].holds && fr[4].holds && fr[5].holds;
    }
  }

  /** All checks pass exactly when the form is valid. */
  lemma AllRulesAgree(form: HotelForm, listings: seq<Listing>)
    ensures FirstFailure(AllRules(form, listings)).None? <==> FormValid(form, listings)
  {
    var a := FormRules(form, |listings|);
    var b := Each(ListingRules, listings);
    assert FirstFailure(a).None? <==> BasicInfoValid(form) && |listings| > 0 by {
      FormRulesAgree(form, |listings|);
    }
    assert FirstFailure(b).None? <==> forall i | 0 <= i < |listings| :: ListingValid(listings[i]) by {
      EachListingAgrees(listings);
    }
    AppendPasses(a, b);
  }

  lemma EachListingAgrees(listings: seq<Listing>)
    ensures FirstFailure(Each(ListingRules, listings)).None? <==> forall i | 0 <= i < |listings| :: ListingValid(listings[i])
  {
    var valid := (l: Listing, i: nat) => ListingValid(l);
    forall l, i ensures FirstFailure(ListingRules(l, i)).None? <==> valid(l, i) {
      ListingRulesAgree(l, i);
    }
    EachAgree(ListingRules, valid, listings);
  }

  /**
   * `validateForm()`: the form checks, then each listing in turn, stopping at the first
   * failure. `ok` is the returned boolean and `error` the failure whose rendering is passed
   * to `onError`.
   */
  method ValidateForm(form: HotelForm, listings: seq<Listing>) returns (ok: bool, error: Option<Message>)
    ensures ok <==> error.None?
    ensures error == FirstFailure(AllRules(form, listings))
    ensures ok <==> FormValid(form, listings)
  {
    AllRulesAgree(form, listings);
    error := Validate(FormRules(form, |listings|), ListingRules, listings);
    ok := error.None?;
  }

  /** The free-stay message says "greater than", but equal minimum and maximum nights pass. */
  lemma FreeStayEqualNightsPass(l: Listing, n: int)
    requires n > 0 && l.freeStayMinNights == Some(n) && l.freeStayMaxNights == Some(n)
    ensures ListingRules(l, 0)[10].holds
  {
  }

  // ---------------------------------------------------------------------------
  // Progress and step gating
  // ---------------------------------------------------------------------------

  /** Every condition `calculateProgress` scores. */
  predicate FullyScored(form: HotelForm, listings: seq<Listing>) {
    && !IsBlank(form.name) && |form.name| >= 2 && !IsBlank(form.location)
    && !IsBlank(form.about) && |form.about| >= 50 && !IsBlank(form.website) && !IsBlank(form.phone)
    && |listings| > 0
    && listings[0].name != "" && listings[0].location != "" && |listings[0].description| >= 10
    && |listings[0].collaborationTypes| > 0 && |listings[0].availability| > 0
  }

  function Score(c: bool, points: nat): nat {
    if c then points else 0
  }

  /** The basic-info half of the score. */
  function BasicScore(form: HotelForm): (p: nat)
    ensures p <= 50
    ensures p == 50 <==>
      !IsBlank(form.name) && |form.name| >= 2 && !IsBlank(form.location)
      && !IsBlank(form.about) && |form.about| >= 50 && !IsBlank(form.website) && !IsBlank(form.phone)
  {
    Score(!IsBlank(form.name) && |form.name| >= 2, 10) + Score(!IsBlank(form.location), 10)
    + Score(!IsBlank(form.about) && |form.about| >= 50, 10) + Score(!IsBlank(form.website), 10)
    + Score(!IsBlank(form.phone), 10)
  }

  /** The listing half of the score, earned by the first listing. */
  function ListingScore(listings: seq<Listing>): (p: nat)
    ensures p <= 50
    ensures p == 50 <==>
      |listings| > 0 && listings[0].name != "" && listings[0].location != ""
      && |listings[0].description| >= 10 && |listings[0].collaborationTypes| > 0 && |listings[0].availability| > 0
  {
    if |listings| == 0 then 0
    else
      var l := listings[0];
      20 + Score(l.name != "", 5) + Score(l.location != "", 5) + Score(l.description != "" && |l.description| >= 10, 5)
      + Score(|l.collaborationTypes| > 0, 5) + Score(|l.availability| > 0, 10)
  }

  /** `calculateProgress()`: half for the basic info, half for the first listing, capped at 100. */
  function CalculateProgress(form: HotelForm, listings: seq<Listing>): (p: int)
    ensures 0 <= p <= 100
    ensures p == 100 <==> FullyScored(form, listings)
  {
    var total := BasicScore(form) + ListingScore(listings);
    if 100 < total then 100 else total
  }

  /** `canProceedStep1()`: the name has at least two characters after trimming and the location is set. */
  function CanProceedStep1(form: HotelForm): (b: bool)
    ensures b <==> |Trim(form.name)| >= 2 && !IsBlank(form.location)
  {
    !IsBlank(form.name) && |Trim(form.name)| >= 2 && !IsBlank(form.location)
  }

  /** A form that passes validation can always leave the first step. */
  lemma ValidCanProceed(form: HotelForm, listings: seq<Listing>)
    requires BasicInfoValid(form)
    ensures CanProceedStep1(form)
  {
  }

  /** The score counts the untrimmed name length, so a name the first step refuses can still score. */
  lemma ProgressCountsUntrimmedName()
    ensures !CanProceedStep1(HotelForm(" a", "x", "", "", "", ""))
    ensures CalculateProgress(HotelForm(" a", "x", "", "", "", ""), []) == 20
  {
    var form := HotelForm(" a", "x", "", "", "", "");
    assert !IsSpace(form.name[1]) && !IsBlank(form.name);
    assert |Trim(form.name)| <= 1 by {
      assert IsSpace(form.name[0]) && LeadingSpaces(form.name) >= 1;
    }
    assert !IsBlank(form.location) by { assert !IsSpace(form.location[0]); }
    assert IsBlank(form.about) && IsBlank(form.website) && IsBlank(form.phone);
  }
}

=== FILE: image_upload.dfy ===
/**
 * `useImageUpload` and `useMultipleImageUpload`: choosing image files, checking type
 * and size, and keeping each accepted file next to its preview. The preview of a file
 * is the data URL a `FileReader` produces for it, here a field of the file.
 */
module ImageUpload {
  import opened Wrappers
  import opened Seqs
  import opened Text

  /** A chosen file: its MIME type, its size in bytes and the data URL read from it. */
  datatype File = File(mimeType: string, size: int, dataUrl: string)

  /** The options of either hook. */
  datatype Options = Options(maxImages: nat, maxSizeMB: nat, allowedTypes: seq<string>)

  const Defaults := Options(10, 5, ["image/jpeg", "image/png", "image/webp"])

  /** The size limit in bytes. */
  function MaxBytes(o: Options): nat {
    o.maxSizeMB * 1024 * 1024
  }

  const TypeError := "Please upload an image file (JPG, PNG, WebP)"
  const TypesError := "Please upload image files only (JPG, PNG, WebP)"

  function SizeError(o: Options): string {
    "Image must be less than " + NatToString(o.maxSizeMB) + "MB"
  }

  function CountError(o: Options): string {
    "Maximum " + NatToString(o.maxImages) + " images allowed"
  }

  // ---------------------------------------------------------------------------
  // Single upload
  // ---------------------------------------------------------------------------

  /** Some allowed type, with its first slash-star wildcard removed, is a prefix of `mimeType`. */
  predicate TypeAllowed(o: Options, mimeType: string) {
    exists t | t in o.allowedTypes :: StartsWith(mimeType, RemoveFirst(t, "/*"))
  }

  /** The single-upload state: the chosen file and its preview. */
  datatype Single = Single(file: Option<File>, preview: string)

  /**
   * `handleChange` of the single upload with the chosen files: the first one is taken if its
   * type is allowed and it is no larger than the limit; otherwise the state is unchanged and
   * the error message is reported.
   */
  function HandleChange(s: Single, chosen: seq<File>, o: Options): (r: (Single, Option<string>))
    ensures chosen == [] ==> r == (s, None)
    ensures chosen != [] && !TypeAllowed(o, chosen[0].mimeType) ==> r == (s, Some(TypeError))
    ensures chosen != [] && TypeAllowed(o, chosen[0].mimeType) && chosen[0].size > MaxBytes(o) ==> r == (s, Some(SizeError(o)))
    ensures r.1.Some? ==> r.0 == s
    ensures r.1.None? && chosen != [] ==> r.0 == Single(Some(chosen[0]), chosen[0].dataUrl)
  {
    if chosen == [] then (s, None)
    else
      var f := chosen[0];
      if !TypeAllowed(o, f.mimeType) then (s, Some(TypeError))
      else if f.size > MaxBytes(o) then (s, Some(SizeError(o)))
      else (Single(Some(f), f.dataUrl), None)
  }

  /** A file is accepted exactly when its type is allowed and it is within the limit. */
  lemma SingleAccepted(s: Single, f: File, rest: seq<File>, o: Options)
    ensures HandleChange(s, [f] + rest, o).1.None? <==> TypeAllowed(o, f.mimeType) && f.size <= MaxBytes(o)
  {
  }

  /** When no allowed type carries a wildcard, a type is allowed exactly when it starts with an allowed one. */
  lemma StarFreeAllowed(o: Options, mimeType: string)
    requires forall t | t in o.allowedTypes :: '*' !in t
    ensures TypeAllowed(o, mimeType) <==> exists t | t in o.allowedTypes :: StartsWith(mimeType, t)
  {
    forall t | t in o.allowedTypes ensures RemoveFirst(t, "/*") == t {
      NotContainsSlashStar(t);
    }
  }

  lemma JpegAllowed()
    ensures TypeAllowed(Defaults, "image/jpeg")
  {
    StarFreeAllowed(Defaults, "image/jpeg");
    assert StartsWith("image/jpeg", Defaults.allowedTypes[0]);
  }

  lemma GifRefused()
    ensures !TypeAllowed(Defaults, "image/gif")
  {
    StarFreeAllowed(Defaults, "image/gif");
    assert !StartsWith("image/gif", "image/jpeg") by { assert "image/gif"[6] != "image/jpeg"[6]; }
    assert !StartsWith("image/gif", "image/png") by { assert "image/gif"[6] != "image/png"[6]; }
    assert !StartsWith("image/gif", "image/webp") by { assert "image/gif"[6] != "image/webp"[6]; }
  }

  /** With the default options a JPEG of exactly 5 MiB is accepted and a GIF is refused. */
  lemma DefaultsExamples(s: Single)
    ensures HandleChange(s, [File("image/jpeg", 5 * 1024 * 1024, "data:a")], Defaults).1.None?
    ensures HandleChange(s, [File("image/gif", 1, "data:b")], Defaults) == (s, Some(TypeError))
  {
    JpegAllowed();
    GifRefused();
    assert MaxBytes(Defaults) == 5 * 1024 * 1024;
  }

  /** A string without a star contains no slash-star wildcard, so removing it changes nothing. */
  lemma {:induction false} NotContainsSlashStar(s: string)
    requires '*' !in s
    ensures !Contains(s, "/*")
    ensures RemoveFirst(s, "/*") == s
    decreases |s|
  {
    if |s| > 0 {
      if |s| >= 2 { assert s[1] != '*'; }
      NotContainsSlashStar(s[1..]);
    }
  }

  /** `clearFile()`. */
  function ClearFile(s: Single): (r: Single)
    ensures r.file.None? && r.preview == ""
  {
    Single(None, "")
  }

  // ---------------------------------------------------------------------------
  // Multiple upload
  // ---------------------------------------------------------------------------

  /** The multiple-upload state: the accepted files and their previews. */
  datatype Multiple = Multiple(files: seq<File>, previews: seq<string>)

  /** Each preview is the data URL of the file at the same position. */
  predicate Paired(m: Multiple) {
    |m.files| == |m.previews| && forall i | 0 <= i < |m.files| :: m.previews[i] == m.files[i].dataUrl
  }

  /** The error of the first file that is not an image or is too large, checked in order. */
  function FirstInvalid(chosen: seq<File>, o: Options): (r: Option<string>)
    ensures r.None? <==> forall f | f in chosen :: StartsWith(f.mimeType, "image/") && f.size <= MaxBytes(o)
    ensures r.Some? ==> r.value == TypesError || r.value == SizeError(o)
  {
    if |chosen| == 0 then None
    else if !StartsWith(chosen[0].mimeType, "image/") then Some(TypesError)
    else if chosen[0].size > MaxBytes(o) then Some(SizeError(o))
    else FirstInvalid(chosen[1..], o)
  }

  /**
   * `handleChange` of the multiple upload. `existing` counts images already saved elsewhere;
   * `completed` is the chosen files in the order their readers finish. The whole batch is
   * refused when it would exceed the image limit or when any file is not an image or is too
   * large; otherwise every file and its preview are appended, as pairs, in completion order.
   */
  function HandleChangeMultiple(m: Multiple, chosen: seq<File>, existing: nat, completed: seq<File>, o: Options): (r: (Multiple, Option<string>))
    requires multiset(completed) == multiset(chosen)
    ensures chosen == [] ==> r == (m, None)
    ensures chosen != [] && existing + |m.files| + |chosen| > o.maxImages ==> r == (m, Some(CountError(o)))
    ensures chosen != [] && FirstInvalid(chosen, o).Some? ==> r.0 == m && r.1.Some?
    ensures r.1.Some? ==> r.0 == m
    ensures r.1.None? <==> chosen == [] || (existing + |m.files| + |chosen| <= o.maxImages && FirstInvalid(chosen, o).None?)
    ensures r.1.None? && chosen != [] ==>
      |r.0.files| == |m.files| + |chosen| && |r.0.previews| == |m.previews| + |chosen|
      && r.0.files[..|m.files|] == m.files && r.0.previews[..|m.previews|] == m.previews
      && multiset(r.0.files[|m.files|..]) == multiset(chosen)
      && forall k | |m.files| <= k < |r.0.files| :: r.0.previews[k - |m.files| + |m.previews|] == r.0.files[k].dataUrl
    ensures Paired(m) ==> Paired(r.0)
  {
    if chosen == [] then (m, None)
    else if existing + |m.files| + |chosen| > o.maxImages then (m, Some(CountError(o)))
    else
      var bad := FirstInvalid(chosen, o);
      if bad.Some? then (m, bad)
      else
        var urls := Map((f: File) => f.dataUrl, completed);
        assert |completed| == |chosen| by {
          assert |multiset(completed)| == |multiset(chosen)|;
        }
        var r := Multiple(m.files + completed, m.previews + urls);
        assert r.files[..|m.files|] == m.files && r.previews[..|m.previews|] == m.previews;
        assert r.files[|m.files|..] == completed;
        (r, None)
  }

  /** `removeImage(i)`: position `i` leaves both arrays; an index out of range changes nothing. */
  function RemoveImage(m: Multiple, i: int): (r: Multiple)
    ensures Paired(m) ==> Paired(r)
    ensures 0 <= i < |m.files| ==> |r.files| == |m.files| - 1 && r.files == m.files[..i] + m.files[i + 1..]
    ensures 0 <= i < |m.previews| ==> |r.previews| == |m.previews| - 1 && r.previews == m.previews[..i] + m.previews[i + 1..]
    ensures !(0 <= i < |m.files|) && !(0 <= i < |m.previews|) ==> r == m
  {
    Multiple(RemoveAt(m.files, i), RemoveAt(m.previews, i))
  }

  /** `clearFiles()`. */
  function ClearFiles(m: Multiple): (r: Multiple)
    ensures r.files == [] && r.previews == [] && Paired(r)
  {
    Multiple([], [])
  }
}

=== FILE: invitation_modal.dfy ===
/**
 * `HotelInvitationModal`: a hotel's invitation to a creator. It holds the chosen listing
 * and collaboration type, the type's terms, dates or preferred months, the platform
 * deliverables and a message, and keeps the preferred months within what the chosen
 * listing offers.
 */
module InvitationModal {
  import opened Wrappers
  import opened Seqs
  import opened Text
  import opened Months
  import opened DeliverableSelection
  import ApplicationModal

  /** One offering of a listing: its collaboration type and the months it is available. */
  datatype Offering = Offering(kind: string, availability: seq<string>)

  /** A listing the hotel can invite to. */
  datatype HotelListing = HotelListing(
    id: string, name: string, location: string, availableMonths: seq<string>, offerings: seq<Offering>)

  /** The modal's state; an empty `listingId` or `collaborationType` means none chosen. */
  datatype Form = Form(
    listingId: string, collaborationType: string,
    freeStayMinNights: Option<int>, freeStayMaxNights: Option<int>, paidAmount: Option<int>, discountPercentage: Option<int>,
    preferredDateFrom: string, preferredDateTo: string, preferredMonths: seq<string>, message: string,
    deliverables: Selector)

  /** The state the modal opens with, and returns to after a submit or a cancel. */
  const Initial := Form("", "", None, None, None, None, "", "", [], "", Selector([], ""))

  /** `listings.find(l => l.id === id)`. */
  function FindListing(listings: seq<HotelListing>, id: string): Option<HotelListing> {
    Find((l: HotelListing) => l.id == id, listings)
  }

  /** `offerings.find(o => o.type === kind)`. */
  function FindOffering(l: HotelListing, kind: string): Option<Offering> {
    Find((o: Offering) => o.kind == kind, l.offerings)
  }

  /**
   * The abbreviated months the pruning effect keeps to: the chosen type's offering when a
   * type is chosen (nothing when the listing has no such offering), else the listing's months.
   */
  function CurrentAvailable(l: HotelListing, kind: string): seq<string> {
    if kind != "" then
      match FindOffering(l, kind)
      case Some(o) => Map(GetMonthAbbr, o.availability)
      case None => []
    else Map(GetMonthAbbr, l.availableMonths)
  }

  /**
   * The effect run when the listing or type changes: no listing clears the preferred
   * months; an unknown listing, or nothing currently available, leaves them; otherwise only
   * the available ones are kept, each as often as it was listed.
   */
  function PruneMonths(f: Form, listings: seq<HotelListing>): (r: Form)
    ensures r == f.(preferredMonths := r.preferredMonths)
    ensures f.listingId == "" ==> r.preferredMonths == []
    ensures f.listingId != "" && FindListing(listings, f.listingId).None? ==> r == f
    ensures f.listingId != "" && FindListing(listings, f.listingId).Some? ==>
      var avail := CurrentAvailable(FindListing(listings, f.listingId).value, f.collaborationType);
      && (avail == [] ==> r == f)
      && (avail != [] ==> forall m :: m in r.preferredMonths <==> m in f.preferredMonths && m in avail)
      && (avail != [] ==> forall m :: multiset(r.preferredMonths)[m] == if m in avail then multiset(f.preferredMonths)[m] else 0)
    ensures |r.preferredMonths| <= |f.preferredMonths|
  {
    if f.listingId == "" then f.(preferredMonths := [])
    else match FindListing(listings, f.listingId)
      case None => f
      case Some(l) =>
        var avail := CurrentAvailable(l, f.collaborationType);
        if |avail| > 0 then
          FilterCounts((m: string) => m in avail, f.preferredMonths);
          f.(preferredMonths := Filter((m: string) => m in avail, f.preferredMonths))
        else f
  }

  /** The effect settles at once: running it again changes nothing. */
  lemma PruneMonthsIdempotent(f: Form, listings: seq<HotelListing>)
    ensures PruneMonths(PruneMonths(f, listings), listings) == PruneMonths(f, listings)
  {
    var g := PruneMonths(f, listings);
    if f.listingId != "" {
      var l := FindListing(listings, f.listingId);
      if l.Some? {
        var avail := CurrentAvailable(l.value, f.collaborationType);
        if |avail| > 0 {
          FilterAll((m: string) => m in avail, g.preferredMonths);
        }
      }
    }
  }

  /** `isMonthAvailable(month)`. */
  predicate IsMonthAvailable(listings: seq<HotelListing>, f: Form, month: string) {
    match FindListing(listings, f.listingId)
    case None => true
    case Some(l) =>
      if |l.availableMonths| == 0 then true
      else if f.collaborationType != "" && FindOffering(l, f.collaborationType).Some? then
        exists am | am in FindOffering(l, f.collaborationType).value.availability :: GetMonthAbbr(am) == month
      else exists am | am in l.availableMonths :: GetMonthAbbr(am) == month
  }

  lemma InMapped(xs: seq<string>, m: string)
    requires m in Map(GetMonthAbbr, xs)
    ensures exists am | am in xs :: GetMonthAbbr(am) == m
  {
    var k :| 0 <= k < |xs| && Map(GetMonthAbbr, xs)[k] == m;
    assert xs[k] in xs;
  }

  /** Whenever the effect prunes, every month it keeps is one the calendar shows as available. */
  lemma PrunedMonthsAvailable(f: Form, listings: seq<HotelListing>)
    requires f.listingId != "" && FindListing(listings, f.listingId).Some?
    requires CurrentAvailable(FindListing(listings, f.listingId).value, f.collaborationType) != []
    ensures forall m | m in PruneMonths(f, listings).preferredMonths :: IsMonthAvailable(listings, PruneMonths(f, listings), m)
  {
    var l := FindListing(listings, f.listingId).value;
    forall m | m in PruneMonths(f, listings).preferredMonths ensures IsMonthAvailable(listings, PruneMonths(f, listings), m) {
      if f.collaborationType != "" {
        InMapped(FindOffering(l, f.collaborationType).value.availability, m);
      } else {
        InMapped(l.availableMonths, m);
      }
    }
  }

  const ContentPackage := "Content Package"

  /** `platformMatch(list, key)`: an entry equal ignoring case, or `YT`/`youtube` in any case for YouTube. */
  predicate PlatformMatch(list: seq<string>, key: string) {
    exists item | item in list ::
      ToLower(item) == ToLower(key)
      || (key == "YouTube" && ToUpper(item) == "YT")
      || (key == "YouTube" && ToLower(item) == "youtube")
  }

  /** `filterPlatforms(p)`: the content package always, everything for a creator listing nothing. */
  predicate FilterPlatforms(creator: seq<string>, p: string) {
    p == ContentPackage || |creator| == 0 || PlatformMatch(creator, p)
  }

  /** The filter's cases: the content package and an empty creator list pass everything, an exact entry passes. */
  lemma FilterPlatformsFacts(creator: seq<string>, p: string)
    ensures FilterPlatforms(creator, ContentPackage)
    ensures |creator| == 0 ==> FilterPlatforms(creator, p)
    ensures p in creator ==> FilterPlatforms(creator, p)
    ensures p != ContentPackage && |creator| > 0 ==> (FilterPlatforms(creator, p) <==> PlatformMatch(creator, p))
  {
  }

  /**
   * The two modals match YouTube differently: here a lower-case `yt` entry offers YouTube,
   * while the application modal accepts only the exact entry `YT`.
   */
  lemma LowerCaseYtDiffers()
    ensures FilterPlatforms(["yt"], "YouTube")
    ensures !ApplicationModal.PlatformMatch(["yt"], "YouTube")
  {
    assert ToUpper("yt") == "YT";
    assert "yt" in ["yt"];
    assert ToLower("yt") != ToLower("YouTube") by {
      assert |ToLower("yt")| != |ToLower("YouTube")|;
    }
  }

  /** `handleMonthToggle(month)`. */
  function MonthToggle(f: Form, month: string): (r: Form)
    ensures month in r.preferredMonths <==> month !in f.preferredMonths
    ensures forall m | m != month :: m in r.preferredMonths <==> m in f.preferredMonths
    ensures r == f.(preferredMonths := r.preferredMonths)
  {
    f.(preferredMonths := Toggle(f.preferredMonths, month))
  }

  /** Toggling a month twice gives back the preferred months it started from. */
  lemma MonthToggleTwice(f: Form, month: string)
    requires month !in f.preferredMonths
    ensures MonthToggle(MonthToggle(f, month), month) == f
  {
    ToggleTwiceFromAbsent(f.preferredMonths, month);
  }

  /** The data handed to `onSubmit`. */
  datatype Invitation = Invitation(
    listingId: string, collaborationType: string,
    freeStayMinNights: Option<int>, freeStayMaxNights: Option<int>, paidAmount: Option<int>, discountPercentage: Option<int>,
    preferredDateFrom: Option<string>, preferredDateTo: Option<string>, preferredMonths: seq<string>,
    platformDeliverables: seq<Entry>, message: Option<string>)

  /** A platform entry with at least one deliverable. */
  predicate HasDeliverables(e: Entry) {
    |e.deliverables| > 0
  }

  /**
   * `handleSubmit()`: without a listing, a type and a platform with deliverables nothing
   * happens; otherwise the invitation is sent with only the non-empty platform entries,
   * blank dates and message left out and the message trimmed, and the form is reset.
   */
  function Submit(f: Form): (r: (Form, Option<Invitation>))
    ensures r.1.None? <==> f.listingId == "" || f.collaborationType == "" || Filter(HasDeliverables, f.deliverables.entries) == []
    ensures r.1.None? ==> r.0 == f
    ensures r.1.Some? ==>
      var i := r.1.value;
      && r.0 == Initial
      && i.listingId == f.listingId && i.collaborationType == f.collaborationType
      && i.freeStayMinNights == f.freeStayMinNights && i.freeStayMaxNights == f.freeStayMaxNights
      && i.paidAmount == f.paidAmount && i.discountPercentage == f.discountPercentage
      && i.preferredMonths == f.preferredMonths
      && i.platformDeliverables == Filter(HasDeliverables, f.deliverables.entries)
      && (forall e | e in i.platformDeliverables :: e in f.deliverables.entries && |e.deliverables| > 0)
      && (i.preferredDateFrom.None? <==> f.preferredDateFrom == "")
      && (i.preferredDateFrom.Some? ==> i.preferredDateFrom.value == f.preferredDateFrom)
      && (i.preferredDateTo.None? <==> f.preferredDateTo == "")
      && (i.preferredDateTo.Some? ==> i.preferredDateTo.value == f.preferredDateTo)
      && (i.message.None? <==> IsBlank(f.message))
      && (i.message.Some? ==> i.message.value == Trim(f.message))
  {
    var valid := Filter(HasDeliverables, f.deliverables.entries);
    if f.listingId == "" || f.collaborationType == "" || valid == [] then (f, None)
    else
      (Initial, Some(Invitation(f.listingId, f.collaborationType,
        f.freeStayMinNights, f.freeStayMaxNights, f.paidAmount, f.discountPercentage,
        OrUndefined(f.preferredDateFrom), OrUndefined(f.preferredDateTo), f.preferredMonths,
        valid, OrUndefined(Trim(f.message)))))
  }

  /** `handleCancel()`: every field returns to its initial value. */
  function Cancel(f: Form): (r: Form)
    ensures r == Initial
    ensures r.deliverables == Reset(f.deliverables)
  {
    f.(listingId := "", collaborationType := "", freeStayMinNights := None, freeStayMaxNights := None,
      paidAmount := None, discountPercentage := None, preferredDateFrom := "", preferredDateTo := "",
      preferredMonths := [], deliverables := Reset(f.deliverables), message := "")
  }

  /** The reset after a submit is the state a cancel produces. */
  lemma SubmitResetsLikeCancel(f: Form)
    requires Submit(f).1.Some?
    ensures Submit(f).0 == Cancel(f)
  {
  }
}

=== FILE: listing.dfy ===
/**
 * `ListingFormData`: the editable record of one property listing, shared by the
 * profile-completion wizard, the profile editor and the offerings panel. Fields are
 * addressed by name, as `updateListing(index, field, value)` does.
 */
module Listings {
  import opened Wrappers
  import ImageUpload

  datatype Listing = Listing(
    name: string,
    location: string,
    description: string,
    accommodationType: string,
    images: seq<string>,
    imageFiles: seq<ImageUpload.File>,
    collaborationTypes: seq<string>,
    availability: seq<string>,
    platforms: seq<string>,
    freeStayMinNights: Option<int>,
    freeStayMaxNights: Option<int>,
    paidMaxAmount: Option<int>,
    discountPercentage: Option<int>,
    lookingForPlatforms: seq<string>,
    lookingForMinFollowers: Option<int>,
    targetGroupCountries: seq<string>,
    targetGroupAgeMin: Option<int>,
    targetGroupAgeMax: Option<int>,
    targetGroupAgeGroups: seq<string>)

  /** The keys of `ListingFormData`. */
  datatype Field =
    | Name | Location | Description | AccommodationType | Images | ImageFiles
    | CollaborationTypes | Availability | Platforms
    | FreeStayMinNights | FreeStayMaxNights | PaidMaxAmount | DiscountPercentage
    | LookingForPlatforms | LookingForMinFollowers
    | TargetGroupCountries | TargetGroupAgeMin | TargetGroupAgeMax | TargetGroupAgeGroups

  /** A field value: a string, a string list, an optional number or a file list. */
  datatype Value = Str(s: string) | Strs(ss: seq<string>) | Num(n: Option<int>) | Files(fs: seq<ImageUpload.File>)

  /** The value fits the field's declared type. */
  predicate Fits(f: Field, v: Value) {
    match f
    case Name | Location | Description | AccommodationType => v.Str?
    case ImageFiles => v.Files?
    case FreeStayMinNights | FreeStayMaxNights | PaidMaxAmount | DiscountPercentage
       | LookingForMinFollowers | TargetGroupAgeMin | TargetGroupAgeMax => v.Num?
    case _ => v.Strs?
  }

  /** `listing[f]`. */
  function Get(l: Listing, f: Field): (v: Value)
    ensures Fits(f, v)
  {
    match f
    case Name => Str(l.name)
    case Location => Str(l.location)
    case Description => Str(l.description)
    case AccommodationType => Str(l.accommodationType)
    case Images => Strs(l.images)
    case ImageFiles => Files(l.imageFiles)
    case CollaborationTypes => Strs(l.collaborationTypes)
    case Availability => Strs(l.availability)
    case Platforms => Strs(l.platforms)
    case FreeStayMinNights => Num(l.freeStayMinNights)
    case FreeStayMaxNights => Num(l.freeStayMaxNights)
    case PaidMaxAmount => Num(l.paidMaxAmount)
    case DiscountPercentage => Num(l.discountPercentage)
    case LookingForPlatforms => Strs(l.lookingForPlatforms)
    case LookingForMinFollowers => Num(l.lookingForMinFollowers)
    case TargetGroupCountries => Strs(l.targetGroupCountries)
    case TargetGroupAgeMin => Num(l.targetGroupAgeMin)
    case TargetGroupAgeMax => Num(l.targetGroupAgeMax)
    case TargetGroupAgeGroups => Strs(l.targetGroupAgeGroups)
  }

  /** `{ ...listing, [f]: v }`: field `f` reads `v` afterwards and every other field is unchanged. */
  function Set(l: Listing, f: Field, v: Value): (r: Listing)
    requires Fits(f, v)
    ensures Get(r, f) == v
    ensures forall g | g != f :: Get(r, g) == Get(l, g)
  {
    match f
    case Name => l.(name := v.s)
    case Location => l.(location := v.s)
    case Description => l.(description := v.s)
    case AccommodationType => l.(accommodationType := v.s)
    case Images => l.(images := v.ss)
    case ImageFiles => l.(imageFiles := v.fs)
    case CollaborationTypes => l.(collaborationTypes := v.ss)
    case Availability => l.(availability := v.ss)
    case Platforms => l.(platforms := v.ss)
    case FreeStayMinNights => l.(freeStayMinNights := v.n)
    case FreeStayMaxNights => l.(freeStayMaxNights := v.n)
    case PaidMaxAmount => l.(paidMaxAmount := v.n)
    case DiscountPercentage => l.(discountPercentage := v.n)
    case LookingForPlatforms => l.(lookingForPlatforms := v.ss)
    case LookingForMinFollowers => l.(lookingForMinFollowers := v.n)
    case TargetGroupCountries => l.(targetGroupCountries := v.ss)
    case TargetGroupAgeMin => l.(targetGroupAgeMin := v.n)
    case TargetGroupAgeMax => l.(targetGroupAgeMax := v.n)
    case TargetGroupAgeGroups => l.(targetGroupAgeGroups := v.ss)
  }

  /** Writing back the value a field already has changes nothing. */
  lemma SetOwnValue(l: Listing, f: Field)
    ensures Set(l, f, Get(l, f)) == l
  {
  }

  /** Writing a field twice keeps only the second value. */
  lemma SetTwice(l: Listing, f: Field, v: Value, w: Value)
    requires Fits(f, v) && Fits(f, w)
    ensures Set(Set(l, f, v), f, w) == Set(l, f, w)
  {
  }

  /** The empty listing form, with the given location. */
  function Empty(location: string): (r: Listing)
    ensures r.location == location
    ensures forall f | f != Location :: Get(r, f) == (match f
      case Name | Description | AccommodationType => Str("")
      case ImageFiles => Files([])
      case FreeStayMinNights | FreeStayMaxNights | PaidMaxAmount | DiscountPercentage
         | LookingForMinFollowers | TargetGroupAgeMin | TargetGroupAgeMax => Num(None)
      case _ => Strs([]))
  {
    Listing("", location, "", "", [], [], [], [], [], None, None, None, None, [], None, [], None, None, [])
  }

  /** The images and the files they were read from line up position by position. */
  predicate Aligned(l: Listing) {
    |l.images| == |l.imageFiles| && forall i | 0 <= i < |l.images| :: l.images[i] == l.imageFiles[i].dataUrl
  }
}

=== FILE: listing_offerings.dfy ===
/**
 * `ListingOfferings`: the offerings panel of one listing in the hotel wizard: the
 * collaboration types with their terms, the months of availability with an "All Year"
 * switch, and the platforms the hotel wants content on.
 */
module ListingOfferings {
  import opened Wrappers
  import opened Seqs
  import opened Text
  import opened Options
  import opened Listings

  /**
   * A checkbox's `onChange`: checking appends the item, unchecking removes every copy of it;
   * the other items keep their count.
   */
  function Check(xs: seq<string>, item: string, checked: bool): (r: seq<string>)
    ensures checked ==> r == xs + [item] && multiset(r)[item] == multiset(xs)[item] + 1
    ensures !checked ==> item !in r
    ensures forall y | y != item :: multiset(r)[y] == multiset(xs)[y]
  {
    if checked then xs + [item] else RemoveAll(xs, item)
  }

  /**
   * A checkbox is drawn checked when its item is listed, so a click checks an absent item
   * and unchecks a present one: the click is the list toggle.
   */
  lemma ClickToggles(xs: seq<string>, item: string)
    ensures Check(xs, item, item !in xs) == Toggle(xs, item)
  {
  }

  /** Unchecking right after checking an absent item gives back the list. */
  lemma CheckThenUncheck(xs: seq<string>, item: string)
    requires item !in xs
    ensures Check(Check(xs, item, true), item, false) == xs
  {
    ToggleTwiceFromAbsent(xs, item);
  }

  /** A collaboration-type checkbox. */
  function CheckType(l: Listing, kind: string, checked: bool): (r: Listing)
    ensures kind in r.collaborationTypes <==> checked
    ensures forall t | t != kind :: t in r.collaborationTypes <==> t in l.collaborationTypes
    ensures r.(collaborationTypes := l.collaborationTypes) == l
  {
    var ts := Check(l.collaborationTypes, kind, checked);
    assert checked ==> kind in multiset(ts);
    assert forall t | t != kind :: t in ts <==> t in multiset(ts);
    l.(collaborationTypes := ts)
  }

  /** A month checkbox. */
  function CheckMonth(l: Listing, month: string, checked: bool): (r: Listing)
    ensures month in r.availability <==> checked
    ensures forall m | m != month :: m in r.availability <==> m in l.availability
    ensures r.(availability := l.availability) == l
  {
    var ms := Check(l.availability, month, checked);
    assert checked ==> month in multiset(ms);
    assert forall m | m != month :: m in ms <==> m in multiset(ms);
    l.(availability := ms)
  }

  /** A platform checkbox. */
  function CheckPlatform(l: Listing, platform: string, checked: bool): (r: Listing)
    ensures platform in r.platforms <==> checked
    ensures forall p | p != platform :: p in r.platforms <==> p in l.platforms
    ensures r.(platforms := l.platforms) == l
  {
    var ps := Check(l.platforms, platform, checked);
    assert checked ==> platform in multiset(ps);
    assert forall p | p != platform :: p in ps <==> p in multiset(ps);
    l.(platforms := ps)
  }

  /** Whether the detail section of a collaboration type is shown. */
  predicate SectionShown(l: Listing, kind: string) {
    kind in l.collaborationTypes
  }

  /** A type's terms appear when its box is checked and disappear when it is unchecked; other sections stay. */
  lemma SectionFollowsCheckbox(l: Listing, kind: string, checked: bool, other: string)
    ensures SectionShown(CheckType(l, kind, checked), kind) <==> checked
    ensures other != kind ==> (SectionShown(CheckType(l, kind, checked), other) <==> SectionShown(l, other))
  {
  }

  /** Every month of the year is available. */
  predicate AllYearSelected(availability: seq<string>) {
    forall m | m in MonthsFull :: m in availability
  }

  /** The "All Year" button: all twelve months when some month is missing, none when all are there. */
  function AllYear(l: Listing): (r: Listing)
    ensures AllYearSelected(l.availability) ==> r.availability == []
    ensures !AllYearSelected(l.availability) ==> r.availability == MonthsFull
    ensures AllYearSelected(r.availability) <==> !AllYearSelected(l.availability)
    ensures r.(availability := l.availability) == l
  {
    assert "January" in MonthsFull;
    if AllYearSelected(l.availability) then l.(availability := []) else l.(availability := MonthsFull)
  }

  /** Two presses of "All Year" from a full year empty the year and then fill it again. */
  lemma AllYearTwice(l: Listing)
    ensures !AllYearSelected(l.availability) ==> AllYear(AllYear(l)).availability == []
    ensures AllYearSelected(l.availability) ==> AllYear(AllYear(l)).availability == MonthsFull
  {
  }

  /**
   * The min- and max-nights inputs: empty or unparsable gives no value, anything else its
   * `parseInt` value raised to at least 1.
   */
  function NightsInput(value: string): (r: Option<int>)
    ensures r.None? <==> value == "" || ParseInt(value).None?
    ensures r.Some? ==> r.value >= 1
    ensures r.Some? ==> r.value == if ParseInt(value).value < 1 then 1 else ParseInt(value).value
  {
    if value == "" then None
    else match ParseInt(value)
      case None => None
      case Some(n) => Some(if n < 1 then 1 else n)
  }

  /** Typing a positive count stores that count, and a decimal is cut at its point. */
  lemma NightsExamples(n: nat)
    requires n >= 1
    ensures NightsInput(NatToString(n)) == Some(n)
    ensures NightsInput(NatToString(n) + ".5") == Some(n)
    ensures NightsInput(NatToString(0)) == Some(1)
  {
    ParseIntNatToString(n);
    ParseIntNatToString(0);
    ParseIntLeadingNumber(n, ".5");
  }

  /**
   * The paid-amount and discount inputs: `parseInt(value) || undefined`, so both an
   * unparsable value and 0 give no value; a negative value is kept.
   */
  function AmountInput(value: string): (r: Option<int>)
    ensures r.None? <==> ParseInt(value).None? || ParseInt(value).value == 0
    ensures r.Some? ==> r.value == ParseInt(value).value && r.value != 0
  {
    match ParseInt(value)
    case Some(n) => if n == 0 then None else Some(n)
    case None => None
  }

  /** A typed amount is stored as typed, and a typed 0 clears the field. */
  lemma AmountExamples(n: nat)
    requires n >= 1
    ensures AmountInput(NatToString(n)) == Some(n)
    ensures AmountInput(NatToString(0)).None?
  {
    ParseIntNatToString(n);
    ParseIntNatToString(0);
  }
}

=== FILE: local_storage.dfy ===
/**
 * `useLocalStorage`: a value mirrored into one key of the browser's local storage.
 * The storage is a map from key to stored text. How a value is encoded is chosen by
 * the kind of the initial value: strings raw, booleans as `true`/`false`, anything
 * else as JSON text.
 */
module LocalStorage {

  /** A key-value store of strings. */
  type Storage = map<string, string>

  /**
   * A hook value. A non-string, non-boolean value is represented by its JSON text;
   * `parses` (a parameter of the read) says which texts `JSON.parse` accepts.
   */
  datatype Value = Str(s: string) | Bool(b: bool) | Json(text: string)

  predicate SameKind(a: Value, b: Value) {
    (a.Str? && b.Str?) || (a.Bool? && b.Bool?) || (a.Json? && b.Json?)
  }

  /** `String(true)` and `String(false)`. */
  function BoolText(b: bool): (t: string)
    ensures (t == "true") == b
  {
    if b then "true" else "false"
  }

  /** The text written to storage for `v`. */
  function Encode(v: Value): string {
    match v
    case Str(s) => s
    case Bool(b) => BoolText(b)
    case Json(t) => t
  }

  /**
   * `readValue`: the initial value when the key is missing or the stored JSON does not parse;
   * otherwise the stored text decoded according to the kind of the initial value.
   */
  function ReadValue(storage: Storage, key: string, initial: Value, parses: string -> bool): (r: Value)
    ensures SameKind(r, initial)
    ensures key !in storage ==> r == initial
    ensures initial.Json? && key in storage && !parses(storage[key]) ==> r == initial
  {
    if key !in storage then initial
    else
      var item := storage[key];
      match initial
      case Str(_) => Str(item)
      case Bool(_) => Bool(item == "true")
      case Json(_) => if parses(item) then Json(item) else initial
  }

  /** The hook's state: its key, its initial value and the value it currently holds. */
  datatype Hook = Hook(key: string, initial: Value, stored: Value)

  /** The argument of `setValue`: a new value, or a function of the current one. */
  datatype Update = Assign(v: Value) | Apply(f: Value -> Value)

  /** The effect of the mount effect: the hook holds what `readValue` returns. */
  function Mount(h: Hook, storage: Storage, parses: string -> bool): (h': Hook)
    ensures h'.key == h.key && h'.initial == h.initial
    ensures h'.stored == ReadValue(storage, h.key, h.initial, parses)
  {
    h.(stored := ReadValue(storage, h.key, h.initial, parses))
  }

  /** The value `setValue(u)` stores: a function update is applied to the value the hook holds. */
  function NewValue(h: Hook, u: Update): Value {
    match u
    case Assign(v) => v
    case Apply(f) => f(h.stored)
  }

  /** `setValue(u)`: the new value is encoded under the key and held by the hook; no other key changes. */
  function SetValue(h: Hook, storage: Storage, u: Update): (r: (Hook, Storage))
    ensures r.0 == h.(stored := NewValue(h, u))
    ensures h.key in r.1 && r.1[h.key] == Encode(NewValue(h, u))
    ensures forall k | k != h.key :: (k in r.1 <==> k in storage) && (k in storage ==> r.1[k] == storage[k])
  {
    var v := NewValue(h, u);
    (h.(stored := v), storage[h.key := Encode(v)])
  }

  /** `removeValue()`: the key is deleted and the hook falls back to its initial value. */
  function RemoveValue(h: Hook, storage: Storage): (r: (Hook, Storage))
    ensures r.0 == h.(stored := h.initial)
    ensures h.key !in r.1
    ensures forall k | k != h.key :: (k in r.1 <==> k in storage) && (k in storage ==> r.1[k] == storage[k])
  {
    (h.(stored := h.initial), storage - {h.key})
  }

  /** A string written by `setValue` is read back unchanged. */
  lemma StringRoundTrip(h: Hook, storage: Storage, s: string, parses: string -> bool)
    requires h.initial.Str?
    ensures ReadValue(SetValue(h, storage, Assign(Str(s))).1, h.key, h.initial, parses) == Str(s)
  {
  }

  /** A boolean written by `setValue` is read back unchanged. */
  lemma BoolRoundTrip(h: Hook, storage: Storage, b: bool, parses: string -> bool)
    requires h.initial.Bool?
    ensures ReadValue(SetValue(h, storage, Assign(Bool(b))).1, h.key, h.initial, parses) == Bool(b)
  {
  }

  /** A value of the initial value's kind survives a write and a remount, given that JSON text the hook wrote parses. */
  lemma SetThenMount(h: Hook, storage: Storage, u: Update, parses: string -> bool)
    requires SameKind(NewValue(h, u), h.initial)
    requires NewValue(h, u).Json? ==> parses(NewValue(h, u).text)
    ensures Mount(SetValue(h, storage, u).0, SetValue(h, storage, u).1, parses) == SetValue(h, storage, u).0
  {
  }

  /** After `removeValue`, a remount reads the initial value. */
  lemma RemoveThenMount(h: Hook, storage: Storage, parses: string -> bool)
    ensures Mount(RemoveValue(h, storage).0, RemoveValue(h, storage).1, parses) == RemoveValue(h, storage).0
  {
  }

  /** A boolean hook reads any stored text other than `true` as false. */
  lemma BoolReadsOnlyTrue(storage: Storage, key: string, initial: bool, parses: string -> bool)
    requires key in storage
    ensures ReadValue(storage, key, Bool(initial), parses) == Bool(storage[key] == "true")
  {
  }
}

=== FILE: months.dfy ===
/**
 * Month-name normalisation: German or English month names become the
 * English three-letter abbreviation; anything else is cut to its first three characters.
 */
module Months {
  import opened Seqs
  import opened Text
  import opened Options

  /**
   * The abbreviation table. The March key is stored double-encoded in the source file:
   * the two characters U+00C3 U+00A4 stand where the umlaut `ä` was meant.
   */
  const MonthAbbreviations: map<string, string> := map[
    "Januar" := "Jan", "Februar" := "Feb", "M\U{C3}\U{A4}rz" := "Mar", "April" := "Apr",
    "Mai" := "May", "Juni" := "Jun", "Juli" := "Jul", "August" := "Aug",
    "September" := "Sep", "Oktober" := "Oct", "November" := "Nov", "Dezember" := "Dec",
    "January" := "Jan", "February" := "Feb", "March" := "Mar", "May" := "May",
    "June" := "Jun", "July" := "Jul", "October" := "Oct", "December" := "Dec"
  ]

  /** The abbreviation of `month`: the table entry, else its first three characters. */
  function GetMonthAbbr(month: string): (r: string)
    ensures month in MonthAbbreviations ==> r in MonthsAbbr && r == MonthAbbreviations[month]
    ensures month !in MonthAbbreviations ==> StartsWith(month, r) && |r| == if |month| < 3 then |month| else 3
    ensures |r| <= 3
  {
    if month in MonthAbbreviations then MonthAbbreviations[month] else Prefix(month, 3)
  }

  /** Every English month name abbreviates to the abbreviation at the same position. */
  lemma FullNamesAbbreviate()
    ensures forall i | 0 <= i < 12 :: GetMonthAbbr(MonthsFull[i]) == MonthsAbbr[i]
  {
    MonthTablesAligned();
  }

  /** Every abbreviation is its own abbreviation. */
  lemma AbbreviationsFixed()
    ensures forall a | a in MonthsAbbr :: GetMonthAbbr(a) == a
  {
  }

  /** The German month names as the table spells them, March included in its stored form. */
  const GermanMonths: seq<string> := [
    "Januar", "Februar", "M\U{C3}\U{A4}rz", "April", "Mai", "Juni",
    "Juli", "August", "September", "Oktober", "November", "Dezember"]

  /** The German name of month `i` abbreviates to that month's English abbreviation. */
  lemma GermanNameAt(i: int)
    requires 0 <= i < 12
    ensures GetMonthAbbr(GermanMonths[i]) == MonthsAbbr[i]
  {
    var g := GermanMonths[i];
    assert g in MonthAbbreviations;
  }

  /** Every German name, as the table spells it, maps to the English abbreviation of the same month. */
  lemma GermanNames()
    ensures forall i | 0 <= i < 12 :: GetMonthAbbr(GermanMonths[i]) == MonthsAbbr[i]
    ensures GetMonthAbbr("Mai") == "May"
    ensures GetMonthAbbr("Oktober") == "Oct"
    ensures GetMonthAbbr("Dezember") == "Dec"
  {
    forall i | 0 <= i < 12 ensures GetMonthAbbr(GermanMonths[i]) == MonthsAbbr[i] {
      GermanNameAt(i);
    }
    GermanNameAt(4);
    GermanNameAt(9);
    GermanNameAt(11);
  }

  /** Because the table key is double-encoded, a correctly spelled `März` misses the table and is cut to `Mär`. */
  lemma MaerzFallsBack()
    ensures "M\U{E4}rz" !in MonthAbbreviations
    ensures GetMonthAbbr("M\U{E4}rz") == "M\U{E4}r"
  {
    assert "M\U{E4}rz"[..3] == "M\U{E4}r";
  }

  /** The only table keys of at most three characters are `Mai` and `May`. */
  lemma ShortKeys(k: string)
    requires k in MonthAbbreviations && |k| <= 3
    ensures k == "Mai" || k == "May"
  {
  }

  /**
   * Normalising twice is normalising once, except when the first pass yields `Mai`
   * (a four-or-more character input beginning with `Mai`), which the table then turns into `May`.
   */
  lemma GetMonthAbbrIdempotent(month: string)
    requires GetMonthAbbr(month) != "Mai"
    ensures GetMonthAbbr(GetMonthAbbr(month)) == GetMonthAbbr(month)
  {
    var r := GetMonthAbbr(month);
    if month !in MonthAbbreviations && r in MonthAbbreviations {
      ShortKeys(r);
    }
  }

  /** The exception is real: `Maix` normalises to `Mai` and then to `May`. */
  lemma GetMonthAbbrNotIdempotent()
    ensures GetMonthAbbr("Maix") == "Mai" && GetMonthAbbr("Mai") == "May"
  {
    assert "Maix"[..3] == "Mai";
  }

  /** `months.map(getMonthAbbr).join(", ")`. */
  function FormatMonthsAbbr(months: seq<string>): (r: string)
    ensures |months| == 0 ==> r == ""
    ensures |months| == 1 ==> r == GetMonthAbbr(months[0])
    ensures |months| > 1 ==> r == GetMonthAbbr(months[0]) + ", " + FormatMonthsAbbr(months[1..])
  {
    var abbrs := Map(GetMonthAbbr, months);
    if |months| > 1 then
      assert abbrs[1..] == Map(GetMonthAbbr, months[1..]);
      Join(abbrs, ", ")
    else Join(abbrs, ", ")
  }
}

=== FILE: options.dfy ===
/**
 * The option constants shared by the forms and the marketplace: month names,
 * platform lists, collaboration types and the deliverables offered per platform.
 */
module Options {
  import opened Seqs

  /** The English month names, January first. */
  const MonthsFull: seq<string> := [
    "January", "February", "March", "April", "May", "June",
    "July", "August", "September", "October", "November", "December"
  ]

  /** The three-letter month abbreviations, January first. */
  const MonthsAbbr: seq<string> := [
    "Jan", "Feb", "Mar", "Apr", "May", "Jun",
    "Jul", "Aug", "Sep", "Oct", "Nov", "Dec"
  ]

  /** The base platforms a creator can list. */
  const PlatformOptions: seq<string> := ["Instagram", "TikTok", "YouTube", "Facebook"]

  /** The platforms a collaboration can ask deliverables for. */
  const PlatformOptionsWithContent: seq<string> :=
    ["Instagram", "Facebook", "TikTok", "YouTube", "Content Package"]

  /** Every platform, including the free-form `Custom` entry. */
  const PlatformOptionsAll: seq<string> :=
    ["Instagram", "TikTok", "YouTube", "Facebook", "Content Package", "Custom"]

  const FreeStay: string := "Free Stay"
  const Paid: string := "Paid"
  const Discount: string := "Discount"

  /** The collaboration types a hotel can offer. */
  const CollaborationTypes: seq<string> := [FreeStay, Paid, Discount]

  /** The deliverable names offered for each platform. */
  const PlatformDeliverables: map<string, seq<string>> := map[
    "Instagram" := ["Instagram Post", "Instagram Stories", "Instagram Reel"],
    "Facebook" := ["Facebook Post", "Facebook Stories", "Facebook Reel"],
    "TikTok" := ["TikTok Video"],
    "YouTube" := ["YouTube Video", "YouTube Shorts"],
    "Content Package" := ["Photos", "Videos"],
    "Custom" := ["Custom Deliverable"]
  ]

  /** The month tables have twelve entries and each abbreviation is the three-letter prefix of its month. */
  lemma MonthTablesAligned()
    ensures |MonthsFull| == 12 && |MonthsAbbr| == 12
    ensures forall i | 0 <= i < 12 :: |MonthsFull[i]| >= 3 && MonthsAbbr[i] == MonthsFull[i][..3]
  {
  }

  /** No month name or abbreviation occurs twice. */
  lemma MonthNamesDistinct()
    ensures NoDup(MonthsAbbr)
    ensures NoDup(MonthsFull)
  {
    assert forall i | 0 <= i < 12 :: MonthsFull[i][..3] == MonthsAbbr[i];
  }

  /** The platform lists have no duplicates and each list extends the previous one. */
  lemma PlatformListsNested()
    ensures NoDup(PlatformOptions) && NoDup(PlatformOptionsWithContent) && NoDup(PlatformOptionsAll)
    ensures forall p | p in PlatformOptions :: p in PlatformOptionsWithContent
    ensures forall p | p in PlatformOptionsWithContent :: p in PlatformOptionsAll
  {
  }

  /** Every collaboration platform, and `Custom`, offers at least one deliverable. */
  lemma DeliverablesCoverPlatforms()
    ensures forall p | p in PlatformOptionsAll :: p in PlatformDeliverables && |PlatformDeliverables[p]| > 0
  {
  }

  /** There are exactly three distinct collaboration types. */
  lemma ThreeCollaborationTypes()
    ensures |CollaborationTypes| == 3 && NoDup(CollaborationTypes)
    ensures forall t :: t in CollaborationTypes <==> t == FreeStay || t == Paid || t == Discount
  {
  }
}

=== FILE: platform_card.dfy ===
/**
 * `PlatformCard`: one card per social platform in the creator wizard, listing every
 * account of that platform. The card's rows are addressed by their position among the
 * platform's accounts, and mapped back to positions in the whole platform list.
 */
module PlatformCard {
  import opened Wrappers
  import opened Seqs
  import opened Text
  import CreatorProfileEdit

  /** A number input's value: `''`, or what `parseInt` gave (`None` for `NaN`). */
  datatype NumberInput = BlankNumber | Parsed(value: Option<int>)

  /** The engagement input's value: `''`, or the text handed to `parseFloat`. */
  datatype RateInput = BlankRate | RateText(text: string)

  /** `PlatformFormData`: one account as the wizard edits it. */
  datatype PlatformForm = PlatformForm(
    name: string, handle: string, followers: NumberInput, engagementRate: RateInput,
    topCountries: seq<CreatorProfileEdit.CountryShare>, topAgeGroups: seq<CreatorProfileEdit.AgeGroup>,
    genderSplit: Option<CreatorProfileEdit.GenderSplit>)

  /** `allPlatforms.filter(p => p.name === name).length`: how many accounts of the platform the list holds. */
  function Count(all: seq<PlatformForm>, name: string): nat {
    if |all| == 0 then 0
    else (if all[0].name == name then 1 else 0) + Count(all[1..], name)
  }

  function Succ(i: nat): nat {
    i + 1
  }

  /**
   * `allPlatforms.map((p, i) => p.name === name ? i : -1).filter(i => i !== -1)`: the
   * positions of the platform's accounts, in order.
   */
  function Indices(all: seq<PlatformForm>, name: string): (r: seq<nat>)
    ensures |r| == Count(all, name)
  {
    if |all| == 0 then []
    else
      var rest := Map(Succ, Indices(all[1..], name));
      if all[0].name == name then [0] + rest else rest
  }

  /** The `k`-th position is an account of the platform with exactly `k` accounts of it before it. */
  lemma {:induction false} IndexAt(all: seq<PlatformForm>, name: string, k: nat)
    requires k < |Indices(all, name)|
    ensures var i := Indices(all, name)[k];
      i < |all| && all[i].name == name && Count(all[..i], name) == k
  {
    var tail := Indices(all[1..], name);
    if all[0].name == name && k == 0 {
      assert all[..0] == [];
    } else {
      var j := if all[0].name == name then k - 1 else k;
      IndexAt(all[1..], name, j);
      var t := tail[j];
      assert Indices(all, name)[k] == t + 1;
      assert all[..t + 1][1..] == all[1..][..t];
    }
  }

  /** `actualIndex`: the position in the whole list of the platform's `idx`-th account, if there is one. */
  function ActualIndex(all: seq<PlatformForm>, name: string, idx: int): (r: Option<nat>)
    ensures r.None? <==> !(0 <= idx < Count(all, name))
    ensures r.Some? ==> r.value < |all| && all[r.value].name == name && Count(all[..r.value], name) == idx
  {
    var ixs := Indices(all, name);
    if 0 <= idx < |ixs| then IndexAt(all, name, idx); Some(ixs[idx]) else None
  }

  /** The position the characterisation picks out is unique: at most one account has `idx` accounts of its platform before it. */
  lemma {:induction false} OccurrenceUnique(all: seq<PlatformForm>, name: string, i: nat, j: nat)
    requires i < j < |all| && all[i].name == name && all[j].name == name
    ensures Count(all[..i], name) < Count(all[..j], name)
  {
    CountPrefixGrows(all, name, i, j);
  }

  lemma {:induction false} CountPrefixGrows(all: seq<PlatformForm>, name: string, i: nat, j: nat)
    requires i < j <= |all| && all[i].name == name
    ensures Count(all[..i], name) < Count(all[..j], name)
    decreases j - i
  {
    if j == i + 1 {
      CountSnoc(all[..i], all[i], name);
      assert all[..i] + [all[i]] == all[..j];
    } else {
      CountPrefixGrows(all, name, i, j - 1);
      CountSnoc(all[..j - 1], all[j - 1], name);
      assert all[..j - 1] + [all[j - 1]] == all[..j];
    }
  }

  lemma {:induction false} CountSnoc(xs: seq<PlatformForm>, x: PlatformForm, name: string)
    ensures Count(xs + [x], name) == Count(xs, name) + (if x.name == name then 1 else 0)
  {
    if |xs| > 0 {
      assert (xs + [x])[1..] == xs[1..] + [x];
      CountSnoc(xs[1..], x, name);
    } else {
      assert xs + [x] == [x];
    }
  }

  /**
   * The Remove button of the `idx`-th account: exactly that entry leaves the list; a
   * position past the platform's accounts removes nothing.
   */
  function RemoveOccurrence(all: seq<PlatformForm>, name: string, idx: int): (r: seq<PlatformForm>)
    ensures ActualIndex(all, name, idx).None? ==> r == all
    ensures ActualIndex(all, name, idx).Some? ==>
      var k := ActualIndex(all, name, idx).value;
      r == all[..k] + all[k + 1..]
  {
    match ActualIndex(all, name, idx)
    case None => all
    case Some(k) => RemoveAt(all, k)
  }

  /** Removing an existing account leaves the platform with one account fewer and the other platforms as they were. */
  lemma RemoveOccurrenceCount(all: seq<PlatformForm>, name: string, idx: int, other: string)
    requires 0 <= idx < Count(all, name)
    ensures Count(RemoveOccurrence(all, name, idx), name) + 1 == Count(all, name)
    ensures other != name ==> Count(RemoveOccurrence(all, name, idx), other) == Count(all, other)
  {
    var k := ActualIndex(all, name, idx).value;
    assert all[..k] + [all[k]] + all[k + 1..] == all;
    CountSnoc(all[..k], all[k], name);
    CountAppend(all[..k] + [all[k]], all[k + 1..], name);
    CountAppend(all[..k], all[k + 1..], name);
    CountSnoc(all[..k], all[k], other);
    CountAppend(all[..k] + [all[k]], all[k + 1..], other);
    CountAppend(all[..k], all[k + 1..], other);
  }

  lemma {:induction false} CountAppend(a: seq<PlatformForm>, b: seq<PlatformForm>, name: string)
    ensures Count(a + b, name) == Count(a, name) + Count(b, name)
  {
    if |a| > 0 {
      assert (a + b)[1..] == a[1..] + b;
      CountAppend(a[1..], b, name);
    } else {
      assert a + b == b;
    }
  }

  /** The words after the count: `account` for one, `accounts` otherwise. */
  function AccountsWords(n: nat): string {
    if n == 1 then " account added" else " accounts added"
  }

  /** The header line under the platform name: shown only when the platform has accounts, and it starts with their number. */
  function AccountsLabel(platforms: seq<PlatformForm>, name: string): (r: Option<string>)
    ensures r.None? <==> Count(platforms, name) == 0
    ensures r.Some? ==> ParseInt(r.value) == Some(Count(platforms, name))
  {
    var n := Count(platforms, name);
    if n == 0 then None
    else
      ParseIntLeadingNumber(n, AccountsWords(n));
      Some(NatToString(n) + AccountsWords(n))
  }

  /** The label reads `account` exactly when the platform has one account. */
  lemma AccountsLabelWord(platforms: seq<PlatformForm>, name: string)
    requires Count(platforms, name) > 0
    ensures var shown := AccountsLabel(platforms, name).value;
      var digits := |NatToString(Count(platforms, name))|;
      Count(platforms, name) == 1 <==> shown[digits..] == " account added"
  {
    var n := Count(platforms, name);
    assert (NatToString(n) + AccountsWords(n))[|NatToString(n)|..] == AccountsWords(n);
  }

  /** An account row's title: its handle, or `Account n` counting the platform's accounts from one. */
  function AccountTitle(handle: string, idx: nat): (r: string)
    ensures handle != "" ==> r == handle
    ensures handle == "" ==> |r| > 8 && r[..8] == "Account " && ParseInt(r[8..]) == Some(idx + 1)
  {
    if handle != "" then handle
    else
      var r := "Account " + NatToString(idx + 1);
      assert r[8..] == NatToString(idx + 1);
      ParseIntNatToString(idx + 1);
      r
  }

  /** The followers input's `onChange`: `''` stays blank, anything else goes through `parseInt`. */
  function FollowersInput(raw: string): (r: NumberInput)
    ensures r.BlankNumber? <==> raw == ""
    ensures r.Parsed? ==> r.value == ParseInt(raw)
  {
    if raw == "" then BlankNumber else Parsed(ParseInt(raw))
  }

  /** Typing back the follower count a field shows gives that count. */
  lemma FollowersRoundTrip(n: nat)
    ensures FollowersInput(NatToString(n)) == Parsed(Some(n))
  {
    ParseIntNatToString(n);
  }

  /** The engagement input's `onChange`: the first decimal comma becomes a point; `''` stays blank. */
  function EngagementInput(raw: string): (r: RateInput)
    ensures r.BlankRate? <==> raw == ""
    ensures r.RateText? ==> |r.text| == |raw|
    ensures r.RateText? && ',' !in raw ==> r.text == raw
    ensures r.RateText? && ',' in raw ==> exists k | 0 <= k < |raw| ::
      raw[k] == ',' && ',' !in raw[..k] && r.text == raw[k := '.']
  {
    var t := ReplaceFirstChar(raw, ',', '.');
    if t == "" then BlankRate else RateText(t)
  }

  /** A decimal comma is read as a point, but only the first one is replaced. */
  lemma EngagementExamples()
    ensures EngagementInput("4,5") == RateText("4.5")
    ensures EngagementInput("1,2,3") == RateText("1.2,3")
  {
    assert "4,5"[1] == ',' && ',' !in "4,5"[..1];
    var r := EngagementInput("4,5").text;
    var k :| 0 <= k < 3 && "4,5"[k] == ',' && ',' !in "4,5"[..k] && r == "4,5"[k := '.'];
    assert k == 1;
    assert "1,2,3"[1] == ',' && ',' !in "1,2,3"[..1];
    var r2 := EngagementInput("1,2,3").text;
    var k2 :| 0 <= k2 < 5 && "1,2,3"[k2] == ',' && ',' !in "1,2,3"[..k2] && r2 == "1,2,3"[k2 := '.'];
    assert k2 == 1;
  }
}

=== FILE: platform_demographics.dfy ===
/**
 * `PlatformDemographics`: the optional audience block of one platform account: country
 * shares, age-group tags and the gender split, with the way its number inputs show and
 * read their values.
 */
module PlatformDemographics {
  import opened Wrappers
  import opened Text
  import CreatorProfileEdit

  /** Every character is `0`. */
  predicate AllZeros(s: string) {
    forall i | 0 <= i < |s| :: s[i] == '0'
  }

  /** The number of `0`s at the start of `s`. */
  function LeadingZeros(s: string): (n: nat)
    ensures n <= |s|
    ensures AllZeros(s[..n])
    ensures n < |s| ==> s[n] != '0'
  {
    if |s| == 0 || s[0] != '0' then 0
    else
      var m := LeadingZeros(s[1..]);
      assert s[..m + 1] == [s[0]] + s[1..][..m];
      m + 1
  }

  /**
   * How many characters the pattern `^0+(?=\d)` removes: the longest run of leading zeros
   * still followed by a digit. A run that reaches the end or a non-digit gives one zero
   * back, which the pattern then matches when that zero is followed by another.
   */
  function ZerosStripped(s: string): (k: nat)
    ensures k < |s| || k == 0
    ensures k > 0 ==> AllZeros(s[..k]) && IsDigit(s[k])
    ensures forall j | k < j < |s| :: !(AllZeros(s[..j]) && IsDigit(s[j]))
  {
    var n := LeadingZeros(s);
    assert forall j | n < j <= |s| :: !AllZeros(s[..j]) by {
      forall j | n < j <= |s| ensures !AllZeros(s[..j]) {
        assert s[..j][n] == s[n];
      }
    }
    if n == 0 then 0
    else if n < |s| && IsDigit(s[n]) then n
    else
      assert s[..n - 1] == s[..n][..n - 1];
      assert s[n - 1] == s[..n][n - 1];
      n - 1
  }

  /**
   * The gender inputs' `onChange`: `''` stays empty, anything else loses its redundant
   * leading zeros; a non-empty value never becomes empty, so the `|| val` fallback is not
   * reached.
   */
  function CleanNumber(val: string): (r: string)
    ensures val == "" <==> r == ""
    ensures |r| <= |val| && r == val[|val| - |r|..]
    ensures AllZeros(val[..|val| - |r|])
    ensures !(|r| >= 2 && r[0] == '0' && IsDigit(r[1]))
    ensures val != "" ==> |val| - |r| == ZerosStripped(val)
  {
    if val == "" then ""
    else
      var k := ZerosStripped(val);
      StrippedRest(val);
      var t := val[k..];
      if t == "" then val else t
  }

  /** What stripping leaves of a non-empty value is non-empty and no longer starts with a zero before a digit. */
  lemma StrippedRest(val: string)
    requires val != ""
    ensures var t := val[ZerosStripped(val)..];
      |t| > 0 && !(|t| >= 2 && t[0] == '0' && IsDigit(t[1]))
  {
    var k := ZerosStripped(val);
    var t := val[k..];
    if |t| >= 2 && t[0] == '0' {
      assert val[..k + 1] == val[..k] + [t[0]];
      assert t[1] == val[k + 1];
    }
  }

  /** Leading zeros add nothing to a number's value. */
  lemma {:induction false} ZerosValue(z: string, rest: string)
    requires AllZeros(z) && AllDigits(rest)
    ensures AllDigits(z + rest) && DigitsValue(z + rest) == DigitsValue(rest)
    decreases |z| + |rest|
  {
    var s := z + rest;
    assert AllDigits(s) by {
      forall i | 0 <= i < |s| ensures IsDigit(s[i]) {
        if i < |z| { assert s[i] == z[i]; } else { assert s[i] == rest[i - |z|]; }
      }
    }
    if |rest| > 0 {
      assert s[..|s| - 1] == z + rest[..|rest| - 1];
      ZerosValue(z, rest[..|rest| - 1]);
    } else if |z| > 0 {
      assert s == z;
      assert z[..|z| - 1] + [] == z[..|z| - 1];
      ZerosValue(z[..|z| - 1], []);
    }
  }

  /** Cleaning a typed number keeps its value. */
  lemma CleanNumberKeepsValue(val: string)
    requires AllDigits(val)
    ensures AllDigits(CleanNumber(val)) && DigitsValue(CleanNumber(val)) == DigitsValue(val)
  {
    var r := CleanNumber(val);
    var k := |val| - |r|;
    assert val == val[..k] + r;
    assert AllDigits(r) by {
      forall i | 0 <= i < |r| ensures IsDigit(r[i]) {
        assert r[i] == val[k + i];
      }
    }
    ZerosValue(val[..k], r);
  }

  /** Cleaning a cleaned value changes nothing. */
  lemma CleanNumberIdempotent(val: string)
    ensures CleanNumber(CleanNumber(val)) == CleanNumber(val)
  {
    var r := CleanNumber(val);
    if r != "" {
      assert ZerosStripped(r) == 0;
      assert r[0..] == r;
    }
  }

  /** Zeros are stripped only where a digit follows: a value of `0`s alone keeps its last zero, and `0.5` keeps its zero. */
  lemma ZerosKeepOne()
    ensures CleanNumber("007") == "7"
    ensures CleanNumber("000") == "0"
    ensures CleanNumber("00a") == "0a"
    ensures CleanNumber("00.5") == "0.5"
    ensures CleanNumber("0") == "0"
  {
    assert ZerosStripped("007") == 2 by {
      assert AllZeros("007"[..2]) && IsDigit("007"[2]);
    }
    assert ZerosStripped("000") == 2 by {
      assert AllZeros("000"[..2]) && IsDigit("000"[2]);
    }
    assert ZerosStripped("00a") == 1 by {
      assert AllZeros("00a"[..1]) && IsDigit("00a"[1]);
      assert "00a"[2] == 'a';
    }
    assert ZerosStripped("00.5") == 1 by {
      assert AllZeros("00.5"[..1]) && IsDigit("00.5"[1]);
      assert "00.5"[2] == '.';
    }
    assert ZerosStripped("0") == 0;
  }

  /**
   * What a percentage input shows: the value when it is positive, otherwise nothing, so a
   * 0 % entry appears blank.
   */
  function PercentShown(p: int): (r: Option<string>)
    ensures r.None? <==> p <= 0
    ensures r.Some? ==> ParseInt(r.value) == Some(p)
  {
    if p > 0 then ParseIntNatToString(p); Some(NatToString(p)) else None
  }

  /**
   * A country-share input's `onChange`: a cleared field is 0, anything else is parsed
   * (`None` standing for `NaN`).
   */
  function PercentEdit(raw: string): (r: Option<int>)
    ensures raw == "" ==> r == Some(0)
    ensures raw != "" ==> r == ParseInt(raw)
  {
    if raw == "" then Some(0) else ParseInt(raw)
  }

  /** Typing back the shown value stores it again, and a cleared field shows blank again. */
  lemma PercentRoundTrip(p: int)
    ensures PercentShown(p).Some? ==> PercentEdit(PercentShown(p).value) == Some(p)
    ensures PercentShown(PercentEdit("").value).None?
  {
    if p > 0 {
      assert NatToString(p) != "";
    }
  }

  /** The warning under the gender inputs: a split whose two sides add up to more than 100. */
  predicate TotalWarning(g: Option<CreatorProfileEdit.GenderSplit>) {
    g.Some? && g.value.male + g.value.female > 100
  }

  /**
   * On an account without a split, setting one side starts the other at 0, so the warning
   * shows exactly when that side alone exceeds 100.
   */
  lemma FirstSideWarning(e: CreatorProfileEdit.Editor, i: int, gender: CreatorProfileEdit.Gender, value: int)
    requires 0 <= i < |e.form.platforms| && e.form.platforms[i].genderSplit.None?
    ensures TotalWarning(CreatorProfileEdit.UpdateGenderSplit(e, i, gender, value).form.platforms[i].genderSplit) <==> value > 100
  {
  }

  /** Whether an age-range tag is drawn as selected: some age group of the account has that range. */
  predicate AgeGroupSelected(p: CreatorProfileEdit.Platform, range: string) {
    CreatorProfileEdit.HasRange(p.topAgeGroups, range)
  }

  /** Clicking a tag flips its selection and leaves every other tag as it was drawn. */
  lemma TagClickFlips(e: CreatorProfileEdit.Editor, i: int, range: string, other: string)
    requires 0 <= i < |e.form.platforms|
    ensures var p := CreatorProfileEdit.ToggleAgeGroupTag(e, i, range).form.platforms[i];
      && (AgeGroupSelected(p, range) <==> !AgeGroupSelected(e.form.platforms[i], range))
      && (other != range ==> (AgeGroupSelected(p, other) <==> AgeGroupSelected(e.form.platforms[i], other)))
  {
    var gs := e.form.platforms[i].topAgeGroups;
    var r := CreatorProfileEdit.ToggleAgeGroup(gs, range);
    if other != range {
      if CreatorProfileEdit.HasRange(gs, other) {
        var g :| g in gs && g.ageRange == other;
        assert g in r;
      }
      if CreatorProfileEdit.HasRange(r, other) {
        var g :| g in r && g.ageRange == other;
        assert g in gs;
      }
    }
  }
}

=== FILE: profile_picture.dfy ===
/**
 * The profile-picture draft both profile editors keep: the chosen file, the preview read
 * from it, and whether the picture dialog is open. A picture reaches the form only when
 * the dialog is confirmed.
 */
module ProfilePicture {
  import opened Wrappers
  import opened Text
  import ImageUpload

  datatype Draft = Draft(file: Option<ImageUpload.File>, preview: Option<string>, showModal: bool)

  /** Nothing chosen, nothing previewed, dialog closed. */
  const Blank := Draft(None, None, false)

  /** The largest accepted file: 5 MiB. */
  const SizeLimit := 5 * 1024 * 1024

  const TooLarge := "Image must be less than 5MB"

  /**
   * `handleImageChange`: the first chosen file is kept when it is an image of at most
   * 5 MiB; once read, its data URL is the preview and the dialog opens. A refused file
   * leaves the draft as it was and yields the error message.
   */
  function Choose(d: Draft, chosen: seq<ImageUpload.File>): (r: (Draft, Option<string>))
    ensures chosen == [] ==> r == (d, None)
    ensures r.1.Some? ==> r.0 == d
    ensures chosen != [] && !StartsWith(chosen[0].mimeType, "image/") ==> r.1 == Some(ImageUpload.TypeError)
    ensures chosen != [] && StartsWith(chosen[0].mimeType, "image/") && chosen[0].size > SizeLimit ==> r.1 == Some(TooLarge)
    ensures r.1.None? && chosen != [] <==>
      chosen != [] && StartsWith(chosen[0].mimeType, "image/") && chosen[0].size <= SizeLimit
    ensures r.1.None? && chosen != [] ==> r.0 == Draft(Some(chosen[0]), Some(chosen[0].dataUrl), true)
  {
    if chosen == [] then (d, None)
    else
      var file := chosen[0];
      if !StartsWith(file.mimeType, "image/") then (d, Some(ImageUpload.TypeError))
      else if file.size > SizeLimit then (d, Some(TooLarge))
      else (Draft(Some(file), Some(file.dataUrl), true), None)
  }

  /** `confirmPicture`: the picture field becomes a non-empty preview, and the dialog closes. */
  function Confirm(d: Draft, picture: string): (r: (Draft, string))
    ensures Truthy(d.preview) ==> r.1 == d.preview.value
    ensures !Truthy(d.preview) ==> r.1 == picture
    ensures r.0 == d.(showModal := false)
  {
    (d.(showModal := false), if Truthy(d.preview) then d.preview.value else picture)
  }

  /** After a save or a cancel the chosen file and its preview are dropped. */
  function Discard(d: Draft): (r: Draft)
    ensures r.file.None? && r.preview.None? && r.showModal == d.showModal
  {
    d.(file := None, preview := None)
  }

  /** An accepted image, once confirmed, is the picture, whatever the field held before. */
  lemma ChosenThenConfirmed(d: Draft, file: ImageUpload.File, rest: seq<ImageUpload.File>, picture: string)
    requires StartsWith(file.mimeType, "image/") && file.size <= SizeLimit && file.dataUrl != ""
    ensures Choose(d, [file] + rest).1.None?
    ensures Confirm(Choose(d, [file] + rest).0, picture) == (Draft(Some(file), Some(file.dataUrl), false), file.dataUrl)
  {
  }

  /** A refused file leaves whatever picture the dialog would confirm unchanged. */
  lemma RefusedKeepsPicture(d: Draft, chosen: seq<ImageUpload.File>, picture: string)
    requires Choose(d, chosen).1.Some?
    ensures Confirm(Choose(d, chosen).0, picture) == Confirm(d, picture)
  {
  }
}

=== FILE: seqs.dfy ===
/** Generic sequence operations that the array methods of the front end reduce to. */
module Seqs {
  import opened Wrappers

  /** No element occurs twice. */
  predicate NoDup<T(==)>(xs: seq<T>) {
    forall i, j | 0 <= i < j < |xs| :: xs[i] != xs[j]
  }

  /** A sequence with a new head has no duplicates iff the head is new and the tail has none. */
  lemma NoDupCons<T>(x: T, ys: seq<T>)
    ensures NoDup([x] + ys) <==> x !in ys && NoDup(ys)
  {
    var xs := [x] + ys;
    if x !in ys && NoDup(ys) {
      forall i, j | 0 <= i < j < |xs| ensures xs[i] != xs[j] {
        if i == 0 { assert xs[j] == ys[j - 1]; } else { assert xs[i] == ys[i - 1] && xs[j] == ys[j - 1]; }
      }
    }
    if NoDup(xs) {
      forall i, j | 0 <= i < j < |ys| ensures ys[i] != ys[j] {
        assert ys[i] == xs[i + 1] && ys[j] == xs[j + 1];
      }
      forall k | 0 <= k < |ys| ensures ys[k] != x {
        assert xs[0] != xs[k + 1];
      }
    }
  }

  /** A sequence with a new last element has no duplicates iff that element is new and the rest has none. */
  lemma NoDupSnoc<T>(xs: seq<T>, y: T)
    ensures NoDup(xs + [y]) <==> y !in xs && NoDup(xs)
  {
    var ys := xs + [y];
    if y !in xs && NoDup(xs) {
      forall i, j | 0 <= i < j < |ys| ensures ys[i] != ys[j] {
        assert ys[i] == xs[i];
      }
    }
    if NoDup(ys) {
      forall i, j | 0 <= i < j < |xs| ensures xs[i] != xs[j] {
        assert xs[i] == ys[i] && xs[j] == ys[j];
      }
      forall k | 0 <= k < |xs| ensures xs[k] != y {
        assert ys[k] != ys[|xs|];
      }
    }
  }

  /** `xs.filter(f)`: keeps the elements satisfying `f`, in order. */
  function Filter<T(!new)>(f: T -> bool, xs: seq<T>): (r: seq<T>)
    ensures |r| <= |xs|
    ensures forall x :: x in r <==> x in xs && f(x)
    ensures forall i | 0 <= i < |r| :: f(r[i])
  {
    if |xs| == 0 then []
    else if f(xs[0]) then [xs[0]] + Filter(f, xs[1..])
    else Filter(f, xs[1..])
  }

  /** `xs.map(f)`. */
  function Map<T, U>(f: T -> U, xs: seq<T>): (r: seq<U>)
    ensures |r| == |xs|
    ensures forall i | 0 <= i < |xs| :: r[i] == f(xs[i])
  {
    seq(|xs|, i requires 0 <= i < |xs| => f(xs[i]))
  }

  /** `xs.filter(y => y !== x)`: every copy of `x` removed. */
  function RemoveAll<T(==,!new)>(xs: seq<T>, x: T): (r: seq<T>)
    ensures x !in r
    ensures forall y | y != x :: multiset(r)[y] == multiset(xs)[y]
    ensures forall y :: y in r <==> y in xs && y != x
    ensures |r| <= |xs|
    ensures x !in xs ==> r == xs
  {
    if |xs| == 0 then []
    else
      assert xs == [xs[0]] + xs[1..];
      if xs[0] == x then RemoveAll(xs[1..], x)
      else [xs[0]] + RemoveAll(xs[1..], x)
  }

  /** `xs.filter((_, i) => i !== k)`: the element at position `k` removed, or `xs` when `k` is out of range. */
  function RemoveAt<T>(xs: seq<T>, k: int): (r: seq<T>)
    ensures 0 <= k < |xs| ==> |r| == |xs| - 1
    ensures 0 <= k < |xs| ==> forall i | 0 <= i < k :: r[i] == xs[i]
    ensures 0 <= k < |xs| ==> forall i | k <= i < |r| :: r[i] == xs[i + 1]
    ensures !(0 <= k < |xs|) ==> r == xs
  {
    if 0 <= k < |xs| then xs[..k] + xs[k + 1..] else xs
  }

  /** `prev.includes(x) ? prev.filter(y => y !== x) : [...prev, x]`. */
  function Toggle<T(==,!new)>(xs: seq<T>, x: T): (r: seq<T>)
    ensures x in r <==> x !in xs
    ensures forall y | y != x :: y in r <==> y in xs
  {
    if x in xs then RemoveAll(xs, x) else xs + [x]
  }

  /** Toggling an absent element twice gives the sequence back exactly. */
  lemma ToggleTwiceFromAbsent<T(!new)>(xs: seq<T>, x: T)
    requires x !in xs
    ensures Toggle(Toggle(xs, x), x) == xs
  {
    var once := xs + [x];
    assert x in once;
    var twice := RemoveAll(once, x);
    RemoveAllAppend(xs, x);
  }

  lemma {:induction false} RemoveAllAppend<T(!new)>(xs: seq<T>, x: T)
    requires x !in xs
    ensures RemoveAll(xs + [x], x) == xs
  {
    if |xs| == 0 {
      assert xs + [x] == [x];
      assert RemoveAll([x], x) == [] + RemoveAll([x][1..], x);
    } else {
      assert (xs + [x])[0] == xs[0];
      assert (xs + [x])[1..] == xs[1..] + [x];
      RemoveAllAppend(xs[1..], x);
    }
  }

  /** Toggling twice always restores membership, whatever the starting sequence. */
  lemma ToggleTwiceMembership<T(!new)>(xs: seq<T>, x: T, y: T)
    ensures y in Toggle(Toggle(xs, x), x) <==> y in xs
  {
  }

  /** `Array.from(new Set(xs))`: first occurrences kept, in order. */
  function Dedupe<T(==,!new)>(xs: seq<T>): (r: seq<T>)
    ensures NoDup(r)
    ensures forall x :: x in r <==> x in xs
    ensures |r| <= |xs|
    ensures NoDup(xs) ==> r == xs
  {
    if |xs| == 0 then []
    else
      var init := xs[..|xs| - 1];
      var last := xs[|xs| - 1];
      assert xs == init + [last];
      var d := Dedupe(init);
      if last in d then d else d + [last]
  }

  /** The number of elements satisfying `f`. */
  function CountIf<T(!new)>(f: T -> bool, xs: seq<T>): (n: nat)
    ensures n <= |xs|
    ensures n == |Filter(f, xs)|
  {
    if |xs| == 0 then 0
    else (if f(xs[0]) then 1 else 0) + CountIf(f, xs[1..])
  }

  /** `xs.flatMap(f)`. */
  function FlatMap<T(!new), U(!new)>(f: T -> seq<U>, xs: seq<T>): (r: seq<U>)
    ensures forall y :: y in r <==> exists x :: x in xs && y in f(x)
  {
    if |xs| == 0 then []
    else
      var rest := FlatMap(f, xs[1..]);
      assert forall x :: x in xs <==> x == xs[0] || x in xs[1..];
      f(xs[0]) + rest
  }

  /** `next.has(x) ? next.delete(x) : next.add(x)` on a copy of a `Set`. */
  function ToggleMember<T(!new)>(s: set<T>, x: T): (r: set<T>)
    ensures x in r <==> x !in s
    ensures forall y | y != x :: y in r <==> y in s
  {
    if x in s then s - {x} else s + {x}
  }

  /** Toggling the same member twice gives the set back. */
  lemma ToggleMemberTwice<T(!new)>(s: set<T>, x: T)
    ensures ToggleMember(ToggleMember(s, x), x) == s
  {
  }

  /** `xs.reduce((sum, x) => sum + f(x), 0)`. */
  function Sum<T>(f: T -> int, xs: seq<T>): int
    decreases |xs|
  {
    if |xs| == 0 then 0 else Sum(f, xs[..|xs| - 1]) + f(xs[|xs| - 1])
  }

  /** A sum of positive terms is at least the number of terms. */
  lemma {:induction false} SumPositive<T>(f: T -> int, xs: seq<T>)
    requires forall i | 0 <= i < |xs| :: f(xs[i]) > 0
    ensures Sum(f, xs) >= |xs|
    decreases |xs|
  {
    if |xs| > 0 {
      SumPositive(f, xs[..|xs| - 1]);
    }
  }

  /** Summing the images of a mapping is summing the composed function. */
  lemma {:induction false} SumMap<T, U>(f: U -> int, g: T -> U, h: T -> int, xs: seq<T>)
    requires forall x :: f(g(x)) == h(x)
    ensures Sum(f, Map(g, xs)) == Sum(h, xs)
    decreases |xs|
  {
    if |xs| > 0 {
      var init := xs[..|xs| - 1];
      SumMap(f, g, h, init);
      assert Map(g, xs)[..|xs| - 1] == Map(g, init);
    }
  }

  /** Filtering a sequence whose every element passes gives it back. */
  lemma {:induction false} FilterAll<T(!new)>(f: T -> bool, xs: seq<T>)
    requires forall i | 0 <= i < |xs| :: f(xs[i])
    ensures Filter(f, xs) == xs
    decreases |xs|
  {
    if |xs| > 0 {
      FilterAll(f, xs[1..]);
    }
  }

  /** Filtering distributes over concatenation. */
  lemma {:induction false} FilterAppend<T(!new)>(f: T -> bool, a: seq<T>, b: seq<T>)
    ensures Filter(f, a + b) == Filter(f, a) + Filter(f, b)
    decreases |a|
  {
    if |a| > 0 {
      assert (a + b)[1..] == a[1..] + b;
      FilterAppend(f, a[1..], b);
    } else {
      assert a + b == b;
    }
  }
  /** Filtering keeps every copy of a passing element and no copy of a failing one. */
  lemma {:induction false} FilterCounts<T(!new)>(f: T -> bool, xs: seq<T>)
    ensures forall x :: multiset(Filter(f, xs))[x] == if f(x) then multiset(xs)[x] else 0
    decreases |xs|
  {
    if |xs| > 0 {
      FilterCounts(f, xs[1..]);
      assert xs == [xs[0]] + xs[1..];
    }
  }

  /** Mapping distributes over concatenation. */
  lemma MapAppend<T, U>(f: T -> U, a: seq<T>, b: seq<T>)
    ensures Map(f, a + b) == Map(f, a) + Map(f, b)
  {
    assert |Map(f, a + b)| == |Map(f, a) + Map(f, b)|;
    forall i | 0 <= i < |a + b| ensures Map(f, a + b)[i] == (Map(f, a) + Map(f, b))[i] {
      if i < |a| {
        assert (a + b)[i] == a[i];
      } else {
        assert (a + b)[i] == b[i - |a|];
      }
    }
  }

  /** Two sequences holding the same elements, in any order, map to sequences holding the same images. */
  lemma {:induction false} MapPermutation<T, U>(f: T -> U, a: seq<T>, b: seq<T>)
    requires multiset(a) == multiset(b)
    ensures multiset(Map(f, a)) == multiset(Map(f, b))
    decreases |a|
  {
    if |a| == 0 {
      assert |multiset(b)| == 0;
    } else {
      var x := a[0];
      assert x in multiset(b);
      var k :| 0 <= k < |b| && b[k] == x;
      var rest := b[..k] + b[k + 1..];
      assert b == b[..k] + [x] + b[k + 1..];
      assert a == [x] + a[1..];
      assert multiset(a) == multiset{x} + multiset(a[1..]);
      assert multiset(b) == multiset(b[..k]) + multiset{x} + multiset(b[k + 1..]);
      assert multiset(rest) == multiset(b[..k]) + multiset(b[k + 1..]);
      forall y ensures multiset(a[1..])[y] == multiset(rest)[y] {
        assert multiset(a)[y] == multiset(b)[y];
      }
      assert multiset(a[1..]) == multiset(rest);
      MapPermutation(f, a[1..], rest);
      MapAppend(f, [x], a[1..]);
      MapAppend(f, b[..k] + [x], b[k + 1..]);
      MapAppend(f, b[..k], [x]);
      MapAppend(f, b[..k], b[k + 1..]);
    }
  }

  /** The elements of a duplicate-free sequence form a set of the same size. */
  lemma {:induction false} NoDupSetSize<T>(xs: seq<T>)
    requires NoDup(xs)
    ensures |set x | x in xs| == |xs|
  {
    if |xs| > 0 {
      assert xs == [xs[0]] + xs[1..];
      NoDupCons(xs[0], xs[1..]);
      NoDupSetSize(xs[1..]);
      assert (set x | x in xs) == {xs[0]} + (set x | x in xs[1..]);
    }
  }

  /** A sequence has at least as many positions as distinct elements. */
  lemma {:induction false} SetSizeBound<T>(ys: seq<T>)
    ensures |set y | y in ys| <= |ys|
  {
    if |ys| > 0 {
      SetSizeBound(ys[1..]);
      assert (set y | y in ys) == {ys[0]} + (set y | y in ys[1..]);
    }
  }

  /** A subset is no larger than its superset. */
  lemma {:induction false} SubsetSize<T>(a: set<T>, b: set<T>)
    requires a <= b
    ensures |a| <= |b|
    decreases |a|
  {
    if a != {} {
      var x :| x in a;
      SubsetSize(a - {x}, b - {x});
    }
  }

  /** Pigeonhole: a duplicate-free sequence drawn from `ys` is no longer than `ys`. */
  lemma NoDupBound<T>(xs: seq<T>, ys: seq<T>)
    requires NoDup(xs)
    requires forall x | x in xs :: x in ys
    ensures |xs| <= |ys|
  {
    NoDupSetSize(xs);
    SetSizeBound(ys);
    SubsetSize(set x | x in xs, set y | y in ys);
  }

  /** `xs.find(f)`: the first element satisfying `f`, if any. */
  function Find<T(==)>(f: T -> bool, xs: seq<T>): (r: Option<T>)
    ensures r.None? <==> forall k | 0 <= k < |xs| :: !f(xs[k])
    ensures r.Some? ==> exists k | 0 <= k < |xs| :: (xs[k] == r.value && f(xs[k]) && forall j | 0 <= j < k :: !f(xs[j]))
  {
    if |xs| == 0 then None
    else if f(xs[0]) then Some(xs[0])
    else
      var r := Find(f, xs[1..]);
      if r.Some? then
        var k :| 0 <= k < |xs[1..]| && xs[1..][k] == r.value && f(xs[1..][k]) && forall j | 0 <= j < k :: !f(xs[1..][j]);
        assert xs[k + 1] == r.value && forall j | 0 <= j < k + 1 :: !f(xs[j]);
        r
      else r
  }

  /** The element `Find` returns is the one at the first position satisfying `f`. */
  lemma FindFirst<T>(f: T -> bool, xs: seq<T>, k: nat)
    requires k < |xs| && f(xs[k])
    requires forall j | 0 <= j < k :: !f(xs[j])
    ensures Find(f, xs) == Some(xs[k])
  {
    var r := Find(f, xs);
    var m :| 0 <= m < |xs| && xs[m] == r.value && f(xs[m]) && forall j | 0 <= j < m :: !f(xs[j]);
    assert m == k;
  }
}

=== FILE: sorting.dfy ===
/**
 * `[...xs].sort(compare)`: a stable sort by a comparator. The comparator is given as the
 * relation "may come before", which a JavaScript comparator `c` induces as `c(a, b) <= 0`.
 */
module Sorting {

  /** The relation orders every pair and is transitive, as a consistent comparator's is. */
  ghost predicate TotalPreorder<T(!new)>(le: (T, T) -> bool) {
    && (forall a, b :: le(a, b) || le(b, a))
    && (forall a, b, c :: le(a, b) && le(b, c) ==> le(a, c))
  }

  /** Every element may come before every later one. */
  predicate Sorted<T>(le: (T, T) -> bool, s: seq<T>) {
    forall i, j | 0 <= i < j < |s| :: le(s[i], s[j])
  }

  /** `x` placed before the first element it may precede. */
  function Insert<T>(le: (T, T) -> bool, x: T, s: seq<T>): (r: seq<T>)
    ensures |r| == |s| + 1
    ensures multiset(r) == multiset(s) + multiset{x}
  {
    if |s| == 0 then [x]
    else if le(x, s[0]) then [x] + s
    else
      assert s == [s[0]] + s[1..];
      [s[0]] + Insert(le, x, s[1..])
  }

  /** Inserting into a sorted sequence keeps it sorted. */
  lemma {:induction false} InsertSorted<T(!new)>(le: (T, T) -> bool, x: T, s: seq<T>)
    requires TotalPreorder(le) && Sorted(le, s)
    ensures Sorted(le, Insert(le, x, s))
  {
    if |s| > 0 {
      var r := Insert(le, x, s);
      if le(x, s[0]) {
        forall i, j | 0 <= i < j < |r| ensures le(r[i], r[j]) {
          if i == 0 && j > 1 {
            assert le(s[0], s[j - 1]);
          }
        }
      } else {
        var t := Insert(le, x, s[1..]);
        InsertSorted(le, x, s[1..]);
        assert le(s[0], x);
        forall y | y in t ensures le(s[0], y) {
          assert y in multiset(t);
          if y != x {
            var k :| 0 <= k < |s[1..]| && s[1..][k] == y;
            assert s[k + 1] == y;
          }
        }
        forall i, j | 0 <= i < j < |r| ensures le(r[i], r[j]) {
          if i == 0 {
            assert r[j] == t[j - 1];
            assert t[j - 1] in t;
          } else {
            assert r[i] == t[i - 1] && r[j] == t[j - 1];
          }
        }
      }
    }
  }

  /** `xs` rearranged by inserting each element, last first, into the sorted rest. */
  function Sort<T(!new)>(le: (T, T) -> bool, xs: seq<T>): (r: seq<T>)
    ensures |r| == |xs|
    ensures multiset(r) == multiset(xs)
  {
    if |xs| == 0 then []
    else
      assert xs == [xs[0]] + xs[1..];
      Insert(le, xs[0], Sort(le, xs[1..]))
  }

  /** With a consistent comparator the result is in order. */
  lemma {:induction false} SortSorts<T(!new)>(le: (T, T) -> bool, xs: seq<T>)
    requires TotalPreorder(le)
    ensures Sorted(le, Sort(le, xs))
  {
    if |xs| > 0 {
      SortSorts(le, xs[1..]);
      InsertSorted(le, xs[0], Sort(le, xs[1..]));
    }
  }

  /** A sequence already in order is left as it is. */
  lemma {:induction false} SortSorted<T(!new)>(le: (T, T) -> bool, xs: seq<T>)
    requires Sorted(le, xs)
    ensures Sort(le, xs) == xs
  {
    if |xs| > 0 {
      assert Sorted(le, xs[1..]) by {
        forall i, j | 0 <= i < j < |xs[1..]| ensures le(xs[1..][i], xs[1..][j]) {
          assert xs[1..][i] == xs[i + 1] && xs[1..][j] == xs[j + 1];
        }
      }
      SortSorted(le, xs[1..]);
      if |xs| > 1 {
        assert le(xs[0], xs[1]);
      }
    }
  }
}

=== FILE: status_mapping.dfy ===
/**
 * The translation between the backend's collaboration statuses, which say
 * `declined`, and the front end's, which say `rejected`.
 */
module StatusMapping {

  /** The statuses the backend sends. */
  predicate IsBackendStatus(s: string) {
    s == "pending" || s == "accepted" || s == "declined" || s == "negotiating" || s == "completed" || s == "cancelled"
  }

  /** The statuses the front end shows. */
  predicate IsFrontendStatus(s: string) {
    s == "pending" || s == "accepted" || s == "rejected" || s == "negotiating" || s == "completed" || s == "cancelled"
  }

  /** Backend to front end: only `declined` is renamed, every other string passes through. */
  function ToFrontendStatus(backend: string): (r: string)
    ensures backend == "declined" ==> r == "rejected"
    ensures backend != "declined" ==> r == backend
    ensures IsBackendStatus(backend) ==> IsFrontendStatus(r)
  {
    if backend == "declined" then "rejected" else backend
  }

  /** Front end to backend: only `rejected` is renamed, every other string passes through. */
  function ToBackendStatus(frontend: string): (r: string)
    ensures frontend == "rejected" ==> r == "declined"
    ensures frontend != "rejected" ==> r == frontend
    ensures IsFrontendStatus(frontend) ==> IsBackendStatus(r)
  {
    if frontend == "rejected" then "declined" else frontend
  }

  /** Every front-end status survives a trip to the backend and back. */
  lemma FrontendRoundTrip(f: string)
    requires IsFrontendStatus(f)
    ensures ToFrontendStatus(ToBackendStatus(f)) == f
  {
  }

  /** Every backend status survives a trip to the front end and back. */
  lemma BackendRoundTrip(b: string)
    requires IsBackendStatus(b)
    ensures ToBackendStatus(ToFrontendStatus(b)) == b
  {
  }

  /** Outside the status vocabularies the round trip can fail: `declined` given as a front-end status comes back as `rejected`. */
  lemma RoundTripNeedsVocabulary()
    ensures ToFrontendStatus(ToBackendStatus("declined")) == "rejected"
  {
  }

  const BackendToFrontendStatus: map<string, string> := map[
    "pending" := "pending", "accepted" := "accepted", "declined" := "rejected",
    "negotiating" := "negotiating", "completed" := "completed", "cancelled" := "cancelled"
  ]

  const FrontendToBackendStatus: map<string, string> := map[
    "pending" := "pending", "accepted" := "accepted", "rejected" := "declined",
    "negotiating" := "negotiating", "completed" := "completed", "cancelled" := "cancelled"
  ]

  /** The backend-to-front-end table is the conversion function on exactly the backend statuses. */
  lemma BackendTableAgrees()
    ensures forall s :: s in BackendToFrontendStatus <==> IsBackendStatus(s)
    ensures forall s | s in BackendToFrontendStatus :: BackendToFrontendStatus[s] == ToFrontendStatus(s)
  {
  }

  /** The front-end-to-backend table is the conversion function on exactly the front-end statuses. */
  lemma FrontendTableAgrees()
    ensures forall s :: s in FrontendToBackendStatus <==> IsFrontendStatus(s)
    ensures forall s | s in FrontendToBackendStatus :: FrontendToBackendStatus[s] == ToBackendStatus(s)
  {
  }
}

=== FILE: step_indicators.dfy ===
/**
 * `StepIndicators`: the numbered circles across the top of the wizard, one per step,
 * joined by connectors.
 */
module StepIndicators {
  import Seqs

  /** How a step is drawn relative to the current one. */
  datatype State = Active | Completed | Upcoming

  /**
   * One step's circle: its 1-based number, its state, whether it shows a check mark
   * instead of the number, and whether a connector follows it (and if so, whether that
   * connector is highlighted).
   */
  datatype Indicator = Indicator(number: nat, state: State, showsCheck: bool, connector: bool, connectorHighlighted: bool)

  function IndicatorAt(count: nat, currentStep: int, index: nat): (r: Indicator)
    requires index < count
  {
    var n := index + 1;
    var state := if currentStep == n then Active else if currentStep > n then Completed else Upcoming;
    Indicator(n, state, currentStep > n, index < count - 1, currentStep > n)
  }

  /**
   * The indicators for the step titles `steps`: step `k` is active exactly on step `k` and
   * completed exactly after it, only completed steps show a check, and every step except the
   * last is followed by a connector.
   */
  function Render(steps: seq<string>, currentStep: int): (r: seq<Indicator>)
    ensures |r| == |steps|
    ensures forall k | 0 <= k < |r| :: r[k].number == k + 1
    ensures forall k | 0 <= k < |r| :: (r[k].state == Active <==> currentStep == k + 1)
    ensures forall k | 0 <= k < |r| :: (r[k].state == Completed <==> currentStep > k + 1)
    ensures forall k | 0 <= k < |r| :: (r[k].showsCheck <==> r[k].state == Completed)
    ensures forall k | 0 <= k < |r| :: (r[k].connector <==> k < |r| - 1)
    ensures forall k | 0 <= k < |r| :: (r[k].connectorHighlighted <==> r[k].state == Completed)
  {
    seq(|steps|, k requires 0 <= k < |steps| => IndicatorAt(|steps|, currentStep, k))
  }

  /** Completed steps come first: a step before a completed one is completed too, and at most one step is active. */
  lemma CompletedPrefix(steps: seq<string>, currentStep: int, i: nat, j: nat)
    requires i < j < |steps|
    ensures Render(steps, currentStep)[j].state == Completed ==> Render(steps, currentStep)[i].state == Completed
    ensures !(Render(steps, currentStep)[i].state == Active && Render(steps, currentStep)[j].state == Active)
  {
  }

  predicate HasConnector(d: Indicator) {
    d.connector
  }

  /** The connectors drawn: one fewer than the steps. */
  lemma ConnectorCount(steps: seq<string>, currentStep: int)
    requires |steps| > 0
    ensures Seqs.CountIf(HasConnector, Render(steps, currentStep)) == |steps| - 1
  {
    AllButLast(Render(steps, currentStep));
  }

  lemma {:induction false} AllButLast(ds: seq<Indicator>)
    requires |ds| > 0
    requires forall k | 0 <= k < |ds| :: (ds[k].connector <==> k < |ds| - 1)
    ensures Seqs.CountIf(HasConnector, ds) == |ds| - 1
  {
    if |ds| > 1 {
      AllButLast(ds[1..]);
    }
  }
}

=== FILE: text.dfy ===
/**
 * The string operations of the JavaScript runtime that the front end relies on:
 * `trim`, ASCII `toLowerCase`/`toUpperCase`, `startsWith`, `includes`, `join`,
 * `substring(0, n)`, `parseInt` in radix 10, and decimal rendering of a count.
 */
module Text {
  import opened Wrappers

  /** The white-space characters `String.prototype.trim` removes that this model knows. */
  predicate IsSpace(c: char) {
    c == ' ' || c == '\t' || c == '\n' || c == '\r' || c == '\U{B}' || c == '\U{C}'
    || c == '\U{A0}' || c == '\U{FEFF}' || c == '\U{2028}' || c == '\U{2029}'
  }

  /** `!s.trim()`: the string is empty or consists of white space only. */
  predicate IsBlank(s: string) {
    forall i | 0 <= i < |s| :: IsSpace(s[i])
  }

  /** The length of the white-space run at the start of `s`. */
  function LeadingSpaces(s: string): (n: nat)
    ensures n <= |s|
    ensures IsBlank(s[..n])
    ensures n < |s| ==> !IsSpace(s[n])
  {
    if |s| == 0 || !IsSpace(s[0]) then 0
    else
      var k := LeadingSpaces(s[1..]);
      assert s[1..][..k] == s[1..k + 1];
      1 + k
  }

  /** The length of the white-space run at the end of `s`. */
  function TrailingSpaces(s: string): (n: nat)
    ensures n <= |s|
    ensures IsBlank(s[|s| - n..])
    ensures n < |s| ==> !IsSpace(s[|s| - n - 1])
  {
    if |s| == 0 || !IsSpace(s[|s| - 1]) then 0
    else
      var k := TrailingSpaces(s[..|s| - 1]);
      assert s[..|s| - 1][|s| - 1 - k..] == s[|s| - 1 - k..|s| - 1];
      1 + k
  }

  /** A string JavaScript treats as true: present and non-empty. */
  predicate Truthy(s: Option<string>) {
    s.Some? && s.value != ""
  }

  /** `a || b` on optional strings. */
  function Or(a: Option<string>, b: Option<string>): (r: Option<string>)
    ensures Truthy(r) <==> Truthy(a) || Truthy(b)
    ensures Truthy(a) ==> r == a
    ensures !Truthy(a) ==> r == b
  {
    if Truthy(a) then a else b
  }

  /** `s || fallback` on a string: the text when it is non-empty, the fallback otherwise. */
  function TextOr(s: Option<string>, fallback: string): (r: string)
    ensures Truthy(s) ==> r == s.value
    ensures !Truthy(s) ==> r == fallback
  {
    if Truthy(s) then s.value else fallback
  }

  /** `s || undefined` on a string. */
  function OrUndefined(s: string): (r: Option<string>)
    ensures r.None? <==> s == ""
    ensures r.Some? ==> r.value == s
  {
    if s == "" then None else Some(s)
  }

  /** `s.trim()`. */
  function Trim(s: string): (r: string)
    ensures |r| <= |s|
    ensures r == [] <==> IsBlank(s)
  {
    var i := LeadingSpaces(s);
    var rest := s[i..];
    var t := TrailingSpaces(rest);
    var r := rest[..|rest| - t];
    assert r == [] ==> IsBlank(s) by {
      if r == [] {
        assert rest[|rest| - t..] == rest;
        assert IsBlank(rest);
        assert i == |s|;
        assert s[..i] == s;
      }
    }
    r
  }

  /**
   * The trimmed string is the middle of `s`: it starts after the leading white space, only
   * white space follows it, and it neither starts nor ends with white space.
   */
  lemma TrimShape(s: string)
    ensures LeadingSpaces(s) + |Trim(s)| <= |s|
    ensures Trim(s) == s[LeadingSpaces(s)..LeadingSpaces(s) + |Trim(s)|]
    ensures IsBlank(s[LeadingSpaces(s) + |Trim(s)|..])
    ensures |Trim(s)| > 0 ==> !IsSpace(Trim(s)[0]) && !IsSpace(Trim(s)[|Trim(s)| - 1])
  {
    var i := LeadingSpaces(s);
    var rest := s[i..];
    var t := TrailingSpaces(rest);
    assert rest[|rest| - t..] == s[i + |Trim(s)|..];
  }

  /** Trimming twice is trimming once. */
  lemma TrimIdempotent(s: string)
    ensures Trim(Trim(s)) == Trim(s)
  {
    TrimShape(s);
    var r := Trim(s);
    if |r| > 0 {
      assert LeadingSpaces(r) == 0;
      assert TrailingSpaces(r) == 0;
    }
  }

  function LowerChar(c: char): char {
    if 'A' <= c <= 'Z' then (c as int + 32) as char else c
  }

  function UpperChar(c: char): char {
    if 'a' <= c <= 'z' then (c as int - 32) as char else c
  }

  /** `s.toLowerCase()` on the ASCII letters. */
  function ToLower(s: string): (r: string)
    ensures |r| == |s|
    ensures forall i | 0 <= i < |s| :: r[i] == LowerChar(s[i])
  {
    seq(|s|, i requires 0 <= i < |s| => LowerChar(s[i]))
  }

  /** `s.toUpperCase()` on the ASCII letters. */
  function ToUpper(s: string): (r: string)
    ensures |r| == |s|
    ensures forall i | 0 <= i < |s| :: r[i] == UpperChar(s[i])
  {
    seq(|s|, i requires 0 <= i < |s| => UpperChar(s[i]))
  }

  /** Lower-casing is idempotent, so lookups keyed by a lower-cased string ignore case. */
  lemma ToLowerIdempotent(s: string)
    ensures ToLower(ToLower(s)) == ToLower(s)
  {
  }

  /** `s.startsWith(p)`. */
  predicate StartsWith(s: string, p: string) {
    |p| <= |s| && s[..|p|] == p
  }

  /** `/^https?:\/\//.test(s)`: the string starts with `http://` or `https://`. */
  predicate HasHttpScheme(s: string) {
    StartsWith(s, "http://") || StartsWith(s, "https://")
  }

  /** `s.includes(sub)`: `sub` occurs in `s` at some position. */
  predicate Contains(s: string, sub: string)
    decreases |s|
  {
    StartsWith(s, sub) || (|s| > 0 && Contains(s[1..], sub))
  }

  /** `Contains` agrees with the definition by position. */
  lemma {:induction false} ContainsAt(s: string, sub: string, k: nat)
    requires k + |sub| <= |s| && s[k..k + |sub|] == sub
    ensures Contains(s, sub)
    decreases k
  {
    if k > 0 {
      assert s[1..][k - 1..k - 1 + |sub|] == s[k..k + |sub|];
      ContainsAt(s[1..], sub, k - 1);
    }
  }

  /** Every string contains the empty string. */
  lemma ContainsEmpty(s: string)
    ensures Contains(s, "")
  {
    assert StartsWith(s, "");
  }

  /** `xs.join(sep)`. */
  function Join(xs: seq<string>, sep: string): (r: string)
    ensures |xs| == 0 ==> r == ""
    ensures |xs| == 1 ==> r == xs[0]
  {
    if |xs| == 0 then ""
    else if |xs| == 1 then xs[0]
    else xs[0] + sep + Join(xs[1..], sep)
  }

  /** `s.substring(0, n)` for `n >= 0`. */
  function Prefix(s: string, n: nat): (r: string)
    ensures |r| == if n <= |s| then n else |s|
    ensures StartsWith(s, r)
  {
    if n <= |s| then s[..n] else s
  }

  /** `s.replace(pat, "")` for a literal, non-empty `pat`: the first occurrence removed. */
  function RemoveFirst(s: string, pat: string): (r: string)
    requires |pat| > 0
    ensures |r| == |s| || |r| == |s| - |pat|
    ensures !Contains(s, pat) ==> r == s
    decreases |s|
  {
    if StartsWith(s, pat) then s[|pat|..]
    else if |s| == 0 then s
    else [s[0]] + RemoveFirst(s[1..], pat)
  }

  /** `s.replace(from, to)` for single characters: only the first occurrence is replaced. */
  function ReplaceFirstChar(s: string, from: char, to: char): (r: string)
    ensures |r| == |s|
    ensures from !in s ==> r == s
    ensures from in s ==> exists k | 0 <= k < |s| :: s[k] == from && from !in s[..k] && r == s[k := to]
  {
    if |s| == 0 then s
    else if s[0] == from then s[0 := to]
    else
      var rest := ReplaceFirstChar(s[1..], from, to);
      assert from in s ==> from in s[1..];
      if from in s then
        var k :| 0 <= k < |s[1..]| && s[1..][k] == from && from !in s[1..][..k] && rest == s[1..][k := to];
        assert s[k + 1] == from && s[..k + 1] == [s[0]] + s[1..][..k];
        assert [s[0]] + rest == s[k + 1 := to];
        [s[0]] + rest
      else [s[0]] + rest
  }

  predicate IsDigit(c: char) {
    '0' <= c <= '9'
  }

  predicate AllDigits(s: string) {
    forall i | 0 <= i < |s| :: IsDigit(s[i])
  }

  /** The length of the run of decimal digits at the start of `s`. */
  function DigitRun(s: string): (n: nat)
    ensures n <= |s|
    ensures AllDigits(s[..n])
    ensures n < |s| ==> !IsDigit(s[n])
  {
    if |s| == 0 || !IsDigit(s[0]) then 0
    else
      var k := DigitRun(s[1..]);
      assert s[1..][..k] == s[1..k + 1];
      1 + k
  }

  function DigitValue(c: char): nat
    requires IsDigit(c)
  {
    c as int - '0' as int
  }

  /** The number a string of decimal digits denotes. */
  function DigitsValue(s: string): nat
    requires AllDigits(s)
  {
    if |s| == 0 then 0 else DigitsValue(s[..|s| - 1]) * 10 + DigitValue(s[|s| - 1])
  }

  /**
   * `parseInt(s)` in radix 10: leading white space skipped, an optional sign, then the
   * longest run of digits; `None` is `NaN` (no digit where one was expected).
   */
  function ParseInt(s: string): (r: Option<int>)
    ensures r.None? <==> DigitRun(SignStripped(s[LeadingSpaces(s)..])) == 0
  {
    var t := s[LeadingSpaces(s)..];
    var body := SignStripped(t);
    var n := DigitRun(body);
    if n == 0 then None
    else
      var v: int := DigitsValue(body[..n]);
      Some(if |t| > 0 && t[0] == '-' then -v else v)
  }

  function SignStripped(t: string): string {
    if |t| > 0 && (t[0] == '-' || t[0] == '+') then t[1..] else t
  }

  function DigitChar(d: nat): (c: char)
    requires d < 10
    ensures IsDigit(c) && DigitValue(c) == d
  {
    ('0' as int + d) as char
  }

  /** The decimal rendering of `n`, as template literals print a count. */
  function NatToString(n: nat): (r: string)
    ensures |r| > 0 && AllDigits(r)
  {
    if n < 10 then [DigitChar(n)] else NatToString(n / 10) + [DigitChar(n % 10)]
  }

  /** Reading back a rendered number gives the number. */
  lemma {:induction false} DigitsValueOfNatToString(n: nat)
    ensures DigitsValue(NatToString(n)) == n
  {
    var s := NatToString(n);
    if n >= 10 {
      assert s[..|s| - 1] == NatToString(n / 10);
      DigitsValueOfNatToString(n / 10);
    }
  }

  /** `parseInt` inverts the decimal rendering. */
  lemma ParseIntNatToString(n: nat)
    ensures ParseInt(NatToString(n)) == Some(n)
  {
    var s := NatToString(n);
    assert !IsSpace(s[0]);
    assert LeadingSpaces(s) == 0;
    assert s[0..] == s;
    assert SignStripped(s) == s;
    assert DigitRun(s) == |s| by {
      DigitRunAll(s);
    }
    assert s[..|s|] == s;
    DigitsValueOfNatToString(n);
  }

  /** `parseInt` reads a rendered number back from the front of a text, stopping at the first non-digit. */
  lemma ParseIntLeadingNumber(n: nat, rest: string)
    requires |rest| > 0 && !IsDigit(rest[0])
    ensures ParseInt(NatToString(n) + rest) == Some(n)
  {
    var d := NatToString(n);
    var s := d + rest;
    assert s[0] == d[0] && IsDigit(s[0]) && !IsSpace(s[0]);
    assert LeadingSpaces(s) == 0;
    assert s[0..] == s;
    assert SignStripped(s) == s;
    DigitRunPrefix(d, rest);
    assert s[..|d|] == d;
    DigitsValueOfNatToString(n);
  }

  lemma {:induction false} DigitRunPrefix(d: string, rest: string)
    requires AllDigits(d) && |rest| > 0 && !IsDigit(rest[0])
    ensures DigitRun(d + rest) == |d|
  {
    if |d| > 0 {
      assert (d + rest)[1..] == d[1..] + rest;
      DigitRunPrefix(d[1..], rest);
    } else {
      assert d + rest == rest;
    }
  }

  lemma {:induction false} DigitRunAll(s: string)
    requires AllDigits(s)
    ensures DigitRun(s) == |s|
  {
    if |s| > 0 {
      DigitRunAll(s[1..]);
    }
  }

  /**
   * Ordering of strings by character code, shorter first on a common prefix; the model's
   * stand-in for `a.localeCompare(b) <= 0`.
   */
  predicate StrLe(a: string, b: string) {
    |a| == 0 || (|b| > 0 && (a[0] < b[0] || (a[0] == b[0] && StrLe(a[1..], b[1..]))))
  }

  /** Any two strings are ordered one way or the other. */
  lemma {:induction false} StrLeTotal(a: string, b: string)
    ensures StrLe(a, b) || StrLe(b, a)
  {
    if |a| > 0 && |b| > 0 && a[0] == b[0] {
      StrLeTotal(a[1..], b[1..]);
    }
  }

  /** The ordering is transitive. */
  lemma {:induction false} StrLeTrans(a: string, b: string, c: string)
    requires StrLe(a, b) && StrLe(b, c)
    ensures StrLe(a, c)
  {
    if |a| > 0 && a[0] == b[0] && b[0] == c[0] {
      StrLeTrans(a[1..], b[1..], c[1..]);
    }
  }
}

=== FILE: validation.dfy ===
/**
 * The shape shared by the form validators: a list of rules checked in order, each with
 * the message reported when it is the first one to fail.
 */
module Validation {
  import opened Wrappers

  /** A rule: whether it holds, and the message shown when it is the first to fail. */
  datatype Rule<M> = Rule(holds: bool, message: M)

  /** The message of the first rule that does not hold, or `None` when all hold. */
  function FirstFailure<M>(rules: seq<Rule<M>>): Option<M> {
    FailureFrom(rules, 0)
  }

  /** The message of the first rule at or after position `k` that does not hold. */
  function FailureFrom<M>(rules: seq<Rule<M>>, k: nat): Option<M>
    decreases |rules| - k
  {
    if k >= |rules| then None
    else if !rules[k].holds then Some(rules[k].message)
    else FailureFrom(rules, k + 1)
  }

  lemma {:induction false} FailureFromSpec<M>(rules: seq<Rule<M>>, k: nat)
    ensures FailureFrom(rules, k).None? <==> forall j | k <= j < |rules| :: rules[j].holds
    ensures FailureFrom(rules, k).Some? ==>
      exists m | k <= m < |rules| :: !rules[m].holds && rules[m].message == FailureFrom(rules, k).value
        && forall j | k <= j < m :: rules[j].holds
    decreases |rules| - k
  {
    if k < |rules| && rules[k].holds {
      FailureFromSpec(rules, k + 1);
      if FailureFrom(rules, k + 1).Some? {
        var m :| k + 1 <= m < |rules| && !rules[m].holds && rules[m].message == FailureFrom(rules, k + 1).value
          && forall j | k + 1 <= j < m :: rules[j].holds;
        assert forall j | k <= j < m :: rules[j].holds;
      }
    }
  }

  /**
   * `FirstFailure` reports nothing exactly when every rule holds, and otherwise the message
   * of a failing rule all of whose predecessors hold.
   */
  lemma FirstFailureSpec<M>(rules: seq<Rule<M>>)
    ensures FirstFailure(rules).None? <==> forall k | 0 <= k < |rules| :: rules[k].holds
    ensures FirstFailure(rules).Some? ==>
      exists k | 0 <= k < |rules| :: !rules[k].holds && rules[k].message == FirstFailure(rules).value
        && forall j | 0 <= j < k :: rules[j].holds
  {
    FailureFromSpec(rules, 0);
  }

  lemma {:induction false} FailureFromShift<M>(a: seq<Rule<M>>, b: seq<Rule<M>>, k: nat)
    requires k <= |b|
    ensures FailureFrom(a + b, |a| + k) == FailureFrom(b, k)
    decreases |b| - k
  {
    if k < |b| {
      assert (a + b)[|a| + k] == b[k];
      FailureFromShift(a, b, k + 1);
    }
  }

  lemma {:induction false} FailureFromAppend<M>(a: seq<Rule<M>>, b: seq<Rule<M>>, k: nat)
    requires k <= |a|
    ensures FailureFrom(a + b, k) == if FailureFrom(a, k).Some? then FailureFrom(a, k) else FailureFrom(b, 0)
    decreases |a| - k
  {
    if k < |a| {
      assert (a + b)[k] == a[k];
      FailureFromAppend(a, b, k + 1);
    } else {
      FailureFromShift(a, b, 0);
    }
  }

  /** Checking two lists in sequence reports the first list's failure, if any, else the second's. */
  lemma FirstFailureAppend<M>(a: seq<Rule<M>>, b: seq<Rule<M>>)
    ensures FirstFailure(a + b) == if FirstFailure(a).Some? then FirstFailure(a) else FirstFailure(b)
  {
    FailureFromAppend(a, b, 0);
  }

  /** The rules for each element of `xs` in turn, each told its position. */
  function Each<T, M>(rulesOf: (T, nat) -> seq<Rule<M>>, xs: seq<T>): seq<Rule<M>>
    decreases |xs|
  {
    if |xs| == 0 then [] else Each(rulesOf, xs[..|xs| - 1]) + rulesOf(xs[|xs| - 1], |xs| - 1)
  }

  /** Checking one more element after a passing prefix reports that element's failure. */
  lemma EachSnoc<T, M>(rulesOf: (T, nat) -> seq<Rule<M>>, xs: seq<T>, i: nat)
    requires i < |xs|
    ensures Each(rulesOf, xs[..i + 1]) == Each(rulesOf, xs[..i]) + rulesOf(xs[i], i)
  {
    assert xs[..i + 1][..i] == xs[..i];
  }

  /** A failure among the first elements is the failure of the whole list. */
  lemma {:induction false} EachPrefix<T, M>(rulesOf: (T, nat) -> seq<Rule<M>>, xs: seq<T>, j: nat)
    requires j <= |xs|
    requires FirstFailure(Each(rulesOf, xs[..j])).Some?
    ensures FirstFailure(Each(rulesOf, xs)) == FirstFailure(Each(rulesOf, xs[..j]))
    decreases |xs| - j
  {
    if j < |xs| {
      var init := xs[..|xs| - 1];
      assert init[..j] == xs[..j];
      EachPrefix(rulesOf, init, j);
      FirstFailureAppend(Each(rulesOf, init), rulesOf(xs[|xs| - 1], |xs| - 1));
    } else {
      assert xs[..j] == xs;
    }
  }

  /** When each element's rules pass exactly for the valid elements, all pass exactly when every element is valid. */
  lemma {:induction false} EachAgree<T, M>(rulesOf: (T, nat) -> seq<Rule<M>>, valid: (T, nat) -> bool, xs: seq<T>)
    requires forall x, i :: FirstFailure(rulesOf(x, i)).None? <==> valid(x, i)
    ensures FirstFailure(Each(rulesOf, xs)).None? <==> forall i | 0 <= i < |xs| :: valid(xs[i], i)
    decreases |xs|
  {
    if |xs| > 0 {
      var init := xs[..|xs| - 1];
      EachAgree(rulesOf, valid, init);
      FirstFailureAppend(Each(rulesOf, init), rulesOf(xs[|xs| - 1], |xs| - 1));
      assert forall i | 0 <= i < |init| :: init[i] == xs[i];
    }
  }

  /** Two lists checked in sequence all pass exactly when each list passes. */
  lemma AppendPasses<M>(a: seq<Rule<M>>, b: seq<Rule<M>>)
    ensures FirstFailure(a + b).None? <==> FirstFailure(a).None? && FirstFailure(b).None?
  {
    FirstFailureAppend(a, b);
  }

  /**
   * The validators' loop: the leading rules first, then the rules of each element in turn,
   * stopping at the first failure.
   */
  method Validate<T, M>(head: seq<Rule<M>>, rulesOf: (T, nat) -> seq<Rule<M>>, xs: seq<T>) returns (error: Option<M>)
    ensures error == FirstFailure(head + Each(rulesOf, xs))
  {
    FirstFailureAppend(head, Each(rulesOf, xs));
    error := FirstFailure(head);
    if error.Some? {
      return;
    }
    var i := 0;
    while i < |xs|
      invariant 0 <= i <= |xs|
      invariant FirstFailure(Each(rulesOf, xs[..i])).None?
      invariant error.None?
    {
      error := FirstFailure(rulesOf(xs[i], i));
      EachSnoc(rulesOf, xs, i);
      FirstFailureAppend(Each(rulesOf, xs[..i]), rulesOf(xs[i], i));
      if error.Some? {
        EachPrefix(rulesOf, xs, i + 1);
        return;
      }
      i := i + 1;
    }
    assert xs[..i] == xs;
  }
}

=== FILE: wrappers.dfy ===
/** The optional value used for `T | null` and `T | undefined` throughout the model. */
module Wrappers {

  datatype Option<+T> = None | Some(value: T) {

    /** The value, or `default` when absent (the `??` operator). */
    function GetOr(default: T): T {
      match this
      case Some(v) => v
      case None => default
    }

    /** This value when present, else `other` (the `??` operator between optional values). */
    function OrElse(other: Option<T>): Option<T> {
      if this.Some? then this else other
    }
  }
}
